=== FILE: README.md ===
# Toutiao blogger monitor — a Dafny model

The system watches one Toutiao (今日头条) blogger. On every cycle it:

1. opens the blogger's profile page with a headless browser;
2. extracts the article cards, normalising the read count ("5.9万阅读"), the comment count and the list time;
3. fetches each article's page to fill in the publish time, author and summary;
4. sorts the articles newest first;
5. stores every article it has not seen before in an SQLite table;
6. sends a Feishu (飞书) bot message for each new article, and marks the article as notified once the bot accepts it.

An interactive setup script writes the configuration. It checks the blogger URL, the check interval and the webhook URL, and reads the blogger's user id from a profile link.

The model covers this core. Each module follows one source file:

| module | file | form |
|---|---|---|
| `Strings`, `Records` | shared helpers | digits and `str(int)`, `str.strip`, substring search, and the article record and its dictionary form |
| `Normalizer` | `toutiao/crawler_selenium.py` | the read-count and comment-count regexes, the title chain, the time validator and `_format_publish_time`, all as pure functions |
| `Extraction` | `toutiao/crawler_selenium.py` | the URL suffix rule, card extraction, and the id-deduplicating fallback scan; the fallback scan is also a method with a loop |
| `Details` | `toutiao/crawler_selenium.py` | `_parse_article_details`: JSON-LD, then RENDER_DATA, then scripts, then selectors; the loops are methods proved equal to specification functions |
| `Listing` | `toutiao/crawler_selenium.py` | `get_latest_articles` (merge, then a stable sort newest first) and the crawler's `check_new_articles` |
| `Store` | `toutiao/database.py` | the `articles` table as a value, and the class `ArticleDatabase` whose methods update it in place |
| `Notifier` | `toutiao/feishu_notifier.py` | message text, the rich-text layout, the payloads with an optional sign, and the success predicate |
| `Monitor` | `toutiao/monitor.py` | the class `ArticleMonitor`: `check_new_articles`, `send_notifications`, `run_check_cycle` and `get_status` |
| `SetupConfig` | `setup_config.py` | `extract_user_id_from_url` and the acceptance rules for the URL, interval, webhook and secret |

The browser is not modelled. A page is the structured data the HTML parser finds in it:

- cards, with their link, read text, comment text and time text;
- the anchors on the page;
- for an article page, the JSON-LD, the RENDER_DATA map, the script texts and the selector hits.

The webhook's answer is a parameter: `verdicts(k)` is what it would return for the loop's `k`-th item (the `k`-th candidate of `run_check_cycle`, the `k`-th article of `send_notifications`), or the raw HTTP `Reply` in `Monitor.FeishuCycleMarks`. An item that is never sent, such as a repeated candidate whose insert is ignored, leaves its verdict unused. The clock is a parameter too (`now`).

On the primary extraction path, a card's list time is kept when it contains `前`, `年`, `小时`, `分钟` or `天前` (`toutiao/crawler_selenium.py:250-257`). That is a substring test, not a call to `_is_valid_time_format`. `Normalizer.ValidatorQuirks` shows the two tests disagree: the list accepts "9小时前", which the validator rejects.

## Model

| member | source | states |
|---|---|---|
| Strings.NatToString | toutiao/feishu_notifier.py:155 | `str(n)` is a non-empty digit string with no leading zero |
| Strings.NatToStringRoundTrip | toutiao/feishu_notifier.py:155 | reading the decimal rendering of `n` back gives `n` |
| Strings.DigitsRoundTrip | toutiao/crawler_selenium.py:246-248 | a canonical digit string (no leading zero) is the rendering of its own value |
| Strings.NatToStringInjective | toutiao/feishu_notifier.py:155 | distinct counts render differently |
| Strings.FindFrom | toutiao/crawler_selenium.py:199 | finds the leftmost occurrence at or after `from`, or says there is none |
| Strings.ContainsIffFound | toutiao/crawler_selenium.py:118 | Python's `in` on strings holds exactly when a search from 0 succeeds |
| Strings.BeforeFirst | toutiao/crawler_selenium.py:572 | `split(c)[0]`: the longest prefix without `c`; the character after it, if any, is `c` |
| Strings.Strip | setup_config.py:56 | the result neither starts nor ends with whitespace |
| Strings.StripRemovesOnlySpace | setup_config.py:56 | `strip()` is a slice of the input, and everything cut off is whitespace |
| Strings.StripIdempotent | setup_config.py:56 | stripping twice is stripping once |
| Strings.StripPadded | setup_config.py:56 | whitespace around an already trimmed text is removed and nothing else is |
| Strings.StripEmptyIffSpace | setup_config.py:57 | an answer strips to empty exactly when it is all whitespace |
| Normalizer.SearchRead | toutiao/crawler_selenium.py:230 | a match of `([\d.]+)([万千]?)阅读` has a non-empty digits-and-dots number and a unit of 万, 千 or nothing |
| Normalizer.ReadMatchFound | toutiao/crawler_selenium.py:230 | if a match starts anywhere at or after the search start, one is found, and its groups are those of a match no later than that one (the leftmost match) |
| Normalizer.ReadSound | toutiao/crawler_selenium.py:230 | every result of the search is a real match at or after the search start |
| Normalizer.NoReadMatchZero | toutiao/crawler_selenium.py:226-239 | a text in which the pattern matches nowhere has read count 0, even when it contains `阅读` |
| Normalizer.ReadMatchUniqueAt | toutiao/crawler_selenium.py:230 | at one position at most one pair of number and unit matches |
| Normalizer.ReadCountOfLeftmost | toutiao/crawler_selenium.py:226-239 | the read count of any text is its leftmost match's number times the unit, truncated, or a dropped card when `float()` fails |
| Normalizer.ReadCount | toutiao/crawler_selenium.py:226-239 | definition; properties in `ReadCountOfLeftmost`, `NoReadMatchZero`, `ReadCountMalformed` |
| Normalizer.ReadCountWithoutMarker | toutiao/crawler_selenium.py:230-239 | a text without `阅读` gives no match |
| Normalizer.ReadCountOfDecimal | toutiao/crawler_selenium.py:230-237 | "a.b" followed by a unit and `阅读` gives `int(float(a.b) * unit)`, computed exactly as digits × unit / 10^len(b) and truncated |
| Normalizer.ReadCountOfInteger | toutiao/crawler_selenium.py:230-237 | an integer count followed by a unit gives the number times the unit's multiplier |
| Normalizer.ReadCountOfTenThousands | toutiao/crawler_selenium.py:232-235 | "5.9万阅读" reads as 59000 |
| Normalizer.ReadCountTruncates | toutiao/crawler_selenium.py:237 | "1.9阅读" truncates to 1 instead of rounding to 2 |
| Normalizer.ReadCountMalformed | toutiao/crawler_selenium.py:230-239 | "1.2.3阅读" matches the regex, `float` rejects it, and the card is dropped |
| Normalizer.SearchComment | toutiao/crawler_selenium.py:246 | a match of `(\d+)评论` is a non-empty digit string |
| Normalizer.CommentMatchFound | toutiao/crawler_selenium.py:246 | if a match starts anywhere at or after the search start, one is found, and its group is that of a match no later than that one (the leftmost match) |
| Normalizer.CommentSound | toutiao/crawler_selenium.py:246 | every result of the search is a real match at or after the search start |
| Normalizer.NoCommentMatchZero | toutiao/crawler_selenium.py:241-248 | a text in which the pattern matches nowhere has comment count 0, even when it contains `评论` |
| Normalizer.CommentMatchUniqueAt | toutiao/crawler_selenium.py:246 | at one position at most one digit group matches |
| Normalizer.CommentCountOfLeftmost | toutiao/crawler_selenium.py:241-248 | the comment count of any text is the value of its leftmost `(\d+)评论` match, wherever it starts |
| Normalizer.CommentCount | toutiao/crawler_selenium.py:241-248 | definition; properties in `CommentCountOfLeftmost`, `NoCommentMatchZero` |
| Normalizer.CommentCountSpec | toutiao/crawler_selenium.py:241-248 | a text starting with digits and `评论` gives their value; a text without `评论` gives 0 |
| Normalizer.ChooseTitle | toutiao/crawler_selenium.py:205-212 | the stripped title attribute, else the stripped aria-label, else the link text |
| Normalizer.PlaceholderFilterIsSubsumed | toutiao/crawler_selenium.py:326-333 | the fallback's placeholder list (更多, 查看更多, 详情) never rejects a title the length rule accepts: both filters accept the same titles |
| Normalizer.OneOrTwoDigitsThen | toutiao/crawler_selenium.py:605-614 | a `\d{1,2}X` pattern matches exactly when some digit is directly followed by X |
| Normalizer.ValidatorQuirks | toutiao/crawler_selenium.py:601-617 | the 8-character minimum comes before the patterns: "9小时前" (4 characters) fails the validator although it passes the list-time filter, and "昨天16:35" (7 characters) fails although the yesterday pattern occurs in it; both pattern occurrences are proved |
| Normalizer.ChineseDateAt | toutiao/crawler_selenium.py:605-614 | "YYYY年M月D日", with 1-2 digit month and day, matches the Chinese date pattern at that position |
| Normalizer.EmbeddedDateAccepted | toutiao/crawler_selenium.py:617 | `re.search` finds a date inside surrounding text: "于2025年7月9日发布" is valid |
| Normalizer.StandardPatternAt | toutiao/crawler_selenium.py:605-614 | "YYYY-MM-DD HH:MM:SS" matches the standard pattern |
| Normalizer.CanonicalTimeIsValid | toutiao/crawler_selenium.py:591-620 | every time `_format_publish_time` produces from ISO input passes the validator |
| Normalizer.IsValidTimeFormat | toutiao/crawler_selenium.py:591-620 | definition; properties in `ValidatorQuirks`, `EmbeddedDateAccepted`, `OneOrTwoDigitsThen`, `CanonicalTimeIsValid` |
| Normalizer.FromIsoFormat | toutiao/crawler_selenium.py:569-574 | `datetime.fromisoformat` succeeds only on a real calendar date and clock time |
| Normalizer.Pad2 | toutiao/crawler_selenium.py:572 | two-digit zero padding gives two digits |
| Normalizer.Pad2RoundTrip | toutiao/crawler_selenium.py:572 | padding the value of a two-digit field gives the field back |
| Normalizer.RenderDateTime | toutiao/crawler_selenium.py:572 | `strftime('%Y-%m-%d %H:%M:%S')` output contains only digits, `-`, space and `:` |
| Normalizer.FormatPublishTime | toutiao/crawler_selenium.py:557-589 | the time is either returned unchanged or rewritten into the canonical characters; it is returned unchanged when it lacks `T` with `+` or `Z`, and when the cut text does not parse |
| Normalizer.FormatPublishTimeIdempotent | toutiao/crawler_selenium.py:557-589 | formatting an already formatted time changes nothing |
| Normalizer.IsoRoundTrip | toutiao/crawler_selenium.py:569-574 | parsing "dateTclock" and rendering it gives "date clock" |
| Normalizer.FormatIsoWithOffset | toutiao/crawler_selenium.py:569-574 | with a `+hh:mm` offset or a `Z` suffix, the offset is dropped and the wall-clock date and time are kept |
| Normalizer.SourceExampleIsCovered | toutiao/crawler_selenium.py:565-574 | the documented example "2025-07-09T11:39:17+08:00" falls under the round-trip lemmas |
| Extraction.WithArticleTab | toutiao/crawler_selenium.py:117-122 | the article-tab query is appended with `&` or `?`, unless `?source=profile&tab=article` is already in the URL |
| Extraction.WithArticleTabEndsWithTab | toutiao/crawler_selenium.py:117-122 | when the suffix is added, the URL ends with it, after exactly one separator |
| Extraction.WithArticleTabStable | toutiao/crawler_selenium.py:117-122 | for a URL without `?`, applying the rule twice is applying it once |
| Extraction.WithArticleTabRepeats | toutiao/crawler_selenium.py:117-122 | for a URL that already had a query, a second application appends the suffix again |
| Extraction.ArticleIdFrom | toutiao/crawler_selenium.py:199 | a found id is a digit run that occurs as `/article/<id>/` in the link |
| Extraction.ArticleIdFound | toutiao/crawler_selenium.py:199 | if `/article/<digits>/` occurs at or after the start, an id is found, and the id found occurs as a match no later than that one (the leftmost match) |
| Extraction.ArticleIdUniqueAt | toutiao/crawler_selenium.py:199 | at one position at most one id matches, so the leftmost match determines the id |
| Extraction.ArticleIdOfCanonicalLink | toutiao/crawler_selenium.py:199 | `/article/<d>/...` yields exactly `d` |
| Extraction.JoinUrl | toutiao/crawler_selenium.py:219 | `urljoin` onto the site origin yields an http URL ending with the href; a root-relative href is prefixed with the origin |
| Extraction.JoinUrlKeepsArticlePath | toutiao/crawler_selenium.py:219 | any text in the href, the `/article/<id>/` path included, is still in the joined URL |
| Extraction.CardTime | toutiao/crawler_selenium.py:250-257 | the card's time is kept exactly when it passes the substring filter; otherwise it is empty |
| Extraction.CardArticle | toutiao/crawler_selenium.py:189-270 | a card is dropped exactly when it has no link, no article id, a title under five characters, or an unparsable read count |
| Extraction.CardArticleFields | toutiao/crawler_selenium.py:259-270 | a kept card's record holds its id, chosen title, joined URL, normalised counts and filtered time, with empty author and summary |
| Extraction.Primary | toutiao/crawler_selenium.py:187-274 | the primary scan yields at most one record per card |
| Extraction.PrimaryAppend | toutiao/crawler_selenium.py:187-274 | the scan is per card: scanning a concatenation concatenates the scans, so card order is kept |
| Extraction.PrimaryFromCards | toutiao/crawler_selenium.py:187-274 | every record comes from some card |
| Extraction.PrimaryKeepsCards | toutiao/crawler_selenium.py:187-274 | every card that yields a record contributes it |
| Extraction.SliceEnd | toutiao/crawler_selenium.py:185 | Python's `[:max_count]` end index, including a negative `max_count` |
| Extraction.ParsePageBound | toutiao/crawler_selenium.py:162-285 | a non-negative `max_count` bounds the result; so does the number of cards when there are any |
| Extraction.PrimaryOrder | toutiao/crawler_selenium.py:185-274 | the result is the per-card records of the sliced cards, in card order |
| Extraction.FallbackScanInvariant | toutiao/crawler_selenium.py:302-352 | the fallback never yields two records with one id, and each record is an article link with an accepted title and empty stats; it stops at `max_count` |
| Extraction.FallbackScan | toutiao/crawler_selenium.py:287-352 | definition; properties in `FallbackScanInvariant`, `FallbackFromLinks`, `SeenBeforeTitleFilter` |
| Extraction.FallbackFromLinks | toutiao/crawler_selenium.py:311-350 | every fallback record was made from some link on the page: its id from the href and its URL by joining that href |
| Extraction.SeenBeforeTitleFilter | toutiao/crawler_selenium.py:316-333 | an id is marked seen before the title check, so a link with a short title hides a later link to the same article that has a good title |
| Extraction.FallbackRecords | toutiao/crawler_selenium.py:277-280 | with no cards, the result is the fallback's: distinct ids, each traced to a page link |
| Extraction.ParseArticlesFallback | toutiao/crawler_selenium.py:287-358 | the loop over the anchors computes the fallback scan |
| Extraction.ParseArticlesFromHtml | toutiao/crawler_selenium.py:162-285 | the card loop, and the fallback when no card is found, compute the page parse |
| Extraction.ParsePage | toutiao/crawler_selenium.py:162-285 | definition; properties in `ParsePageBound`, `PrimaryOrder`, `FallbackRecords`, `ParseArticlesFromHtml` |
| Details.FromJsonLd | toutiao/crawler_selenium.py:413-431 | the article id is kept, and a page without JSON-LD leaves every field empty |
| Details.FromRenderData | toutiao/crawler_selenium.py:438-463 | RENDER_DATA is consulted only when the time or the author is still missing, and fills only empty fields |
| Details.QuotedValueFrom | toutiao/crawler_selenium.py:477-487 | a `"key":"value"` hit is a non-empty quote-free value that occurs in the script |
| Details.QuotedValueFound | toutiao/crawler_selenium.py:484-487 | if `"key":"v"` occurs with a non-empty quote-free `v`, a value is found, and it occurs as a match no later than that one (the leftmost match) |
| Details.QuotedValueUniqueAt | toutiao/crawler_selenium.py:484-487 | at one position at most one value matches: it runs to the first closing quote |
| Details.ScriptTime | toutiao/crawler_selenium.py:477-497 | a time taken from a script passes the validator and is the value of one of the keys |
| Details.ScriptTimePriority | toutiao/crawler_selenium.py:477-497 | the keys are tried in order: the result comes from the first key not rejected, and there is none exactly when every key is rejected |
| Details.ScanScripts | toutiao/crawler_selenium.py:469-497 | a time found comes from a script over 50 characters, and every earlier script over 50 characters has none (the first one wins); empty means none of them has one |
| Details.FirstAuthor | toutiao/crawler_selenium.py:500-523 | the first selector hit of 2 to 50 characters that is not all digits, or empty when there is none |
| Details.FirstSummary | toutiao/crawler_selenium.py:526-544 | the first non-empty selector hit, or empty when there is none |
| Details.JsonLdWins | toutiao/crawler_selenium.py:413-431 | non-empty JSON-LD fields decide the final time (after formatting), author and summary |
| Details.RenderDataSkipped | toutiao/crawler_selenium.py:438 | once JSON-LD gave both time and author, RENDER_DATA has no influence |
| Details.ScriptsSkipped | toutiao/crawler_selenium.py:469 | once a time is known, the scripts have no influence |
| Details.ScriptTimeIsValidated | toutiao/crawler_selenium.py:469-497 | a time found in scripts is validated and then formatted; none found leaves it empty |
| Details.SelectorAuthorIsPlausible | toutiao/crawler_selenium.py:500-523 | an author from the selectors is one of the hits and passes the length and digit filter |
| Details.TimeFromScript | toutiao/crawler_selenium.py:477-497 | the loop over the time keys returns the first accepted value |
| Details.TimeFromScripts | toutiao/crawler_selenium.py:469-497 | the loop over the scripts computes `ScanScripts` |
| Details.AuthorFromSelectors | toutiao/crawler_selenium.py:500-523 | the loop over the selectors computes `FirstAuthor` |
| Details.SummaryFromSelectors | toutiao/crawler_selenium.py:526-544 | the loop over the selectors computes `FirstSummary` |
| Details.ParseArticleDetails | toutiao/crawler_selenium.py:390-555 | the four stages in order compute `DetailsSpec`, and the final time is formatted |
| Details.DetailsSpec | toutiao/crawler_selenium.py:390-555 | definition; properties in `JsonLdWins`, `RenderDataSkipped`, `ScriptsSkipped`, `ScriptTimeIsValidated`, `SelectorAuthorIsPlausible` |
| Listing.StrLessIrreflexive | toutiao/crawler_selenium.py:670 | Python string order is strict |
| Listing.StrLessTransitive | toutiao/crawler_selenium.py:670 | Python string order is transitive |
| Listing.StrLessTotal | toutiao/crawler_selenium.py:670 | distinct strings are ordered one way or the other |
| Listing.MergeDetails | toutiao/crawler_selenium.py:649-656 | a truthy detail field replaces the card's field; id, title, URL and counts are untouched |
| Listing.EnrichAll | toutiao/crawler_selenium.py:644-663 | every article is enriched in place, and the order and count are kept |
| Listing.FilterMembers | toutiao/crawler_selenium.py:666-667 | a list comprehension keeps exactly the members satisfying its condition |
| Listing.Insert | toutiao/crawler_selenium.py:670 | an insertion adds exactly one element |
| Listing.SortDesc | toutiao/crawler_selenium.py:670 | the sort is a permutation |
| Listing.InsertSorted | toutiao/crawler_selenium.py:670 | insertion keeps the newest-first order |
| Listing.SortDescSorted | toutiao/crawler_selenium.py:670 | the sort yields newest first by publish time |
| Listing.SortDescStable | toutiao/crawler_selenium.py:670 | articles with equal times keep their original relative order, as Python's stable sort does with `reverse=True` |
| Listing.ArrangePermutation | toutiao/crawler_selenium.py:665-673 | the arranged list is a permutation of the crawled one |
| Listing.Arrange | toutiao/crawler_selenium.py:665-673 | definition; properties in `ArrangePermutation`, `ArrangeTimedFirst`, `ArrangeUntimedAfter` |
| Listing.ArrangeTimedFirst | toutiao/crawler_selenium.py:666-673 | articles with a time come first, newest first |
| Listing.ArrangeUntimedAfter | toutiao/crawler_selenium.py:667-673 | articles without a time come after, in crawl order |
| Listing.GetLatestArticles | toutiao/crawler_selenium.py:622-681 | crawling, enriching and arranging compute `LatestSpec` |
| Listing.LatestSpec | toutiao/crawler_selenium.py:622-681 | definition; properties in `EnrichAll`, `Arrange*`, `GetLatestArticles` |
| Listing.CheckNewArticles | toutiao/crawler_selenium.py:683-711 | the loop keeps the articles whose id is not in the previous ids |
| Listing.NotSeenSpec | toutiao/crawler_selenium.py:699-703 | an article is reported exactly when it was crawled and its id is not among the previous ids; the filter distributes over concatenation |
| Listing.NotSeen | toutiao/crawler_selenium.py:699-703 | definition; properties in `NotSeenSpec`, `CheckNewArticles` |
| Store.DistinctCardinality | toutiao/database.py:33-45 | distinct keys in insertion order count the table's rows |
| Store.RowCount | toutiao/database.py:33-45 | in a valid table the row map and the insertion order have the same size |
| Store.AddArticleValid | toutiao/database.py:75-114 | `INSERT OR IGNORE` keeps the table well formed |
| Store.AddNewArticle | toutiao/database.py:88-107 | a new id adds one row, newer than every other and not notified; missing optional fields get their defaults; other rows are unchanged |
| Store.AddArticleSpec | toutiao/database.py:75-114 | definition; properties in `AddNewArticle`, `FirstWriteWins`, `IncompleteArticleRejected`, `AddArticleValid` |
| Store.FirstWriteWins | toutiao/database.py:88-110 | inserting an id already present changes nothing and reports `False` |
| Store.IncompleteArticleRejected | toutiao/database.py:88-114 | a missing id, title or URL raises `KeyError`, which the handler turns into `False`; a NULL one violates the NOT NULL constraint, which `OR IGNORE` skips; either way nothing is stored and the result is `False` |
| Store.CrawledArticleKey | toutiao/database.py:93 | a crawled article is keyed by its own id |
| Store.CrawledInsertion | toutiao/database.py:75-114 | storing a crawled record follows the general insert |
| Store.InsertCrawledFacts | toutiao/database.py:88-110 | storing a crawled article adds it exactly when its id is new, and leaves other rows as they were |
| Store.InsertCrawledValid | toutiao/database.py:75-114 | storing a crawled article keeps the table well formed |
| Store.MarkOnlyThat | toutiao/database.py:116-137 | marking sets only that row's flag, reports whether the row exists, and is idempotent |
| Store.MarkSpec | toutiao/database.py:116-137 | definition; properties in `MarkOnlyThat` |
| Store.UnnotifiedIds | toutiao/database.py:149-154 | the selected ids are all rows of the table |
| Store.UnnotifiedIdsSpec | toutiao/database.py:149-154 | the ids are exactly the unnotified ones, newest first |
| Store.UnnotifiedExactly | toutiao/database.py:139-164 | one dictionary per unnotified row, newest first |
| Store.Unnotified | toutiao/database.py:139-164 | definition; properties in `UnnotifiedIdsSpec`, `UnnotifiedExactly` |
| Store.LatestIds | toutiao/database.py:179-184 | every returned id names a row |
| Store.LatestCount | toutiao/database.py:166-194 | `LIMIT` yields `limit` rows, or all rows when `limit` is negative or larger than the table |
| Store.LatestCreatedAt | toutiao/database.py:179-184 | the k-th row returned is the k-th newest insertion |
| Store.LatestNewestFirst | toutiao/database.py:179-184 | rows come newest first, and every row left out is older than every row returned |
| Store.Latest | toutiao/database.py:166-194 | definition; properties in `LatestCount`, `LatestCreatedAt`, `LatestNewestFirst` |
| Store.UpgradeAddsOnlyMissing | toutiao/database.py:57-73 | the upgrade adds only the missing count columns, defaulted to 0, keeps existing values, and is idempotent |
| Store.Upgrade | toutiao/database.py:57-73 | definition; properties in `UpgradeAddsOnlyMissing` |
| Store.ArticleDatabase.constructor | toutiao/database.py:15-55 | a fresh database has an empty table |
| Store.ArticleDatabase.AddArticle | toutiao/database.py:75-114 | the table after the call is the insertion specification applied to the table before it |
| Store.ArticleDatabase.MarkAsNotified | toutiao/database.py:116-137 | the table after the call is the marking specification applied to the table before it |
| Store.ArticleDatabase.ArticleExists | toutiao/database.py:196-216 | true exactly when a row has that id |
| Store.ArticleDatabase.GetUnnotifiedArticles | toutiao/database.py:139-164 | returns the unnotified rows newest first |
| Store.ArticleDatabase.GetLatestArticles | toutiao/database.py:166-194 | returns the `limit` newest rows |
| Notifier.WanTextAccuracy | toutiao/feishu_notifier.py:152-153 | the `万` rendering of a count is within half a tenth of the exact value in ten-thousands |
| Notifier.WanText | toutiao/feishu_notifier.py:152-153 | definition; properties in `WanTextAccuracy` |
| Notifier.StatsLineOmitted | toutiao/feishu_notifier.py:147-163 | the stats line is absent exactly when neither count is positive |
| Notifier.StatsLineReadsOnly | toutiao/feishu_notifier.py:151-163 | a small positive read count alone shows as `👀 <n>阅读` |
| Notifier.StatsLineCommentsOnly | toutiao/feishu_notifier.py:158-163 | a positive comment count alone shows as `💬 <n>评论` |
| Notifier.StatsLineBoth | toutiao/feishu_notifier.py:147-163 | both counts show, reads first, joined by ` \| ` |
| Notifier.StatsLine | toutiao/feishu_notifier.py:147-163 | definition; properties in `StatsLineOmitted`, `StatsLineReadsOnly`, `StatsLineCommentsOnly`, `StatsLineBoth` |
| Notifier.ShownSummary | toutiao/feishu_notifier.py:166-171 | a summary over 150 characters is cut to its first 150 plus `...`; a shorter one is shown whole |
| Notifier.MessageFields | toutiao/feishu_notifier.py:140-180 | the message starts with the banner, title, author and time (defaults for missing keys) and ends with the link |
| Notifier.NoneAuthorShownLiterally | toutiao/feishu_notifier.py:141-178 | an author key holding None is printed as `None`, not replaced by the default |
| Notifier.CrawledArticleMessage | toutiao/feishu_notifier.py:129-186 | a crawled article always builds a message |
| Notifier.MessageFailure | toutiao/feishu_notifier.py:148-186 | building fails exactly when a count is not an integer or a truthy summary is not text |
| Notifier.BuildMessage | toutiao/feishu_notifier.py:129-186 | definition; properties in `MessageFields`, `NoneAuthorShownLiterally`, `CrawledArticleMessage`, `MessageFailure` |
| Notifier.RichField | toutiao/feishu_notifier.py:200-208 | a rich-text field is stripped, or falls back to its default |
| Notifier.RichFieldValue | toutiao/feishu_notifier.py:200-208 | a string field, or the default of a missing one, shows its stripped text, and the fallback exactly when that text is blank |
| Notifier.RichRowsLayout | toutiao/feishu_notifier.py:211-249 | banner, title and author rows, then an optional time row, then an optional link row as the only anchor |
| Notifier.RichTitleAndAuthorNeverBlank | toutiao/feishu_notifier.py:205-208 | the title and author shown are never empty |
| Notifier.RichContent | toutiao/feishu_notifier.py:188-249 | definition; properties in `RichRowsLayout`, `RichTitleAndAuthorNeverBlank` |
| Notifier.StringToSignInjective | toutiao/feishu_notifier.py:43 | `timestamp\nsecret` determines both parts, for a timestamp without a newline |
| Notifier.BeforeFirstOfSigned | toutiao/feishu_notifier.py:43 | the text before the first newline of the string to sign is the timestamp |
| Notifier.GenerateSign | toutiao/feishu_notifier.py:30-49 | definition; properties in `StringToSignInjective`, `BeforeFirstOfSigned` |
| Notifier.TextPayload | toutiao/feishu_notifier.py:51-76 | a text payload has msg_type `text` and the content; timestamp and sign appear exactly when a secret is set |
| Notifier.RichPayload | toutiao/feishu_notifier.py:78-109 | a post payload has msg_type `post`, the zh_cn title and content; timestamp and sign appear exactly when a secret is set |
| Notifier.OnlyZeroStatusSucceeds | toutiao/feishu_notifier.py:272-293 | no reply, a non-200 status, a body that is not an object with a StatusCode, or a non-zero integer StatusCode is a failure; for a 200 object body with a StatusCode, success holds exactly when the StatusCode equals 0 |
| Notifier.SendSucceeded | toutiao/feishu_notifier.py:257-293 | definition; properties in `OnlyZeroStatusSucceeds` |
| Notifier.NotifyCrawled | toutiao/feishu_notifier.py:111-127 | a crawled article is reported delivered exactly when the reply is a success |
| Notifier.Notify | toutiao/feishu_notifier.py:111-127 | definition; properties in `NotifyCrawled` |
| Monitor.IdsOfMembers | toutiao/monitor.py:105-106 | the id set of a list holds exactly its articles' ids |
| Monitor.FirstNewFrom | toutiao/monitor.py:105-109 | every stored article came from the list and was unknown before |
| Monitor.FirstNewIds | toutiao/monitor.py:105-109 | the ids added are exactly the list's ids that were unknown |
| Monitor.FirstNewDistinct | toutiao/monitor.py:105-109 | no id is added twice, even when the crawl repeats an article |
| Monitor.CheckNewStores | toutiao/monitor.py:105-109 | the table then holds the old rows unchanged plus every crawled id |
| Monitor.CheckNewReturnsFirstNew | toutiao/monitor.py:102-117 | the returned articles are the first occurrences of the unknown ids, in crawl order |
| Monitor.CheckNewValid | toutiao/monitor.py:105-109 | the table stays well formed |
| Monitor.CheckNewSpec | toutiao/monitor.py:85-121 | definition; properties in `CheckNewStores`, `CheckNewReturnsFirstNew`, `CheckNewValid` |
| Monitor.UnstoredMembers | toutiao/monitor.py:172-175 | the candidates are exactly the crawled articles not in the table; none when all are known |
| Monitor.UnstoredIds | toutiao/monitor.py:172-175 | the candidates' ids are the crawled ids minus the stored ones |
| Monitor.UnstoredFirstNew | toutiao/monitor.py:172-181 | prefiltering with `article_exists` adds nothing to what `add_article` would filter |
| Monitor.NotifyPhaseStores | toutiao/monitor.py:179-187 | every candidate is stored and old rows are unchanged |
| Monitor.NotifyPhaseAttempts | toutiao/monitor.py:179-187 | a notification is attempted once per new id, in order |
| Monitor.NotifyPhaseMarks | toutiao/monitor.py:179-187 | a candidate's row ends up notified exactly when its send was accepted |
| Monitor.NotifyPhaseValid | toutiao/monitor.py:179-187 | the table stays well formed |
| Monitor.NotifyPhase | toutiao/monitor.py:172-187 | definition; properties in `NotifyPhaseStores`, `NotifyPhaseAttempts`, `NotifyPhaseMarks`, `NotifyPhaseValid` |
| Monitor.CycleStores | toutiao/monitor.py:153-200 | after a cycle the table holds the old rows unchanged plus every crawled id |
| Monitor.CycleNotifies | toutiao/monitor.py:172-187 | a cycle notifies the first occurrence of each new id, and marks exactly the accepted ones |
| Monitor.FeishuCycleMarks | toutiao/monitor.py:179-187 | with the real webhook, a row is marked exactly when the bot replied 200 with StatusCode 0 |
| Monitor.NothingNewNothingSent | toutiao/monitor.py:164-188 | when every crawled id is known, a cycle changes nothing and sends nothing |
| Monitor.RunCheckCycleSpec | toutiao/monitor.py:153-200 | definition; properties in `CycleStores`, `CycleNotifies`, `FeishuCycleMarks`, `NothingNewNothingSent` |
| Monitor.SendAllCount | toutiao/monitor.py:133-151 | the success count is the number of accepted notifications for articles with an id |
| Monitor.SendAllMarks | toutiao/monitor.py:135-140 | only notified flags change, and a row is marked exactly when it was already marked or one of its notifications was accepted |
| Monitor.SendAllValid | toutiao/monitor.py:123-151 | the table stays well formed |
| Monitor.SendAllOutcome | toutiao/monitor.py:123-151 | the count and the marks together |
| Monitor.SendAllSpec | toutiao/monitor.py:123-151 | definition; properties in `SendAllCount`, `SendAllMarks`, `SendAllValid`, `SendAllOutcome` |
| Monitor.StatusCounts | toutiao/monitor.py:307-313 | the status shows at most 5 latest rows and the number of unnotified rows |
| Monitor.ArticleMonitor.constructor | toutiao/monitor.py:28-51 | the monitor is bound to its database and blogger URL |
| Monitor.ArticleMonitor.CheckNewArticles | toutiao/monitor.py:85-121 | crawling 10 articles and storing the unknown ones leaves the table and result given by the specification |
| Monitor.ArticleMonitor.StoreNew | toutiao/monitor.py:102-117 | the store loop computes the specification on the database |
| Monitor.ArticleMonitor.SendNotifications | toutiao/monitor.py:123-151 | the send loop leaves the table and count given by the specification |
| Monitor.ArticleMonitor.RunCheckCycle | toutiao/monitor.py:153-200 | one cycle leaves the table given by the cycle specification |
| Monitor.ArticleMonitor.ProcessCrawl | toutiao/monitor.py:164-188 | the cycle after the crawl |
| Monitor.ArticleMonitor.CollectUnstored | toutiao/monitor.py:172-175 | the candidates are the crawled articles not yet stored |
| Monitor.ArticleMonitor.StoreAndNotify | toutiao/monitor.py:179-187 | the add-then-notify loop leaves the table given by the specification |
| Monitor.ArticleMonitor.GetStatus | toutiao/monitor.py:299-319 | the status holds the URL, the 5 newest rows, their count and the unnotified count |
| SetupConfig.RunFrom | setup_config.py:32-40 | the capture group is the longest run of allowed characters |
| SetupConfig.FirstMatch | setup_config.py:32-40 | `re.search` takes the leftmost match |
| SetupConfig.ExtractUserId | setup_config.py:22-44 | without `share_uid`, a found id is never empty |
| SetupConfig.ShareUidFirst | setup_config.py:27-30 | a `share_uid` query parameter wins, whatever the path says |
| SetupConfig.NoUserPathNoId | setup_config.py:32-44 | without `share_uid` and without `/c/user/`, there is no id |
| SetupConfig.ProfileUrlGivesToken | setup_config.py:32-35 | a token profile URL yields the token |
| SetupConfig.OldProfileUrlGivesWord | setup_config.py:37-40 | an old-style `/c/user/<word>/` URL yields the word |
| SetupConfig.BareTokenPathGivesToken | setup_config.py:32-40 | a URL ending in `/c/user/token/` yields the literal `token`, through the second regex |
| SetupConfig.CheckBloggerUrl | setup_config.py:55-77 | the answer is accepted exactly when its stripped text starts with `http` and contains `/c/user/token/`, and is then stored as that text with the article tab added; it is refused as empty exactly when it is blank |
| SetupConfig.ProfileUrlAccepted | setup_config.py:55-77 | a padded profile URL is accepted and gets the article-tab suffix |
| SetupConfig.CrawlerOpensStoredUrl | setup_config.py:66-71 | the crawler's suffix rule leaves a stored URL without a query unchanged, but appends a second suffix to one that had a query |
| SetupConfig.DropUnderscores | setup_config.py:85 | dropping `int()`'s digit separators leaves digits |
| SetupConfig.ParseInt | setup_config.py:85 | what `int()` accepts is digits, underscores and one leading sign |
| SetupConfig.ParseIntRendering | setup_config.py:85 | `int(str(i)) == i` |
| SetupConfig.CheckInterval | setup_config.py:79-93 | an accepted interval is at least 10 minutes |
| SetupConfig.IntervalOfNumber | setup_config.py:79-93 | a padded integer under 10 is refused as too short; otherwise it is accepted as given |
| SetupConfig.IntervalRefusesText | setup_config.py:84-93 | a stray non-digit makes `int()` fail |
| SetupConfig.CheckWebhook | setup_config.py:109-120 | the answer is accepted exactly when its stripped text starts with the Feishu hook prefix, and is then stored stripped; it is refused as empty exactly when it is blank |
| SetupConfig.HookUrlAccepted | setup_config.py:109-120 | a padded hook URL is accepted, stripped |
| SetupConfig.SecretOf | setup_config.py:122-127 | the secret is stripped |
| SetupConfig.SecretKept | setup_config.py:122-127 | a padded secret is kept exactly |
| SetupConfig.BlankAnswers | setup_config.py:55-127 | a blank answer is refused for the URL and webhook, means 30 minutes for the interval, and means no secret |

## Left out

- The browser: Selenium start-up, page loading, scrolling, waits and driver re-initialisation (`toutiao/crawler_selenium.py:36-103`, `toutiao/monitor.py:164-169,191-200`). A page is given as the data the HTML parser extracts from it, and a failed page load is the empty page.
- The cycle's exception handler (`toutiao/monitor.py:191-200`): a failure part-way through a cycle is not modelled. The cycle either completes or, when the crawl is empty, does nothing.
- Time and pacing: `time.sleep`, `random.uniform`, and `datetime.now()` in `get_status`, which is the `now` parameter.
- Logging and every print.
- HMAC-SHA256 and Base64 in `_generate_sign` are the `mac` function parameter. Only the string to sign is modelled.
- The HTTP request to the webhook. Its reply is the `Reply` value, or one verdict per send.
- Notifier.OnlyZeroStatusSucceeds: the reply's JSON has no floating-point numbers, so a `StatusCode` of `0.0`, which Python's `== 0` accepts, cannot be expressed.
- SQLite: connections, I/O errors and type affinity. `created_at` is modelled as an insertion counter, so two rows never share a timestamp. The source stores `datetime.now().isoformat()` (`toutiao/database.py:101`), and two such timestamps can tie or go backwards when the clock is adjusted.
- Store.UpgradeAddsOnlyMissing: models the `ALTER TABLE` upgrade on a value of the old table, not on a live connection.
- Notifier.WanTextAccuracy: `{x:.1f}` on a double rounds half to even on the binary value. The model rounds exact tenths half up, so at an exact half it may differ in the last digit.
- Float arithmetic in the read count is computed exactly on decimals. A result that the double product would land just below an integer is not modelled.
- Normalizer.FromIsoFormat: models the grammar `datetime.fromisoformat` accepts in Python 3.7 to 3.10 (`YYYY-MM-DD`, optionally followed by one separator character and a time). Python 3.11 and later also accept other ISO 8601 forms, such as basic format and week dates, which the model rejects.
- Details.FromJsonLd, Details.FromRenderData: only string values of the JSON-LD and RENDER_DATA keys are kept. The source assigns whatever JSON value it finds, including numbers, lists and `None`; the model treats a non-string value as absent.
- Python's `\d` and `\w` also match non-ASCII digits and letters, `int()` accepts non-ASCII digits, and `str.isdigit()` in the author filter (`toutiao/crawler_selenium.py:520`) is true for non-ASCII digits such as "１２". The model uses ASCII only.
- `urljoin` is modelled for absolute, scheme-relative and root-relative hrefs against the site origin. Dot segments and relative paths are not resolved.
- `parse_qs(urlparse(url).query)` in `extract_user_id_from_url` is the `query` map parameter.
- SetupConfig.ExtractUserId: `urlparse` raises `ValueError` on a malformed network location, such as `http://[::1/c/user/token/abc/`, and the bare `except` (`setup_config.py:43-44`) then returns `None`. The model takes the query map as given, so it returns the path id for such a URL.
- The interactive `input()` loops of `setup_config.py` are modelled as one answer in, one verdict out. `save_config`, `test_config` and the logging and database prompts are not modelled.
- Configuration loading in `Monitor.__init__` (`toutiao/monitor.py:28-69`). The constructor takes the database and the blogger URL. It accepts an empty URL, where the source raises `ValueError` (`toutiao/monitor.py:48-49`).
- `get_article_details` (`toutiao/crawler_selenium.py:360-388`): the network fetch is the `pages` function parameter. A fetch failure is `None`, which leaves the article unchanged.
- The `test_*` methods, `start_monitoring`'s scheduler loop and `main.py` are outside the core.
- Monitor.ArticleMonitor.RunCheckCycle: the list of attempted notifications is a ghost out-parameter. The contract states the database outcome, and `Monitor.CycleNotifies` states what was attempted.
- Monitor.ArticleMonitor.ProcessCrawl: as above, attempted notifications are ghost.
- Monitor.ArticleMonitor.StoreAndNotify: as above, attempted notifications are ghost.

=== FILE: details.dfy ===
/** The detail page resolution of the crawler (toutiao/crawler_selenium.py:390-555):
    three structured sources fill the publish time, the author and the summary
    in priority order, later sources only filling what is still empty, then
    two lists of page elements fill the author and the summary, and the time
    is normalised last. The page is given already parsed: the JSON-LD object,
    the decoded `data` object of RENDER_DATA, the script bodies and the texts
    the author and summary selectors find. */
module Details {
  import opened Strings
  import opened Normalizer

  /** The `application/ld+json` object: its string-valued keys, and its
      `author` value when that is an object (a dict) with string values. */
  datatype JsonLd = JsonLd(fields: map<string, string>, authorObject: Option<map<string, string>>)

  /** What the detail page offers, already parsed:
      - `jsonLd`: the JSON-LD object (`None` when the script is absent, empty or not JSON);
      - `renderData`: the `data` object of the URL-decoded RENDER_DATA script
        (`None` when the script is absent, is not JSON or has no `data`);
      - `scripts`: the `string` of every `<script>` in order (`None` when it has none);
      - `authorCandidates`, `summaryCandidates`: for each selector in order, the text
        of the first element it selects (`None` when it selects nothing). */
  datatype DetailPage = DetailPage(
    jsonLd: Option<JsonLd>,
    renderData: Option<map<string, string>>,
    scripts: seq<Option<string>>,
    authorCandidates: seq<Option<string>>,
    summaryCandidates: seq<Option<string>>)

  /** The `details` dictionary: all four keys are always present. */
  datatype ArticleDetails = ArticleDetails(articleId: string, publishTime: string, author: string, summary: string)

  /** `m.get(key, '')`. */
  function Lookup(m: map<string, string>, key: string): string
  {
    if key in m then m[key] else ""
  }

  // ------------------------------------------------------------------
  // Source 1: JSON-LD   (crawler_selenium.py:413-437)
  // ------------------------------------------------------------------

  /** The details after the JSON-LD step: `datePublished`, `author.name` and
      `description`, each '' when missing. */
  function FromJsonLd(articleId: string, j: Option<JsonLd>): (d: ArticleDetails)
    ensures d.articleId == articleId
    ensures j.None? ==> d == ArticleDetails(articleId, "", "", "")
  {
    match j
    case None => ArticleDetails(articleId, "", "", "")
    case Some(ld) =>
      var author := if ld.authorObject.Some? then Lookup(ld.authorObject.value, "name") else "";
      ArticleDetails(articleId, Lookup(ld.fields, "datePublished"), author, Lookup(ld.fields, "description"))
  }

  // ------------------------------------------------------------------
  // Source 2: RENDER_DATA   (crawler_selenium.py:439-468)
  // ------------------------------------------------------------------

  /** The RENDER_DATA step: consulted only while the time or the author is
      still empty, and then filling only the fields that are empty
      (`publishTime`, `source`, `abstract`). */
  function FromRenderData(d: ArticleDetails, render: Option<map<string, string>>): (r: ArticleDetails)
    ensures r.articleId == d.articleId
    ensures d.publishTime != "" ==> r.publishTime == d.publishTime
    ensures d.author != "" ==> r.author == d.author
    ensures d.summary != "" ==> r.summary == d.summary
    ensures (d.publishTime != "" && d.author != "") || render.None? ==> r == d
    ensures render.Some? && (d.publishTime == "" || d.author == "") ==>
              (d.publishTime == "" ==> r.publishTime == Lookup(render.value, "publishTime"))
              && (d.author == "" ==> r.author == Lookup(render.value, "source"))
              && (d.summary == "" ==> r.summary == Lookup(render.value, "abstract"))
  {
    if d.publishTime != "" && d.author != "" then d
    else if render.None? then d
    else
      var data := render.value;
      ArticleDetails(
        d.articleId,
        if d.publishTime == "" && "publishTime" in data then data["publishTime"] else d.publishTime,
        if d.author == "" && "source" in data then data["source"] else d.author,
        if d.summary == "" && "abstract" in data then data["abstract"] else d.summary)
  }

  // ------------------------------------------------------------------
  // Source 3: the script scan   (crawler_selenium.py:470-498)
  // ------------------------------------------------------------------

  /** The keys of the script patterns `"<key>":"([^"]+)"`, in priority order. */
  const TimeKeys: seq<string> := ["datePublished", "publishTime", "publish_time", "time", "created_at", "date"]

  /** The end of the run of characters other than `"` that starts at `i`. */
  function NonQuoteRunEnd(s: string, i: nat): (j: nat)
    requires i <= |s|
    ensures i <= j <= |s|
    ensures '"' !in s[i..j]
    ensures j == |s| || s[j] == '"'
    decreases |s| - i
  {
    if i < |s| && s[i] != '"' then
      var j := NonQuoteRunEnd(s, i + 1);
      assert s[i..j] == [s[i]] + s[i + 1..j];
      j
    else i
  }

  /** The opening of the pattern for `key`: `"<key>":"`. */
  function Opening(key: string): string
  {
    "\"" + key + "\":\""
  }

  /** `re.search(r'"<key>":"([^"]+)"', s)` from index `i` on: the group of the
      leftmost match. */
  function QuotedValueFrom(s: string, key: string, i: nat): (r: Option<string>)
    ensures r.Some? ==> r.value != "" && '"' !in r.value && Contains(s, Opening(key) + r.value + "\"")
    decreases |s| - i
  {
    var p := Opening(key);
    if i + |p| > |s| then None
    else
      var j := NonQuoteRunEnd(s, i + |p|);
      if OccursAt(s, p, i) && j > i + |p| && j < |s| then
        var v := s[i + |p|..j];
        assert s[i..j + 1] == p + v + "\"";
        assert OccursAt(s, p + v + "\"", i);
        Some(v)
      else QuotedValueFrom(s, key, i + 1)
  }

  /** The search finds a value whenever `"<key>":"<v>"` occurs with a
      non-empty, quote-free `v`, and the value it finds occurs as a match no
      later than that one: it is the leftmost match (`QuotedValueUniqueAt`
      pins the value). */
  lemma {:induction false} QuotedValueFound(s: string, key: string, i: nat, k: nat, v: string)
    requires i <= k && v != "" && '"' !in v && OccursAt(s, Opening(key) + v + "\"", k)
    ensures QuotedValueFrom(s, key, i).Some?
    ensures exists m :: i <= m <= k && OccursAt(s, Opening(key) + QuotedValueFrom(s, key, i).value + "\"", m)
    decreases k - i
  {
    if i == k {
      QuotedMatchHere(s, key, k, v);
      QuotedHere(s, key, k);
    } else if QuotedStartsAt(s, key, i) {
      QuotedHere(s, key, i);
    } else {
      QuotedValueFound(s, key, i + 1, k, v);
      assert QuotedValueFrom(s, key, i) == QuotedValueFrom(s, key, i + 1);
    }
  }

  /** The test `QuotedValueFrom` makes at position `i`. */
  predicate QuotedStartsAt(s: string, key: string, i: nat)
  {
    && i + |Opening(key)| <= |s|
    && OccursAt(s, Opening(key), i)
    && var j := NonQuoteRunEnd(s, i + |Opening(key)|);
       j > i + |Opening(key)| && j < |s|
  }

  lemma QuotedHere(s: string, key: string, i: nat)
    requires QuotedStartsAt(s, key, i)
    ensures QuotedValueFrom(s, key, i).Some?
    ensures OccursAt(s, Opening(key) + QuotedValueFrom(s, key, i).value + "\"", i)
  {
    var p := Opening(key);
    var j := NonQuoteRunEnd(s, i + |p|);
    var v := s[i + |p|..j];
    assert s[i..j + 1] == p + v + "\"";
    assert QuotedValueFrom(s, key, i) == Some(v);
  }

  /** A match at `k` is where the quote-free run after the opening ends. */
  lemma QuotedMatchHere(s: string, key: string, k: nat, v: string)
    requires v != "" && '"' !in v && OccursAt(s, Opening(key) + v + "\"", k)
    ensures QuotedStartsAt(s, key, k)
    ensures NonQuoteRunEnd(s, k + |Opening(key)|) == k + |Opening(key)| + |v|
    ensures s[k + |Opening(key)|..k + |Opening(key)| + |v|] == v
  {
    var p := Opening(key);
    var w := p + v + "\"";
    assert s[k..k + |w|] == w;
    assert s[k..k + |p|] == w[..|p|] == p;
    var b := k + |p|;
    assert s[b..b + |v|] == s[k..k + |w|][|p|..|p| + |v|];
    assert w[|p|..|p| + |v|] == v;
    assert s[b + |v|] == w[|p| + |v|] == '"';
  }

  /** At one position at most one value matches: it runs up to the first
      closing quote. */
  lemma QuotedValueUniqueAt(s: string, key: string, m: nat, v1: string, v2: string)
    requires v1 != "" && '"' !in v1 && OccursAt(s, Opening(key) + v1 + "\"", m)
    requires v2 != "" && '"' !in v2 && OccursAt(s, Opening(key) + v2 + "\"", m)
    ensures v1 == v2
  {
    QuotedMatchHere(s, key, m, v1);
    QuotedMatchHere(s, key, m, v2);
  }

  /** The pattern for `key` gives no time: it does not match, or its first
      match fails the validator. */
  predicate Rejected(content: string, key: string)
  {
    var v := QuotedValueFrom(content, key, 0);
    v.None? || !IsValidTimeFormat(v.value)
  }

  /** The patterns for `keys` (`TimeKeys` in the crawler) tried on one script
      from the `k`-th on: the first pattern
      whose (first) match passes the validator gives the time; a match that
      fails it is passed over for the next pattern. */
  function ScriptTime(content: string, keys: seq<string>, k: nat): (r: Option<string>)
    requires k <= |keys|
    ensures r.Some? ==> IsValidTimeFormat(r.value)
    ensures r.Some? ==> exists m :: k <= m < |keys| && QuotedValueFrom(content, keys[m], 0) == r
    decreases |keys| - k
  {
    if k == |keys| then None
    else
      if !Rejected(content, keys[k]) then QuotedValueFrom(content, keys[k], 0)
      else ScriptTime(content, keys, k + 1)
  }

  /** The time of a script comes from the first pattern that is not rejected;
      when every pattern is rejected the script gives no time. */
  lemma {:induction false} ScriptTimePriority(content: string, keys: seq<string>, k: nat)
    requires k <= |keys|
    ensures var r := ScriptTime(content, keys, k);
            && (r.Some? ==> exists m :: k <= m < |keys| && QuotedValueFrom(content, keys[m], 0) == r
                                        && forall n :: k <= n < m ==> Rejected(content, keys[n]))
            && (r.None? <==> forall m :: k <= m < |keys| ==> Rejected(content, keys[m]))
  {
    if ScriptTime(content, keys, k).Some? {
      var m := ScriptTimeSource(content, keys, k);
    }
    ScriptTimeNone(content, keys, k);
  }

  /** The pattern a script's time comes from, with every earlier one rejected. */
  lemma {:induction false} ScriptTimeSource(content: string, keys: seq<string>, k: nat) returns (m: nat)
    requires k <= |keys| && ScriptTime(content, keys, k).Some?
    ensures k <= m < |keys| && QuotedValueFrom(content, keys[m], 0) == ScriptTime(content, keys, k)
    ensures forall n :: k <= n < m ==> Rejected(content, keys[n])
    decreases |keys| - k
  {
    var key := keys[k];
    if !Rejected(content, key) {
      m := k;
    } else {
      assert ScriptTime(content, keys, k) == ScriptTime(content, keys, k + 1);
      m := ScriptTimeSource(content, keys, k + 1);
      forall n | k <= n < m ensures Rejected(content, keys[n]) {
        if n == k {
          assert keys[n] == key;
        }
      }
    }
  }

  /** A script gives no time exactly when every pattern is rejected. */
  lemma ScriptTimeNone(content: string, keys: seq<string>, k: nat)
    requires k <= |keys|
    ensures ScriptTime(content, keys, k).None? <==> forall m :: k <= m < |keys| ==> Rejected(content, keys[m])
  {
    if ScriptTime(content, keys, k).None? {
      NoneAllRejected(content, keys, k);
    } else {
      var m := ScriptTimeSource(content, keys, k);
    }
  }

  lemma {:induction false} NoneAllRejected(content: string, keys: seq<string>, k: nat)
    requires k <= |keys| && ScriptTime(content, keys, k).None?
    ensures forall m :: k <= m < |keys| ==> Rejected(content, keys[m])
    decreases |keys| - k
  {
    if k < |keys| {
      var key := keys[k];
      assert Rejected(content, key);
      NoneAllRejected(content, keys, k + 1);
      forall m | k <= m < |keys| ensures Rejected(content, keys[m]) {
        if m == k {
          assert keys[m] == key;
        }
      }
    }
  }

  /** A script the scan reads: it has a string longer than 50 characters. */
  predicate LongScript(script: Option<string>) { script.Some? && |script.value| > 50 }

  /** The script scan: the time of the first long script that has one, else ''. */
  function ScanScripts(scripts: seq<Option<string>>): (r: string)
    ensures r == "" || IsValidTimeFormat(r)
    ensures r != "" ==> exists i :: 0 <= i < |scripts| && LongScript(scripts[i]) && ScriptTime(scripts[i].value, TimeKeys, 0) == Some(r)
                          && forall k :: 0 <= k < i && LongScript(scripts[k]) ==> ScriptTime(scripts[k].value, TimeKeys, 0).None?
    ensures r == "" <==> forall i :: 0 <= i < |scripts| && LongScript(scripts[i]) ==> ScriptTime(scripts[i].value, TimeKeys, 0).None?
  {
    if scripts == [] then ""
    else
      var rest := ScanScripts(scripts[1..]);
      assert forall i :: 1 <= i < |scripts| ==> scripts[i] == scripts[1..][i - 1];
      if LongScript(scripts[0]) && ScriptTime(scripts[0].value, TimeKeys, 0).Some? then ScriptTime(scripts[0].value, TimeKeys, 0).value
      else rest
  }

  // ------------------------------------------------------------------
  // Selectors   (crawler_selenium.py:500-545)
  // ------------------------------------------------------------------

  /** An author text the selector step accepts: 2 to 50 characters, not all digits. */
  predicate AuthorAcceptable(t: string) { t != "" && 2 <= |t| <= 50 && !IsDigitString(t) }

  /** The first acceptable author text among the candidates, else ''. */
  function FirstAuthor(candidates: seq<Option<string>>): (r: string)
    ensures r == "" || AuthorAcceptable(r)
    ensures r != "" ==> exists i :: 0 <= i < |candidates| && candidates[i] == Some(r)
                                    && forall k :: 0 <= k < i && candidates[k].Some? ==> !AuthorAcceptable(candidates[k].value)
    ensures r == "" ==> forall k :: 0 <= k < |candidates| && candidates[k].Some? ==> !AuthorAcceptable(candidates[k].value)
  {
    if candidates == [] then ""
    else if candidates[0].Some? && AuthorAcceptable(candidates[0].value) then candidates[0].value
    else
      var r := FirstAuthor(candidates[1..]);
      assert forall k :: 1 <= k < |candidates| ==> candidates[k] == candidates[1..][k - 1];
      r
  }

  /** The first non-empty summary text among the candidates, else ''. */
  function FirstSummary(candidates: seq<Option<string>>): (r: string)
    ensures r != "" ==> exists i :: 0 <= i < |candidates| && candidates[i] == Some(r)
                                    && forall k :: 0 <= k < i ==> candidates[k].None? || candidates[k].value == ""
    ensures r == "" ==> forall k :: 0 <= k < |candidates| ==> candidates[k].None? || candidates[k].value == ""
  {
    if candidates == [] then ""
    else if candidates[0].Some? && candidates[0].value != "" then candidates[0].value
    else
      var r := FirstSummary(candidates[1..]);
      assert forall k :: 1 <= k < |candidates| ==> candidates[k] == candidates[1..][k - 1];
      r
  }

  // ------------------------------------------------------------------
  // The whole resolution
  // ------------------------------------------------------------------

  /** `_parse_article_details` on a parsed page. */
  function DetailsSpec(page: DetailPage, articleId: string): ArticleDetails
  {
    var d := FromRenderData(FromJsonLd(articleId, page.jsonLd), page.renderData);
    var time := if d.publishTime == "" then ScanScripts(page.scripts) else d.publishTime;
    var author := if d.author == "" then FirstAuthor(page.authorCandidates) else d.author;
    var summary := if d.summary == "" then FirstSummary(page.summaryCandidates) else d.summary;
    ArticleDetails(articleId, if time != "" then FormatPublishTime(time) else time, author, summary)
  }

  /** Non-empty JSON-LD values win over every later source. */
  lemma JsonLdWins(page: DetailPage, articleId: string, ld: JsonLd)
    requires page.jsonLd == Some(ld)
    ensures var d := DetailsSpec(page, articleId);
            && (Lookup(ld.fields, "datePublished") != "" ==> d.publishTime == FormatPublishTime(ld.fields["datePublished"]))
            && (ld.authorObject.Some? && Lookup(ld.authorObject.value, "name") != "" ==> d.author == ld.authorObject.value["name"])
            && (Lookup(ld.fields, "description") != "" ==> d.summary == ld.fields["description"])
  {
  }

  /** RENDER_DATA is not consulted at all once JSON-LD gave a time and an
      author, even for an empty summary. */
  lemma RenderDataSkipped(page: DetailPage, articleId: string, other: Option<map<string, string>>)
    requires var d := FromJsonLd(articleId, page.jsonLd); d.publishTime != "" && d.author != ""
    ensures DetailsSpec(page.(renderData := other), articleId) == DetailsSpec(page, articleId)
  {
  }

  /** The scripts are not read once the first two sources gave a time. */
  lemma ScriptsSkipped(page: DetailPage, articleId: string, other: seq<Option<string>>)
    requires FromRenderData(FromJsonLd(articleId, page.jsonLd), page.renderData).publishTime != ""
    ensures DetailsSpec(page.(scripts := other), articleId) == DetailsSpec(page, articleId)
  {
  }

  /** A time found by the script scan is one the validator accepts, and the
      detail time is that time rewritten by the formatter. */
  lemma ScriptTimeIsValidated(page: DetailPage, articleId: string)
    requires FromRenderData(FromJsonLd(articleId, page.jsonLd), page.renderData).publishTime == ""
    ensures var raw := ScanScripts(page.scripts);
            && (raw == "" ==> DetailsSpec(page, articleId).publishTime == "")
            && (raw != "" ==> IsValidTimeFormat(raw) && DetailsSpec(page, articleId).publishTime == FormatPublishTime(raw))
  {
  }

  /** When neither structured source names an author, the author is '' or a
      selector text of 2 to 50 characters that is not all digits. */
  lemma SelectorAuthorIsPlausible(page: DetailPage, articleId: string)
    requires FromRenderData(FromJsonLd(articleId, page.jsonLd), page.renderData).author == ""
    ensures var a := DetailsSpec(page, articleId).author;
            a == "" || (AuthorAcceptable(a) && Some(a) in page.authorCandidates)
  {
    var a := FirstAuthor(page.authorCandidates);
    if a != "" {
      var i :| 0 <= i < |page.authorCandidates| && page.authorCandidates[i] == Some(a)
               && forall k :: 0 <= k < i && page.authorCandidates[k].Some? ==> !AuthorAcceptable(page.authorCandidates[k].value);
      assert page.authorCandidates[i] in page.authorCandidates;
    }
  }

  // ------------------------------------------------------------------
  // The resolution as the source performs it
  // ------------------------------------------------------------------

  /** The pattern loop of one script: try the keys in order, stop at the first
      match that passes the validator. */
  method TimeFromScript(content: string) returns (time: string)
    ensures time == (if ScriptTime(content, TimeKeys, 0).Some? then ScriptTime(content, TimeKeys, 0).value else "")
  {
    time := "";
    var k := 0;
    while k < |TimeKeys|
      invariant k <= |TimeKeys|
      invariant time == ""
      invariant ScriptTime(content, TimeKeys, 0) == ScriptTime(content, TimeKeys, k)
    {
      var m := QuotedValueFrom(content, TimeKeys[k], 0);
      if m.Some? && IsValidTimeFormat(m.value) {
        time := m.value;
        break;
      }
      k := k + 1;
    }
  }

  /** The script loop: the first long script whose patterns give a time. */
  method TimeFromScripts(scripts: seq<Option<string>>) returns (time: string)
    ensures time == ScanScripts(scripts)
  {
    time := "";
    var i := 0;
    while i < |scripts|
      invariant i <= |scripts|
      invariant time == ""
      invariant ScanScripts(scripts) == ScanScripts(scripts[i..])
    {
      assert scripts[i..][1..] == scripts[i + 1..];
      var script := scripts[i];
      if LongScript(script) {
        time := TimeFromScript(script.value);
        if time != "" {
          break;
        }
      }
      i := i + 1;
    }
  }

  /** The author selector loop: the first text that passes the plausibility test. */
  method AuthorFromSelectors(candidates: seq<Option<string>>) returns (author: string)
    ensures author == FirstAuthor(candidates)
  {
    author := "";
    var i := 0;
    while i < |candidates|
      invariant i <= |candidates|
      invariant FirstAuthor(candidates) == FirstAuthor(candidates[i..])
    {
      assert candidates[i..][1..] == candidates[i + 1..];
      var text := candidates[i];
      if text.Some? && AuthorAcceptable(text.value) {
        author := text.value;
        break;
      }
      i := i + 1;
    }
  }

  /** The summary selector loop: each found text is stored, and the loop stops at
      the first non-empty one. */
  method SummaryFromSelectors(candidates: seq<Option<string>>) returns (summary: string)
    ensures summary == FirstSummary(candidates)
  {
    summary := "";
    var i := 0;
    while i < |candidates|
      invariant i <= |candidates|
      invariant summary == ""
      invariant FirstSummary(candidates) == FirstSummary(candidates[i..])
    {
      assert candidates[i..][1..] == candidates[i + 1..];
      var text := candidates[i];
      if text.Some? {
        summary := text.value;
        if summary != "" {
          break;
        }
      }
      i := i + 1;
    }
  }

  /** `_parse_article_details`: fill the three fields source by source. */
  method ParseArticleDetails(page: DetailPage, articleId: string) returns (details: ArticleDetails)
    ensures details == DetailsSpec(page, articleId)
  {
    var publishTime, author, summary := "", "", "";
    if page.jsonLd.Some? {
      var ld := page.jsonLd.value;
      if "datePublished" in ld.fields { publishTime := ld.fields["datePublished"]; }
      if ld.authorObject.Some? { author := Lookup(ld.authorObject.value, "name"); }
      if "description" in ld.fields { summary := ld.fields["description"]; }
    }
    if (publishTime == "" || author == "") && page.renderData.Some? {
      var data := page.renderData.value;
      if publishTime == "" && "publishTime" in data { publishTime := data["publishTime"]; }
      if author == "" && "source" in data { author := data["source"]; }
      if summary == "" && "abstract" in data { summary := data["abstract"]; }
    }
    assert ArticleDetails(articleId, publishTime, author, summary)
        == FromRenderData(FromJsonLd(articleId, page.jsonLd), page.renderData);
    if publishTime == "" {
      publishTime := TimeFromScripts(page.scripts);
    }
    if author == "" {
      author := AuthorFromSelectors(page.authorCandidates);
    }
    if summary == "" {
      summary := SummaryFromSelectors(page.summaryCandidates);
    }
    if publishTime != "" {
      publishTime := FormatPublishTime(publishTime);
    }
    details := ArticleDetails(articleId, publishTime, author, summary);
  }
}

=== FILE: extraction.dfy ===
/** The crawler's list-page extraction (toutiao/crawler_selenium.py:105-358) over
    a page that has already been parsed: the card containers and the article
    links are given in document order, each with the attributes and texts the
    crawler reads from it. */
module Extraction {
  import opened Strings
  import opened Records
  import opened Normalizer

  /** An `<a>` element whose `href` matched `/article/\d+/` when the page was
      searched: its `href`, its `title` and `aria-label` attributes ('' when
      absent) and its text as `get_text(strip=True)` returns it. */
  datatype Link = Link(href: string, title: string, ariaLabel: string, text: string)

  /** One `profile-article-card-wrapper` container: its first article link and
      the stripped texts of its read-count element, of its `#comment` link and of
      its time element, each `None` when the element is absent. */
  datatype Card = Card(link: Option<Link>, readText: Option<string>, commentText: Option<string>, timeText: Option<string>)

  /** The parsed page: all card containers and all article links, in document order. */
  datatype Page = Page(containers: seq<Card>, links: seq<Link>)

  const Marker: string := "/article/"
  const Origin: string := "https://www.toutiao.com"
  const ArticleTab: string := "source=profile&tab=article"

  // ------------------------------------------------------------------
  // The URL suffix rule of get_articles_from_url   (crawler_selenium.py:117-122)
  // ------------------------------------------------------------------

  /** The blogger URL the crawler opens: unchanged when it already contains
      `?source=profile&tab=article`, otherwise with that query appended after
      `&` (the URL already has a `?`) or after `?`. */
  function WithArticleTab(url: string): (r: string)
    ensures StartsWith(r, url)
    ensures Contains(url, "?" + ArticleTab) ==> r == url
    ensures !Contains(url, "?" + ArticleTab) && '?' in url ==> r == url + ['&'] + ArticleTab
    ensures !Contains(url, "?" + ArticleTab) && '?' !in url ==> r == url + ['?'] + ArticleTab
  {
    if Contains(url, "?" + ArticleTab) then url
    else if '?' in url then url + ['&'] + ArticleTab
    else url + ['?'] + ArticleTab
  }

  /** The rewritten URL always carries the article tab as its query's last parameter. */
  lemma WithArticleTabEndsWithTab(url: string)
    requires !Contains(url, "?" + ArticleTab)
    ensures var r := WithArticleTab(url);
            |r| == |url| + 1 + |ArticleTab| && r[|url| + 1..] == ArticleTab
  {
  }

  /** A URL without a query is rewritten once and then left alone. */
  lemma WithArticleTabStable(url: string)
    requires '?' !in url
    ensures WithArticleTab(WithArticleTab(url)) == WithArticleTab(url)
  {
    var r := WithArticleTab(url);
    if !Contains(url, "?" + ArticleTab) {
      assert OccursAt(r, "?" + ArticleTab, |url|);
    }
  }

  /** `?source=profile&tab=article` cannot start inside `url` and run into the
      appended `&source=profile&tab=article`: the `&` and the `s` after it never
      line up with the pattern. */
  lemma NoTabAcrossJoin(url: string, i: nat)
    requires i < |url| < i + 1 + |ArticleTab|
    ensures !OccursAt(url + ['&'] + ArticleTab, "?" + ArticleTab, i)
  {
    var r := url + ['&'] + ArticleTab;
    var p := "?" + ArticleTab;
    var k := |url| - i;
    if i + |p| <= |r| {
      if k != 15 {
        assert r[i..i + |p|][k] == r[|url|] == '&';
        assert p[k] != '&';
      } else {
        assert r[i..i + |p|][k + 1] == r[|url| + 1] == 's';
        assert p[k + 1] != 's';
      }
    }
  }

  /** Nor can it start inside the appended text, which has no `?`. */
  lemma NoTabAfterJoin(url: string, i: nat)
    requires |url| <= i
    ensures !OccursAt(url + ['&'] + ArticleTab, "?" + ArticleTab, i)
  {
    var r := url + ['&'] + ArticleTab;
    if i < |r| {
      assert r[i] == (['&'] + ArticleTab)[i - |url|];
      forall m | 0 <= m < 1 + |ArticleTab| ensures (['&'] + ArticleTab)[m] != '?' { }
      assert r[i] != '?';
    }
  }

  /** A URL that already has another query gets the tab appended again on every
      call: the rule is not idempotent there. */
  lemma WithArticleTabRepeats(url: string)
    requires '?' in url && !Contains(url, "?" + ArticleTab)
    ensures WithArticleTab(WithArticleTab(url)) == WithArticleTab(url) + ['&'] + ArticleTab
  {
    var r := WithArticleTab(url);
    var p := "?" + ArticleTab;
    forall i: nat | i <= |r| ensures !OccursAt(r, p, i) {
      if i + |p| <= |url| {
        assert r[i..i + |p|] == url[i..i + |p|];
        assert !OccursAt(url, p, i);
      } else if i < |url| {
        NoTabAcrossJoin(url, i);
      } else {
        NoTabAfterJoin(url, i);
      }
    }
    assert '?' in r by { var q :| q in url && q == '?'; assert q in r; }
  }

  // ------------------------------------------------------------------
  // Fields of one article   (crawler_selenium.py:185-269, 307-345)
  // ------------------------------------------------------------------

  /** `re.search(r'/article/(\d+)/', href)` from index `i` on: the digits of
      the leftmost match, `None` when there is none. */
  function ArticleIdFrom(href: string, i: nat): (r: Option<string>)
    ensures r.Some? ==> IsDigitString(r.value) && Contains(href, Marker + r.value + "/")
    decreases |href| - i
  {
    if i + |Marker| >= |href| then None
    else
      var j := DigitRunEnd(href, i + |Marker|);
      if OccursAt(href, Marker, i) && j > i + |Marker| && j < |href| && href[j] == '/' then
        var id := href[i + |Marker|..j];
        assert href[i..j + 1] == Marker + id + "/";
        assert OccursAt(href, Marker + id + "/", i);
        Some(id)
      else ArticleIdFrom(href, i + 1)
  }

  /** The search finds an id whenever `/article/<digits>/` occurs in the link,
      and the id it finds occurs as a match no later than that one: the
      search returns the leftmost match (`ArticleIdUniqueAt` pins the id). */
  lemma {:induction false} ArticleIdFound(href: string, i: nat, k: nat, d: string)
    requires i <= k && IsDigitString(d) && OccursAt(href, Marker + d + "/", k)
    ensures ArticleIdFrom(href, i).Some?
    ensures exists m :: i <= m <= k && OccursAt(href, Marker + ArticleIdFrom(href, i).value + "/", m)
    decreases k - i
  {
    if i == k {
      MatchHere(href, k, d);
      IdHere(href, k);
    } else if IdStartsAt(href, i) {
      IdHere(href, i);
    } else {
      ArticleIdFound(href, i + 1, k, d);
      assert ArticleIdFrom(href, i) == ArticleIdFrom(href, i + 1);
    }
  }

  /** The test `ArticleIdFrom` makes at position `i`. */
  predicate IdStartsAt(href: string, i: nat)
  {
    && i + |Marker| < |href|
    && OccursAt(href, Marker, i)
    && var j := DigitRunEnd(href, i + |Marker|);
       j > i + |Marker| && j < |href| && href[j] == '/'
  }

  lemma IdHere(href: string, i: nat)
    requires IdStartsAt(href, i)
    ensures ArticleIdFrom(href, i).Some? && OccursAt(href, Marker + ArticleIdFrom(href, i).value + "/", i)
  {
    var j := DigitRunEnd(href, i + |Marker|);
    var id := href[i + |Marker|..j];
    assert href[i..j + 1] == Marker + id + "/";
    assert ArticleIdFrom(href, i) == Some(id);
  }

  lemma MatchHere(href: string, k: nat, d: string)
    requires IsDigitString(d) && OccursAt(href, Marker + d + "/", k)
    ensures IdStartsAt(href, k) && DigitRunEnd(href, k + |Marker|) == k + |Marker| + |d|
  {
    assert href[k..k + |Marker|] == (Marker + d + "/")[..|Marker|] == Marker;
    forall m | k + |Marker| <= m < k + |Marker| + |d| ensures IsDigit(href[m]) {
      assert href[m] == (Marker + d + "/")[m - k] == d[m - k - |Marker|];
    }
    assert href[k + |Marker| + |d|] == (Marker + d + "/")[|Marker| + |d|] == '/';
    DigitRunAt(href, k + |Marker|, k + |Marker| + |d|);
  }

  /** At one position at most one id matches: the digits must run up to the
      closing `/`. */
  lemma ArticleIdUniqueAt(href: string, m: nat, d1: string, d2: string)
    requires IsDigitString(d1) && OccursAt(href, Marker + d1 + "/", m)
    requires IsDigitString(d2) && OccursAt(href, Marker + d2 + "/", m)
    ensures d1 == d2
  {
    SlicedId(href, m, d1);
    SlicedId(href, m, d2);
  }

  /** The id of a match at `m` is the digit run after the marker. */
  lemma SlicedId(href: string, m: nat, d: string)
    requires IsDigitString(d) && OccursAt(href, Marker + d + "/", m)
    ensures DigitRunEnd(href, m + |Marker|) == m + |Marker| + |d|
    ensures href[m + |Marker|..m + |Marker| + |d|] == d
  {
    MatchHere(href, m, d);
    var w := Marker + d + "/";
    assert href[m..m + |w|] == w;
    assert href[m + |Marker|..m + |Marker| + |d|] == w[|Marker|..|Marker| + |d|] == d;
  }

  /** The link of a typical card, `/article/<digits>/…`, yields its digits. */
  lemma ArticleIdOfCanonicalLink(d: string, rest: string)
    requires IsDigitString(d)
    ensures ArticleIdFrom(Marker + d + "/" + rest, 0) == Some(d)
  {
    var h := Marker + d + "/" + rest;
    assert h[..|Marker|] == Marker;
    forall m | |Marker| <= m < |Marker| + |d| ensures IsDigit(h[m]) {
      assert h[m] == d[m - |Marker|];
    }
    assert h[|Marker| + |d|] == '/';
    DigitRunAt(h, |Marker|, |Marker| + |d|);
    assert h[|Marker|..|Marker| + |d|] == d;
  }

  /** `urljoin('https://www.toutiao.com', href)` for the forms an article link
      takes: an absolute URL is kept, a scheme-relative one gets `https:`, an
      absolute path follows the origin and a relative path the origin's root. */
  function JoinUrl(href: string): (r: string)
    ensures StartsWith(r, "http")
    ensures |href| <= |r| && r[|r| - |href|..] == href
    ensures StartsWith(href, "/") && !StartsWith(href, "//") ==> r == Origin + href
  {
    if StartsWith(href, "http://") || StartsWith(href, "https://") then
      assert href[..4] == href[..7][..4];
      href
    else if StartsWith(href, "//") then "https:" + href
    else if StartsWith(href, "/") then Origin + href
    else Origin + "/" + href
  }

  /** The URL built from a link still contains every substring of the link, in
      particular the `/article/<id>/` the id was read from. */
  lemma JoinUrlKeepsArticlePath(href: string, p: string)
    requires Contains(href, p)
    ensures Contains(JoinUrl(href), p)
  {
    var r := JoinUrl(href);
    var i: nat :| i <= |href| && OccursAt(href, p, i);
    var off := |r| - |href|;
    assert r[off + i..off + i + |p|] == href[i..i + |p|];
    assert OccursAt(r, p, off + i);
  }

  /** The publish time a card keeps: its time text when that passes the
      list-page filter (a non-empty text containing `前`, `年`, `小时`, `分钟`
      or `天前`), else ''. */
  function CardTime(timeText: Option<string>): (r: string)
    ensures r != "" <==> timeText.Some? && ListTimeAccepted(timeText.value)
    ensures r != "" ==> r == timeText.value
  {
    if timeText.Some? && ListTimeAccepted(timeText.value) then timeText.value else ""
  }

  // ------------------------------------------------------------------
  // The primary strategy   (crawler_selenium.py:162-285)
  // ------------------------------------------------------------------

  /** One container through the primary strategy: `None` when it is skipped
      (no article link, no id in it, a rejected title, or a read number that
      `float()` refuses). */
  function CardArticle(card: Card): (r: Option<Article>)
    ensures r.None? <==> || card.link.None?
                         || ArticleIdFrom(card.link.value.href, 0).None?
                         || !TitleAccepted(ChooseTitle(card.link.value.title, card.link.value.ariaLabel, card.link.value.text))
                         || ReadCount(card.readText).None?
  {
    if card.link.None? then None
    else
      var l := card.link.value;
      var id := ArticleIdFrom(l.href, 0);
      var title := ChooseTitle(l.title, l.ariaLabel, l.text);
      var count := ReadCount(card.readText);
      if id.None? || !TitleAccepted(title) || count.None? then None
      else
        Some(Article(id.value, title, JoinUrl(l.href), "", "", CardTime(card.timeText),
                     count.value, CommentCount(card.commentText)))
  }

  /** What a kept card yields: the id found in its link, the chosen title (at
      least five characters), the joined URL (which still shows
      `/article/<id>/`), the card's counts and filtered time, and an empty
      author and summary left for the detail page. */
  lemma CardArticleFields(card: Card)
    requires CardArticle(card).Some?
    ensures var a := CardArticle(card).value;
            var l := card.link.value;
            && Some(a.id) == ArticleIdFrom(l.href, 0)
            && a.title == ChooseTitle(l.title, l.ariaLabel, l.text) && TitleAccepted(a.title)
            && a.url == JoinUrl(l.href) && Contains(a.url, Marker + a.id + "/")
            && a.author == "" && a.summary == ""
            && a.publishTime == CardTime(card.timeText)
            && Some(a.readCount) == ReadCount(card.readText)
            && a.commentCount == CommentCount(card.commentText)
  {
    var a := CardArticle(card).value;
    JoinUrlKeepsArticlePath(card.link.value.href, Marker + a.id + "/");
  }

  /** The articles of the cards that are not skipped, in container order. */
  function Primary(cards: seq<Card>): (r: seq<Article>)
    ensures |r| <= |cards|
  {
    if cards == [] then []
    else
      var init := Primary(cards[..|cards| - 1]);
      match CardArticle(cards[|cards| - 1])
      case None => init
      case Some(a) => init + [a]
  }

  /** The strategy handles the containers one by one: the result for two runs
      of containers is the two results one after the other. */
  lemma {:induction false} PrimaryAppend(xs: seq<Card>, ys: seq<Card>)
    ensures Primary(xs + ys) == Primary(xs) + Primary(ys)
    decreases |ys|
  {
    if ys == [] {
      assert xs + ys == xs;
    } else {
      var n := |ys| - 1;
      var init := ys[..n];
      assert ys == init + [ys[n]];
      assert xs + ys == (xs + init) + [ys[n]];
      PrimarySnoc(xs + init, ys[n]);
      PrimarySnoc(init, ys[n]);
      PrimaryAppend(xs, init);
    }
  }

  /** One more container adds its article, if any, at the end. */
  lemma PrimarySnoc(cards: seq<Card>, c: Card)
    ensures Primary(cards + [c]) == Primary(cards) + (if CardArticle(c).Some? then [CardArticle(c).value] else [])
  {
    assert (cards + [c])[..|cards|] == cards;
  }

  /** Every article in the result was produced by one of the containers. */
  lemma PrimaryFromCards(cards: seq<Card>, a: Article)
    requires a in Primary(cards)
    ensures exists i :: 0 <= i < |cards| && CardArticle(cards[i]) == Some(a)
  {
    var i := PrimarySource(cards, a);
  }

  /** The container an article of the result came from. */
  lemma {:induction false} PrimarySource(cards: seq<Card>, a: Article) returns (i: nat)
    requires a in Primary(cards)
    ensures i < |cards| && CardArticle(cards[i]) == Some(a)
    decreases |cards|
  {
    var n := |cards| - 1;
    if a in Primary(cards[..n]) {
      i := PrimarySource(cards[..n], a);
      assert cards[i] == cards[..n][i];
    } else {
      PrimaryLast(cards, a);
      i := n;
    }
  }

  /** An article that the containers before the last do not produce comes from the last. */
  lemma PrimaryLast(cards: seq<Card>, a: Article)
    requires cards != [] && a in Primary(cards) && a !in Primary(cards[..|cards| - 1])
    ensures CardArticle(cards[|cards| - 1]) == Some(a)
  {
    var n := |cards| - 1;
    var c := CardArticle(cards[n]);
    var tail := if c.Some? then [c.value] else [];
    assert Primary(cards) == Primary(cards[..n]) + tail;
    assert a in tail;
  }

  /** Every article a container produces is in the result. */
  lemma {:induction false} PrimaryKeepsCards(cards: seq<Card>, i: nat)
    requires i < |cards| && CardArticle(cards[i]).Some?
    ensures CardArticle(cards[i]).value in Primary(cards)
    decreases |cards|
  {
    var n := |cards| - 1;
    assert cards == cards[..n] + [cards[n]];
    PrimarySnoc(cards[..n], cards[n]);
    if i < n {
      assert cards[..n][i] == cards[i];
      PrimaryKeepsCards(cards[..n], i);
    }
  }

  /** Python's `xs[:stop]`: the number of leading items kept from `n`. */
  function SliceEnd(n: nat, stop: int): (e: nat)
    ensures e <= n
    ensures stop >= 0 ==> e <= stop && (e < stop ==> e == n)
    ensures stop < 0 ==> e + (-stop) == n || (e == 0 && n <= -stop)
  {
    if stop >= 0 then (if stop < n then stop else n)
    else if n + stop > 0 then n + stop else 0
  }

  // ------------------------------------------------------------------
  // The link-scan fallback   (crawler_selenium.py:287-358)
  // ------------------------------------------------------------------

  /** The record the fallback makes from a link: no counts, no time, no author. */
  function LinkArticle(id: string, title: string, href: string): Article
  {
    Article(id, title, JoinUrl(href), "", "", "", 0, 0)
  }

  /** The fallback scan from a given state: the links still to visit, the ids
      already seen and the records collected so far. It stops once `max_count`
      records are collected. */
  function FallbackScan(links: seq<Link>, seen: set<string>, acc: seq<Article>, maxCount: int): seq<Article>
    decreases |links|
  {
    if links == [] || |acc| >= maxCount then acc
    else FallbackScan(links[1..], SeenAfter(links[0], seen), AccAfter(links[0], seen, acc), maxCount)
  }

  /** The ids seen after visiting link `l`: its id, if it has one, is recorded
      as seen before its title is checked. */
  function SeenAfter(l: Link, seen: set<string>): set<string>
  {
    var id := ArticleIdFrom(l.href, 0);
    if id.None? || id.value in seen then seen else seen + {id.value}
  }

  /** The records collected after visiting link `l`: a record is added for a
      link with an id not seen before and an accepted title. */
  function AccAfter(l: Link, seen: set<string>, acc: seq<Article>): seq<Article>
  {
    var id := ArticleIdFrom(l.href, 0);
    var title := ChooseTitle(l.title, l.ariaLabel, l.text);
    if id.Some? && id.value !in seen && FallbackTitleAccepted(title) then acc + [LinkArticle(id.value, title, l.href)]
    else acc
  }

  /** No two records carry the same id. */
  predicate DistinctIds(articles: seq<Article>)
  {
    forall i, j :: 0 <= i < j < |articles| ==> articles[i].id != articles[j].id
  }

  /** The shape of every fallback record: a digit id, an accepted title, and
      zero counts with empty time, author and summary. */
  predicate IsFallbackRecord(a: Article)
  {
    && IsDigitString(a.id) && FallbackTitleAccepted(a.title)
    && a.author == "" && a.summary == "" && a.publishTime == ""
    && a.readCount == 0 && a.commentCount == 0
  }

  /** What the fallback scan keeps from its starting state: distinct ids, the
      record shape, and the bound `max_count` (or the starting size, when that
      was already reached). */
  lemma {:induction false} FallbackScanInvariant(links: seq<Link>, seen: set<string>, acc: seq<Article>, maxCount: int)
    requires DistinctIds(acc)
    requires forall k :: 0 <= k < |acc| ==> acc[k].id in seen && IsFallbackRecord(acc[k])
    ensures var r := FallbackScan(links, seen, acc, maxCount);
            && DistinctIds(r)
            && (forall k :: 0 <= k < |r| ==> IsFallbackRecord(r[k]))
            && (|r| == |acc| || |r| <= maxCount)
    decreases |links|
  {
    if links != [] && |acc| < maxCount {
      var l := links[0];
      VisitKeeps(l, seen, acc);
      FallbackScanInvariant(links[1..], SeenAfter(l, seen), AccAfter(l, seen, acc), maxCount);
    }
  }

  /** Visiting one link adds at most one record and keeps the scan's invariant. */
  lemma VisitKeeps(l: Link, seen: set<string>, acc: seq<Article>)
    requires DistinctIds(acc)
    requires forall k :: 0 <= k < |acc| ==> acc[k].id in seen && IsFallbackRecord(acc[k])
    ensures var acc' := AccAfter(l, seen, acc);
            && |acc'| <= |acc| + 1
            && DistinctIds(acc')
            && forall k :: 0 <= k < |acc'| ==> acc'[k].id in SeenAfter(l, seen) && IsFallbackRecord(acc'[k])
  {
    var id := ArticleIdFrom(l.href, 0);
    var title := ChooseTitle(l.title, l.ariaLabel, l.text);
    if id.Some? && id.value !in seen && FallbackTitleAccepted(title) {
      AppendFresh(acc, seen, LinkArticle(id.value, title, l.href));
    } else if id.Some? {
      forall k | 0 <= k < |acc| ensures acc[k].id in seen + {id.value} { }
    }
  }

  /** A record whose id was not seen keeps the ids distinct. */
  lemma AppendFresh(acc: seq<Article>, seen: set<string>, x: Article)
    requires DistinctIds(acc)
    requires forall k :: 0 <= k < |acc| ==> acc[k].id in seen && IsFallbackRecord(acc[k])
    requires x.id !in seen && IsFallbackRecord(x)
    ensures var acc' := acc + [x];
            && DistinctIds(acc')
            && forall k :: 0 <= k < |acc'| ==> acc'[k].id in seen + {x.id} && IsFallbackRecord(acc'[k])
  {
    var acc' := acc + [x];
    forall i, j | 0 <= i < j < |acc'| ensures acc'[i].id != acc'[j].id {
      assert acc'[i] == acc[i];
      if j < |acc| {
        assert acc'[j] == acc[j];
      }
    }
  }

  /** Every fallback record comes from one of the links: its id is the id of
      some link, and its URL is built from that link. */
  lemma FallbackFromLinks(links: seq<Link>, seen: set<string>, acc: seq<Article>, maxCount: int, a: Article)
    requires a in FallbackScan(links, seen, acc, maxCount) && a !in acc
    ensures exists j :: 0 <= j < |links| && ArticleIdFrom(links[j].href, 0) == Some(a.id) && a.url == JoinUrl(links[j].href)
  {
    var j, seen', acc' := FallbackSource(links, seen, acc, maxCount, a);
    MadeFromLink(links[j], seen', acc', a);
  }

  /** Record `a` carries the id of link `l` and the URL built from it. */
  predicate MadeFrom(a: Article, l: Link)
  {
    ArticleIdFrom(l.href, 0) == Some(a.id) && a.url == JoinUrl(l.href)
  }

  /** A record the visit of `l` added was made from `l`. */
  lemma MadeFromLink(l: Link, seen: set<string>, acc: seq<Article>, a: Article)
    requires a in AccAfter(l, seen, acc) && a !in acc
    ensures MadeFrom(a, l)
  {
    var acc' := AccAfter(l, seen, acc);
    assert acc' != acc;
    assert a in acc'[|acc|..] by { assert acc' == acc'[..|acc|] + acc'[|acc|..]; }
  }

  /** A scan that adds a record visits at least one link. */
  lemma ScanMoved(links: seq<Link>, seen: set<string>, acc: seq<Article>, maxCount: int, a: Article)
    requires a in FallbackScan(links, seen, acc, maxCount) && a !in acc
    ensures links != [] && |acc| < maxCount
  {
  }

  /** A record the first visit did not add is added by the rest of the scan. */
  lemma ScanStep(links: seq<Link>, seen: set<string>, acc: seq<Article>, maxCount: int, a: Article)
    requires links != [] && |acc| < maxCount
    requires a in FallbackScan(links, seen, acc, maxCount) && a !in AccAfter(links[0], seen, acc)
    ensures a in FallbackScan(links[1..], SeenAfter(links[0], seen), AccAfter(links[0], seen, acc), maxCount)
  {
  }

  /** The visit that added a fallback record: the link, and the state the
      scan was in when it visited that link. */
  lemma {:induction false} FallbackSource(links: seq<Link>, seen: set<string>, acc: seq<Article>, maxCount: int, a: Article)
    returns (j: nat, seen': set<string>, acc': seq<Article>)
    requires a in FallbackScan(links, seen, acc, maxCount) && a !in acc
    ensures j < |links| && a in AccAfter(links[j], seen', acc') && a !in acc'
    decreases |links|
  {
    ScanMoved(links, seen, acc, maxCount, a);
    var l := links[0];
    if a in AccAfter(l, seen, acc) {
      j, seen', acc' := 0, seen, acc;
    } else {
      ScanStep(links, seen, acc, maxCount, a);
      var k;
      k, seen', acc' := FallbackSource(links[1..], SeenAfter(l, seen), AccAfter(l, seen, acc), maxCount, a);
      j := k + 1;
      assert links[j] == links[1..][k];
    }
  }

  /** A link whose id was met before is dropped even when the earlier link was
      itself dropped for its title: the id is marked seen before the title is
      checked, so a good second link for the same article is lost. */
  lemma SeenBeforeTitleFilter(first: Link, second: Link, maxCount: int)
    requires maxCount > 0
    requires ArticleIdFrom(first.href, 0).Some? && ArticleIdFrom(first.href, 0) == ArticleIdFrom(second.href, 0)
    requires !FallbackTitleAccepted(ChooseTitle(first.title, first.ariaLabel, first.text))
    requires FallbackTitleAccepted(ChooseTitle(second.title, second.ariaLabel, second.text))
    ensures FallbackScan([second], {}, [], maxCount) != []
    ensures FallbackScan([first, second], {}, [], maxCount) == []
  {
    var id := ArticleIdFrom(first.href, 0).value;
    assert [first, second][1..] == [second];
    assert [second][1..] == [];
    assert FallbackScan([second], {} + {id}, [], maxCount) == FallbackScan([], {} + {id}, [], maxCount) == [];
    assert FallbackScan([first, second], {}, [], maxCount) == FallbackScan([second], {} + {id}, [], maxCount);
  }

  // ------------------------------------------------------------------
  // The whole page   (crawler_selenium.py:162-285)
  // ------------------------------------------------------------------

  /** `_parse_articles_from_html`: the primary strategy over the first
      `max_count` containers when there are any, the link scan otherwise. */
  function ParsePage(page: Page, maxCount: int): seq<Article>
  {
    if page.containers != [] then Primary(page.containers[..SliceEnd(|page.containers|, maxCount)])
    else FallbackScan(page.links, {}, [], maxCount)
  }

  /** At most `max_count` records (none for a negative `max_count` without
      containers), and never more than there are containers. */
  lemma ParsePageBound(page: Page, maxCount: int)
    ensures maxCount >= 0 ==> |ParsePage(page, maxCount)| <= maxCount
    ensures maxCount < 0 && page.containers == [] ==> ParsePage(page, maxCount) == []
    ensures page.containers != [] ==> |ParsePage(page, maxCount)| <= |page.containers|
  {
    if page.containers == [] {
      FallbackScanInvariant(page.links, {}, [], maxCount);
    }
  }

  /** With containers, the records are those of the examined containers, in
      container order; a later container never produces an earlier record. */
  lemma PrimaryOrder(page: Page, maxCount: int, i: nat, j: nat)
    requires page.containers != []
    requires i < j <= SliceEnd(|page.containers|, maxCount)
    ensures var cs := page.containers;
            ParsePage(page, maxCount) == Primary(cs[..i]) + Primary(cs[i..j]) + Primary(cs[j..SliceEnd(|cs|, maxCount)])
  {
    var cs := page.containers;
    var e := SliceEnd(|cs|, maxCount);
    assert cs[..e] == cs[..i] + cs[i..j] + cs[j..e];
    PrimaryAppend(cs[..i] + cs[i..j], cs[j..e]);
    PrimaryAppend(cs[..i], cs[i..j]);
  }

  /** Without containers, the link scan emits distinct ids, each from one of
      the links, with zero counts and empty time, author and summary. */
  lemma FallbackRecords(page: Page, maxCount: int)
    requires page.containers == []
    ensures var r := ParsePage(page, maxCount);
            && DistinctIds(r)
            && (forall k :: 0 <= k < |r| ==> IsFallbackRecord(r[k]))
            && (forall a :: a in r ==> exists j :: 0 <= j < |page.links| && ArticleIdFrom(page.links[j].href, 0) == Some(a.id))
  {
    FallbackScanInvariant(page.links, {}, [], maxCount);
    forall a | a in ParsePage(page, maxCount)
      ensures exists j :: 0 <= j < |page.links| && ArticleIdFrom(page.links[j].href, 0) == Some(a.id)
    {
      FallbackFromLinks(page.links, {}, [], maxCount, a);
    }
  }

  // ------------------------------------------------------------------
  // The extraction loops
  // ------------------------------------------------------------------

  /** `_parse_articles_fallback` called with an empty list: scan the links in
      order, stop once `max_count` records exist. */
  method ParseArticlesFallback(links: seq<Link>, maxCount: int) returns (articles: seq<Article>)
    ensures articles == FallbackScan(links, {}, [], maxCount)
  {
    articles := [];
    var seen: set<string> := {};
    var i := 0;
    while i < |links|
      invariant i <= |links|
      invariant FallbackScan(links[i..], seen, articles, maxCount) == FallbackScan(links, {}, [], maxCount)
    {
      if |articles| >= maxCount {
        break;
      }
      var link := links[i];
      var id := ArticleIdFrom(link.href, 0);
      assert links[i..][1..] == links[i + 1..];
      if id.Some? && id.value !in seen {
        seen := seen + {id.value};
        var title := ChooseTitle(link.title, link.ariaLabel, link.text);
        if FallbackTitleAccepted(title) {
          articles := articles + [LinkArticle(id.value, title, link.href)];
        }
      }
      i := i + 1;
    }
  }

  /** `_parse_articles_from_html` on a parsed page. */
  method ParseArticlesFromHtml(page: Page, maxCount: int) returns (articles: seq<Article>)
    ensures articles == ParsePage(page, maxCount)
  {
    var cards := page.containers;
    if cards != [] {
      var end := SliceEnd(|cards|, maxCount);
      articles := [];
      var i := 0;
      while i < end
        invariant i <= end
        invariant articles == Primary(cards[..i])
      {
        assert cards[..i + 1][..i] == cards[..i];
        var a := CardArticle(cards[i]);
        if a.Some? {
          articles := articles + [a.value];
        }
        i := i + 1;
      }
    } else {
      articles := ParseArticlesFallback(page.links, maxCount);
    }
  }
}

=== FILE: listing.dfy ===
/** What the crawler does with an extracted list (toutiao/crawler_selenium.py:622-711):
    merge each article with its detail page, put the articles that have a
    publish time first in descending string order (a stable sort), the others
    after them in list order, and filter out the ids seen before. */
module Listing {
  import opened Strings
  import opened Records
  import opened Extraction
  import opened Details

  // ------------------------------------------------------------------
  // Python's string order
  // ------------------------------------------------------------------

  /** `a < b` on Python strings: lexicographic by code point. */
  predicate StrLess(a: string, b: string)
  {
    if a == [] then b != []
    else if b == [] then false
    else a[0] < b[0] || (a[0] == b[0] && StrLess(a[1..], b[1..]))
  }

  lemma {:induction false} StrLessIrreflexive(a: string)
    ensures !StrLess(a, a)
  {
    if a != [] { StrLessIrreflexive(a[1..]); }
  }

  lemma {:induction false} StrLessTransitive(a: string, b: string, c: string)
    requires StrLess(a, b) && StrLess(b, c)
    ensures StrLess(a, c)
  {
    if a != [] && b != [] && c != [] && a[0] == b[0] && b[0] == c[0] {
      StrLessTransitive(a[1..], b[1..], c[1..]);
    }
  }

  /** Any two different strings are ordered one way or the other. */
  lemma {:induction false} StrLessTotal(a: string, b: string)
    requires a != b
    ensures StrLess(a, b) || StrLess(b, a)
  {
    if a != [] && b != [] && a[0] == b[0] {
      assert a == [a[0]] + a[1..] && b == [b[0]] + b[1..];
      StrLessTotal(a[1..], b[1..]);
    }
  }

  lemma {:induction false} StrLessAsymmetric(a: string, b: string)
    requires StrLess(a, b)
    ensures !StrLess(b, a)
  {
    if StrLess(b, a) {
      StrLessTransitive(a, b, a);
      StrLessIrreflexive(a);
    }
  }

  // ------------------------------------------------------------------
  // Merging the details   (crawler_selenium.py:644-662)
  // ------------------------------------------------------------------

  /** One article after its detail fetch: a detail value replaces the article's
      field only when it is non-empty; a failed fetch (`{}`) changes nothing. */
  function MergeDetails(a: Article, details: Option<ArticleDetails>): (r: Article)
    ensures r.id == a.id && r.title == a.title && r.url == a.url
    ensures r.readCount == a.readCount && r.commentCount == a.commentCount
    ensures details.None? ==> r == a
    ensures details.Some? ==>
              && r.publishTime == (if details.value.publishTime != "" then details.value.publishTime else a.publishTime)
              && r.author == (if details.value.author != "" then details.value.author else a.author)
              && r.summary == (if details.value.summary != "" then details.value.summary else a.summary)
  {
    match details
    case None => a
    case Some(d) =>
      a.(publishTime := if d.publishTime != "" then d.publishTime else a.publishTime,
         author := if d.author != "" then d.author else a.author,
         summary := if d.summary != "" then d.summary else a.summary)
  }

  /** What `get_article_details(id)` returns: the resolved details of the
      page, or nothing (`{}`) when the page could not be loaded. */
  function FetchDetails(pages: string -> Option<DetailPage>, id: string): Option<ArticleDetails>
  {
    match pages(id)
    case None => None
    case Some(p) => Some(DetailsSpec(p, id))
  }

  /** An article with a non-empty id is merged with its details; one without is kept as is. */
  function Enrich(a: Article, pages: string -> Option<DetailPage>): Article
  {
    if a.id != "" then MergeDetails(a, FetchDetails(pages, a.id)) else a
  }

  function EnrichAll(articles: seq<Article>, pages: string -> Option<DetailPage>): (r: seq<Article>)
    ensures |r| == |articles|
    ensures forall i :: 0 <= i < |r| ==> r[i] == Enrich(articles[i], pages)
  {
    if articles == [] then [] else [Enrich(articles[0], pages)] + EnrichAll(articles[1..], pages)
  }

  // ------------------------------------------------------------------
  // Sorting   (crawler_selenium.py:664-673)
  // ------------------------------------------------------------------

  predicate HasTime(a: Article) { a.publishTime != "" }

  /** The articles satisfying `p`, in order (a list comprehension). */
  function Filter(s: seq<Article>, p: Article -> bool): (r: seq<Article>)
    ensures |r| <= |s|
  {
    if s == [] then []
    else if p(s[0]) then [s[0]] + Filter(s[1..], p) else Filter(s[1..], p)
  }

  /** The filter keeps exactly the articles that satisfy the condition. */
  lemma {:induction false} FilterMembers(s: seq<Article>, p: Article -> bool)
    ensures forall a :: a in Filter(s, p) <==> a in s && p(a)
    decreases |s|
  {
    if s != [] {
      FilterMembers(s[1..], p);
      assert s == [s[0]] + s[1..];
    }
  }

  /** Nothing is kept when no article satisfies the condition. */
  lemma {:induction false} FilterNone(s: seq<Article>, p: Article -> bool)
    requires forall k :: 0 <= k < |s| ==> !p(s[k])
    ensures Filter(s, p) == []
    decreases |s|
  {
    if s != [] {
      FilterNone(s[1..], p);
    }
  }

  lemma {:induction false} FilterAppend(s: seq<Article>, t: seq<Article>, p: Article -> bool)
    ensures Filter(s + t, p) == Filter(s, p) + Filter(t, p)
    decreases |s|
  {
    if s == [] {
      assert s + t == t;
    } else {
      assert (s + t)[1..] == s[1..] + t;
      FilterAppend(s[1..], t, p);
    }
  }

  /** No later article has a later time than an earlier one. */
  predicate SortedDesc(s: seq<Article>)
  {
    forall i, j :: 0 <= i < j < |s| ==> !StrLess(s[i].publishTime, s[j].publishTime)
  }

  /** Put `x` after every article whose time is not earlier than its own. */
  function Insert(x: Article, s: seq<Article>): (r: seq<Article>)
    ensures |r| == |s| + 1
    ensures multiset(r) == multiset(s) + multiset{x}
  {
    if s == [] then [x]
    else if StrLess(s[0].publishTime, x.publishTime) then [x] + s
    else
      assert s == [s[0]] + s[1..];
      [s[0]] + Insert(x, s[1..])
  }

  /** `sort(key=publish_time, reverse=True)`: a stable sort into descending order. */
  function SortDesc(s: seq<Article>): (r: seq<Article>)
    ensures |r| == |s|
    ensures multiset(r) == multiset(s)
  {
    if s == [] then []
    else
      assert s == s[..|s| - 1] + [s[|s| - 1]];
      Insert(s[|s| - 1], SortDesc(s[..|s| - 1]))
  }

  /** `x` is inserted and nothing else is added. */
  lemma InsertMembers(x: Article, s: seq<Article>)
    ensures forall y :: y in Insert(x, s) <==> y == x || y in s
  {
    var r := Insert(x, s);
    forall y ensures y in r <==> y == x || y in s {
      assert y in r <==> y in multiset(r);
      assert y in s <==> y in multiset(s);
    }
  }

  /** If `a < b` and not `a < c`, then not `b < c`. */
  lemma NotLessAfter(a: string, b: string, c: string)
    requires StrLess(a, b) && !StrLess(a, c)
    ensures !StrLess(b, c)
  {
    if StrLess(b, c) {
      StrLessTransitive(a, b, c);
    }
  }

  lemma {:induction false} InsertSorted(x: Article, s: seq<Article>)
    requires SortedDesc(s)
    ensures SortedDesc(Insert(x, s))
    decreases |s|
  {
    if s == [] {
    } else if !StrLess(s[0].publishTime, x.publishTime) {
      var tail := Insert(x, s[1..]);
      InsertSorted(x, s[1..]);
      InsertMembers(x, s[1..]);
      assert Insert(x, s) == [s[0]] + tail;
      forall z | z in tail ensures !StrLess(s[0].publishTime, z.publishTime) {
        if z != x {
          var k :| 0 <= k < |s[1..]| && s[1..][k] == z;
          assert s[k + 1] == z;
        }
      }
      ConsSorted(s[0], tail);
    } else {
      assert Insert(x, s) == [x] + s;
      forall j | 0 <= j < |s| ensures !StrLess(x.publishTime, s[j].publishTime) {
        if j == 0 {
          StrLessAsymmetric(s[0].publishTime, x.publishTime);
        } else {
          NotLessAfter(s[0].publishTime, x.publishTime, s[j].publishTime);
        }
      }
    }
  }

  /** An article not earlier than any of a sorted list can go in front of it. */
  lemma ConsSorted(y: Article, s: seq<Article>)
    requires SortedDesc(s)
    requires forall z :: z in s ==> !StrLess(y.publishTime, z.publishTime)
    ensures SortedDesc([y] + s)
  {
    var r := [y] + s;
    forall i, j | 0 <= i < j < |r| ensures !StrLess(r[i].publishTime, r[j].publishTime) {
      assert r[j] == s[j - 1];
      if i > 0 {
        assert r[i] == s[i - 1];
      }
    }
  }

  lemma {:induction false} SortDescSorted(s: seq<Article>)
    ensures SortedDesc(SortDesc(s))
    decreases |s|
  {
    if s != [] {
      SortDescSorted(s[..|s| - 1]);
      InsertSorted(s[|s| - 1], SortDesc(s[..|s| - 1]));
    }
  }

  /** The articles with time `t`, in order. */
  function WithTime(s: seq<Article>, t: string): seq<Article>
  {
    Filter(s, TimeIs(t))
  }

  function TimeIs(t: string): Article -> bool
  {
    (a: Article) => a.publishTime == t
  }

  /** Inserting keeps the articles of every time in the order they had: the
      new one goes after those with the same time. */
  lemma {:induction false} InsertStable(x: Article, s: seq<Article>, t: string)
    requires SortedDesc(s)
    ensures WithTime(Insert(x, s), t) == WithTime(s, t) + (if x.publishTime == t then [x] else [])
    decreases |s|
  {
    var p := TimeIs(t);
    if s == [] {
    } else if StrLess(s[0].publishTime, x.publishTime) {
      if x.publishTime == t {
        forall k | 0 <= k < |s| ensures !p(s[k]) {
          if k > 0 {
            assert !StrLess(s[0].publishTime, s[k].publishTime);
          } else {
            StrLessIrreflexive(t);
          }
        }
        FilterNone(s, p);
        assert Filter([x] + s, p) == [x] + Filter(s, p) by {
          assert ([x] + s)[1..] == s;
        }
      } else {
        assert ([x] + s)[1..] == s;
      }
    } else {
      InsertStable(x, s[1..], t);
      assert ([s[0]] + Insert(x, s[1..]))[1..] == Insert(x, s[1..]);
    }
  }

  /** The sort is stable: the articles of each time keep their list order. */
  lemma {:induction false} SortDescStable(s: seq<Article>, t: string)
    ensures WithTime(SortDesc(s), t) == WithTime(s, t)
    decreases |s|
  {
    if s != [] {
      var init := s[..|s| - 1];
      var last := s[|s| - 1];
      assert s == init + [last];
      SortDescSnoc(init, last);
      SortDescSorted(init);
      InsertStable(last, SortDesc(init), t);
      SortDescStable(init, t);
      WithTimeSnoc(init, last, t);
    }
  }

  lemma SortDescSnoc(init: seq<Article>, last: Article)
    ensures SortDesc(init + [last]) == Insert(last, SortDesc(init))
  {
    assert (init + [last])[..|init|] == init;
  }

  lemma WithTimeSnoc(s: seq<Article>, x: Article, t: string)
    ensures WithTime(s + [x], t) == WithTime(s, t) + (if x.publishTime == t then [x] else [])
  {
    FilterAppend(s, [x], TimeIs(t));
    assert [x][1..] == [];
  }

  /** The order `get_latest_articles` returns: the articles with a time,
      sorted in descending order, then those without, in list order. */
  function Arrange(articles: seq<Article>): seq<Article>
  {
    SortDesc(Filter(articles, HasTime)) + Filter(articles, NoTime)
  }

  predicate NoTime(a: Article) { !HasTime(a) }

  /** Two complementary filters split a list without losing or adding anything. */
  lemma {:induction false} FilterPartition(s: seq<Article>, p: Article -> bool, q: Article -> bool)
    requires forall a :: q(a) == !p(a)
    ensures multiset(Filter(s, p)) + multiset(Filter(s, q)) == multiset(s)
    decreases |s|
  {
    if s != [] {
      FilterPartition(s[1..], p, q);
      assert s == [s[0]] + s[1..];
    }
  }

  /** The arrangement is a permutation of the merged list. */
  lemma ArrangePermutation(articles: seq<Article>)
    ensures multiset(Arrange(articles)) == multiset(articles)
  {
    FilterPartition(articles, HasTime, NoTime);
  }

  /** The articles with a time come first: all of them, in descending order,
      those with equal times in list order. */
  lemma ArrangeTimedFirst(articles: seq<Article>)
    ensures var r := Arrange(articles);
            var timed := Filter(articles, HasTime);
            && |timed| <= |r|
            && SortedDesc(r[..|timed|])
            && (forall i :: 0 <= i < |timed| ==> HasTime(r[i]))
            && (forall t :: WithTime(r[..|timed|], t) == WithTime(timed, t))
  {
    var timed := Filter(articles, HasTime);
    var r := Arrange(articles);
    assert r[..|timed|] == SortDesc(timed);
    SortDescSorted(timed);
    FilterMembers(articles, HasTime);
    forall i | 0 <= i < |timed| ensures HasTime(r[i]) {
      assert r[i] in multiset(SortDesc(timed));
      assert r[i] in timed;
    }
    forall t ensures WithTime(r[..|timed|], t) == WithTime(timed, t) {
      SortDescStable(timed, t);
    }
  }

  /** The articles without a time follow, in list order. */
  lemma ArrangeUntimedAfter(articles: seq<Article>)
    ensures var r := Arrange(articles);
            var timed := Filter(articles, HasTime);
            && |timed| <= |r|
            && r[|timed|..] == Filter(articles, NoTime)
            && (forall i :: |timed| <= i < |r| ==> !HasTime(r[i]))
  {
    var timed := Filter(articles, HasTime);
    var rest := Filter(articles, NoTime);
    var r := Arrange(articles);
    assert r[|timed|..] == rest;
    FilterMembers(articles, NoTime);
    forall i | |timed| <= i < |r| ensures !HasTime(r[i]) {
      assert r[i] == rest[i - |timed|];
      assert rest[i - |timed|] in rest;
    }
  }

  // ------------------------------------------------------------------
  // get_latest_articles and the crawler's check_new_articles
  // ------------------------------------------------------------------

  /** `get_latest_articles` on a listing page and the detail pages it leads to. */
  function LatestSpec(page: Page, limit: int, pages: string -> Option<DetailPage>): seq<Article>
  {
    Arrange(EnrichAll(ParsePage(page, limit), pages))
  }

  /** `get_latest_articles`: extract, fetch each article's details and merge
      them in place, then arrange. */
  method GetLatestArticles(page: Page, limit: int, pages: string -> Option<DetailPage>) returns (r: seq<Article>)
    ensures r == LatestSpec(page, limit, pages)
  {
    var articles := ParseArticlesFromHtml(page, limit);
    ghost var extracted := articles;
    var i := 0;
    while i < |articles|
      invariant i <= |articles| == |extracted|
      invariant forall k :: 0 <= k < i ==> articles[k] == Enrich(extracted[k], pages)
      invariant forall k :: i <= k < |articles| ==> articles[k] == extracted[k]
    {
      var a := articles[i];
      if a.id != "" {
        var details := FetchDetails(pages, a.id);
        if details.Some? {
          a := MergeDetails(a, details);
        }
      }
      articles := articles[i := a];
      i := i + 1;
    }
    assert articles == EnrichAll(extracted, pages);
    r := Arrange(articles);
  }

  /** The crawler's `check_new_articles` filter: the articles whose id is not
      among the given ids, in order. */
  function NotSeen(latest: seq<Article>, lastIds: seq<string>): seq<Article>
  {
    Filter(latest, (a: Article) => a.id !in lastIds)
  }

  method CheckNewArticles(latest: seq<Article>, lastIds: seq<string>) returns (unseen: seq<Article>)
    ensures unseen == NotSeen(latest, lastIds)
  {
    unseen := [];
    var i := 0;
    while i < |latest|
      invariant i <= |latest|
      invariant unseen == NotSeen(latest[..i], lastIds)
    {
      FilterAppend(latest[..i], [latest[i]], (a: Article) => a.id !in lastIds);
      assert latest[..i + 1] == latest[..i] + [latest[i]];
      if latest[i].id !in lastIds {
        unseen := unseen + [latest[i]];
      }
      i := i + 1;
    }
    assert latest[..i] == latest;
  }

  /** The filter keeps exactly the articles with an unseen id, in their order. */
  lemma NotSeenSpec(latest: seq<Article>, lastIds: seq<string>)
    ensures forall a :: a in NotSeen(latest, lastIds) <==> a in latest && a.id !in lastIds
    ensures forall s: seq<Article>, t: seq<Article> :: NotSeen(s + t, lastIds) == NotSeen(s, lastIds) + NotSeen(t, lastIds)
  {
    FilterMembers(latest, (a: Article) => a.id !in lastIds);
    forall s: seq<Article>, t: seq<Article> ensures NotSeen(s + t, lastIds) == NotSeen(s, lastIds) + NotSeen(t, lastIds) {
      FilterAppend(s, t, (a: Article) => a.id !in lastIds);
    }
  }
}

=== FILE: monitor.dfy ===
/** The monitor (toutiao/monitor.py): one check takes the crawler's newest
    articles, stores the ones whose ids are new and notifies about them,
    marking an article as notified only when the notifier reported success.
    The crawl is given by the pages it reads; the notifier, which talks to
    the webhook, by `verdicts(k)`: what it would return for the loop's `k`-th
    item (the `k`-th candidate of `run_check_cycle`, the `k`-th article of
    `send_notifications`). An item that is never sent, such as a repeated
    candidate whose insert is ignored, leaves its verdict unused. */
module Monitor {
  import opened Strings
  import opened Records
  import opened Store
  import N = Notifier
  import L = Listing
  import E = Extraction
  import D = Details

  // ------------------------------------------------------------------
  // First occurrences of new ids
  // ------------------------------------------------------------------

  /** The ids carried by the articles of `s`. */
  function IdsOf(s: seq<Article>): set<string>
    decreases |s|
  {
    if s == [] then {} else IdsOf(s[..|s| - 1]) + {s[|s| - 1].id}
  }

  lemma {:induction false} IdsOfMembers(s: seq<Article>)
    ensures forall id :: id in IdsOf(s) <==> exists j :: 0 <= j < |s| && s[j].id == id
    decreases |s|
  {
    if s != [] {
      IdsOfMembers(s[..|s| - 1]);
    }
  }

  lemma IdsOfSnoc(s: seq<Article>, a: Article)
    ensures IdsOf(s + [a]) == IdsOf(s) + {a.id}
  {
    assert (s + [a])[..|s|] == s;
  }

  /** The articles of `s` whose id is neither known nor carried by an earlier
      article of `s`, in order: the reference for what a check stores. */
  function FirstNew(s: seq<Article>, known: set<string>): seq<Article>
    decreases |s|
  {
    if s == [] then []
    else
      var init := s[..|s| - 1];
      var a := s[|s| - 1];
      if a.id in known || a.id in IdsOf(init) then FirstNew(init, known) else FirstNew(init, known) + [a]
  }

  lemma FirstNewSnoc(s: seq<Article>, a: Article, known: set<string>)
    ensures FirstNew(s + [a], known)
            == if a.id in known || a.id in IdsOf(s) then FirstNew(s, known) else FirstNew(s, known) + [a]
  {
    assert (s + [a])[..|s|] == s;
  }

  predicate DistinctIds(s: seq<Article>)
  {
    forall i, j :: 0 <= i < j < |s| ==> s[i].id != s[j].id
  }

  /** `FirstNew` keeps articles of `s` only, none with a known id. */
  lemma {:induction false} FirstNewFrom(s: seq<Article>, known: set<string>)
    ensures forall a :: a in FirstNew(s, known) ==> a in s && a.id !in known
    decreases |s|
  {
    if s != [] {
      FirstNewFrom(s[..|s| - 1], known);
      assert s == s[..|s| - 1] + [s[|s| - 1]];
    }
  }

  /** Every id of `s` that is not known is kept, and no other. */
  lemma {:induction false} FirstNewIds(s: seq<Article>, known: set<string>)
    ensures IdsOf(FirstNew(s, known)) == IdsOf(s) - known
    decreases |s|
  {
    if s != [] {
      var init := s[..|s| - 1];
      var a := s[|s| - 1];
      FirstNewIds(init, known);
      if !(a.id in known || a.id in IdsOf(init)) {
        IdsOfSnoc(FirstNew(init, known), a);
      }
    }
  }

  /** `FirstNew` keeps one article per id. */
  lemma {:induction false} FirstNewDistinct(s: seq<Article>, known: set<string>)
    ensures DistinctIds(FirstNew(s, known))
    decreases |s|
  {
    if s != [] {
      var init := s[..|s| - 1];
      var a := s[|s| - 1];
      var f := FirstNew(init, known);
      FirstNewDistinct(init, known);
      if !(a.id in known || a.id in IdsOf(init)) {
        FirstNewIds(init, known);
        IdsOfMembers(f);
        forall i | 0 <= i < |f| ensures f[i].id != a.id {
          assert f[i].id in IdsOf(f);
        }
        var g := f + [a];
        forall i, j | 0 <= i < j < |g| ensures g[i].id != g[j].id {
          assert g[i] == f[i];
          if j < |f| {
            assert g[j] == f[j];
          }
        }
        assert FirstNew(s, known) == g;
      } else {
        assert FirstNew(s, known) == f;
      }
    }
  }

  // ------------------------------------------------------------------
  // check_new_articles   (toutiao/monitor.py:85-121)
  // ------------------------------------------------------------------

  datatype Checked = Checked(table: Table, added: seq<Article>)

  /** One turn of the loop of `check_new_articles`: an article whose id is not
      stored is added, and kept when `add_article` reports that it was. */
  function CheckStep(prev: Checked, a: Article): Checked
  {
    if a.id in prev.table.rows then prev
    else
      var ins := InsertCrawled(prev.table, a);
      if ins.added then Checked(ins.table, prev.added + [a]) else prev
  }

  function CheckNewSpec(t: Table, latest: seq<Article>): Checked
    decreases |latest|
  {
    if latest == [] then Checked(t, [])
    else CheckStep(CheckNewSpec(t, latest[..|latest| - 1]), latest[|latest| - 1])
  }

  lemma CheckNewSnoc(t: Table, s: seq<Article>, a: Article)
    ensures CheckNewSpec(t, s + [a]) == CheckStep(CheckNewSpec(t, s), a)
  {
    assert (s + [a])[..|s|] == s;
  }

  /** One turn stores the article's id, keeps the article exactly when its id
      was new, and leaves the stored rows alone. */
  lemma CheckStepFacts(prev: Checked, a: Article)
    ensures var next := CheckStep(prev, a);
            && next.added == prev.added + (if a.id in prev.table.rows then [] else [a])
            && next.table.rows.Keys == prev.table.rows.Keys + {a.id}
            && (forall id :: id in prev.table.rows ==> next.table.rows[id] == prev.table.rows[id])
  {
    InsertCrawledFacts(prev.table, a);
  }

  /** A check stores every crawled id and leaves stored rows as they were. */
  lemma {:induction false} CheckNewStores(t: Table, latest: seq<Article>)
    ensures var c := CheckNewSpec(t, latest);
            && c.table.rows.Keys == t.rows.Keys + IdsOf(latest)
            && (forall id :: id in t.rows ==> c.table.rows[id] == t.rows[id])
    decreases |latest|
  {
    if latest != [] {
      var init := latest[..|latest| - 1];
      var a := latest[|latest| - 1];
      CheckNewStores(t, init);
      assert IdsOf(latest) == IdsOf(init) + {a.id};
      var prev := CheckNewSpec(t, init);
      CheckStepFacts(prev, a);
      assert CheckNewSpec(t, latest) == CheckStep(prev, a);
    }
  }

  /** A check returns exactly the first article of each id that was not
      stored, in crawl order. */
  lemma {:induction false} CheckNewReturnsFirstNew(t: Table, latest: seq<Article>)
    ensures CheckNewSpec(t, latest).added == FirstNew(latest, t.rows.Keys)
    decreases |latest|
  {
    if latest != [] {
      var init := latest[..|latest| - 1];
      var a := latest[|latest| - 1];
      CheckNewReturnsFirstNew(t, init);
      CheckNewStores(t, init);
      var prev := CheckNewSpec(t, init);
      CheckStepFacts(prev, a);
      assert CheckNewSpec(t, latest) == CheckStep(prev, a);
    }
  }

  /** A check keeps the table well formed. */
  lemma {:induction false} CheckNewValid(t: Table, latest: seq<Article>)
    requires TableValid(t)
    ensures TableValid(CheckNewSpec(t, latest).table)
    decreases |latest|
  {
    if latest != [] {
      var init := latest[..|latest| - 1];
      CheckNewValid(t, init);
      InsertCrawledValid(CheckNewSpec(t, init).table, latest[|latest| - 1]);
    }
  }

  // ------------------------------------------------------------------
  // run_check_cycle   (toutiao/monitor.py:153-192)
  // ------------------------------------------------------------------

  /** The crawled articles whose ids the store does not hold, in order (the
      first loop of `run_check_cycle`; duplicates stay). */
  function Unstored(t: Table, latest: seq<Article>): seq<Article>
    decreases |latest|
  {
    if latest == [] then []
    else
      var a := latest[|latest| - 1];
      Unstored(t, latest[..|latest| - 1]) + (if a.id in t.rows then [] else [a])
  }

  lemma UnstoredSnoc(t: Table, s: seq<Article>, a: Article)
    ensures Unstored(t, s + [a]) == Unstored(t, s) + (if a.id in t.rows then [] else [a])
  {
    assert (s + [a])[..|s|] == s;
  }

  lemma {:induction false} UnstoredMembers(t: Table, latest: seq<Article>)
    ensures forall a :: a in Unstored(t, latest) <==> a in latest && a.id !in t.rows
    ensures (forall a :: a in latest ==> a.id in t.rows) ==> Unstored(t, latest) == []
    decreases |latest|
  {
    if latest != [] {
      UnstoredMembers(t, latest[..|latest| - 1]);
      assert latest == latest[..|latest| - 1] + [latest[|latest| - 1]];
    }
  }

  /** The unstored articles carry exactly the crawled ids that are not stored. */
  lemma {:induction false} UnstoredIds(t: Table, latest: seq<Article>)
    ensures IdsOf(Unstored(t, latest)) == IdsOf(latest) - t.rows.Keys
    decreases |latest|
  {
    if latest != [] {
      var init := latest[..|latest| - 1];
      var a := latest[|latest| - 1];
      var u := Unstored(t, init);
      UnstoredIds(t, init);
      assert IdsOf(latest) == IdsOf(init) + {a.id};
      if a.id !in t.rows {
        assert Unstored(t, latest) == u + [a];
        IdsOfSnoc(u, a);
      } else {
        assert Unstored(t, latest) == u + [] == u;
      }
    }
  }

  /** Keeping only the unstored articles keeps the same first occurrences. */
  lemma {:induction false} UnstoredFirstNew(t: Table, latest: seq<Article>)
    ensures FirstNew(Unstored(t, latest), t.rows.Keys) == FirstNew(latest, t.rows.Keys)
    decreases |latest|
  {
    if latest != [] {
      var init := latest[..|latest| - 1];
      var a := latest[|latest| - 1];
      var u := Unstored(t, init);
      UnstoredFirstNew(t, init);
      UnstoredIds(t, init);
      if a.id !in t.rows {
        assert Unstored(t, latest) == u + [a];
        FirstNewSnoc(u, a, t.rows.Keys);
      } else {
        assert Unstored(t, latest) == u + [] == u;
        assert FirstNew(latest, t.rows.Keys) == FirstNew(init, t.rows.Keys);
      }
    }
  }

  datatype Cycle = Cycle(table: Table, attempted: seq<Article>)

  /** One turn of the second loop of `run_check_cycle`: add the candidate; when
      the add reports a new row, send the notification and mark the row when
      the notifier reports success. */
  function NotifyStep(prev: Cycle, a: Article, accepted: bool): Cycle
  {
    var ins := InsertCrawled(prev.table, a);
    if !ins.added then prev
    else if accepted then Cycle(MarkSpec(ins.table, a.id).table, prev.attempted + [a])
    else Cycle(ins.table, prev.attempted + [a])
  }

  /** The second loop; the `k`-th candidate's notification gets `verdicts(k)`. */
  function NotifyPhase(t: Table, candidates: seq<Article>, verdicts: nat -> bool): Cycle
    decreases |candidates|
  {
    if candidates == [] then Cycle(t, [])
    else
      var k := |candidates| - 1;
      NotifyStep(NotifyPhase(t, candidates[..k], verdicts), candidates[k], verdicts(k))
  }

  lemma NotifyPhaseSnoc(t: Table, c: seq<Article>, a: Article, verdicts: nat -> bool)
    ensures NotifyPhase(t, c + [a], verdicts) == NotifyStep(NotifyPhase(t, c, verdicts), a, verdicts(|c|))
  {
    assert (c + [a])[..|c|] == c;
  }

  /** `run_check_cycle` on the crawled list `latest`: nothing happens for an
      empty crawl. */
  function RunCheckCycleSpec(t: Table, latest: seq<Article>, verdicts: nat -> bool): Cycle
  {
    if latest == [] then Cycle(t, []) else NotifyPhase(t, Unstored(t, latest), verdicts)
  }

  /** One turn stores the candidate's id and, when the id is new, notifies
      about it once and marks it exactly when the notifier reports success;
      stored rows are left alone. */
  lemma NotifyStepFacts(prev: Cycle, a: Article, accepted: bool)
    ensures var next := NotifyStep(prev, a, accepted);
            && next.attempted == prev.attempted + (if a.id in prev.table.rows then [] else [a])
            && next.table.rows.Keys == prev.table.rows.Keys + {a.id}
            && (forall id :: id in prev.table.rows ==> next.table.rows[id] == prev.table.rows[id])
            && (a.id !in prev.table.rows ==> (next.table.rows[a.id].notified <==> accepted))
  {
    InsertCrawledFacts(prev.table, a);
  }

  /** The `k`-th candidate is the first with its id. */
  predicate FirstAt(c: seq<Article>, k: nat)
    requires k < |c|
  {
    c[k].id !in IdsOf(c[..k])
  }

  /** The notify phase stores every candidate's id and leaves stored rows as
      they were. */
  lemma {:induction false} NotifyPhaseStores(t: Table, c: seq<Article>, verdicts: nat -> bool)
    ensures var r := NotifyPhase(t, c, verdicts);
            && r.table.rows.Keys == t.rows.Keys + IdsOf(c)
            && (forall id :: id in t.rows ==> r.table.rows[id] == t.rows[id])
    decreases |c|
  {
    if c != [] {
      var k := |c| - 1;
      var init := c[..k];
      NotifyPhaseStores(t, init, verdicts);
      assert IdsOf(c) == IdsOf(init) + {c[k].id};
      var prev := NotifyPhase(t, init, verdicts);
      NotifyStepFacts(prev, c[k], verdicts(k));
      assert NotifyPhase(t, c, verdicts) == NotifyStep(prev, c[k], verdicts(k));
    }
  }

  /** The notify phase sends one notification per new id, for its first
      candidate, in order. */
  lemma {:induction false} NotifyPhaseAttempts(t: Table, c: seq<Article>, verdicts: nat -> bool)
    ensures NotifyPhase(t, c, verdicts).attempted == FirstNew(c, t.rows.Keys)
    decreases |c|
  {
    if c != [] {
      var k := |c| - 1;
      var init := c[..k];
      NotifyPhaseAttempts(t, init, verdicts);
      NotifyPhaseStores(t, init, verdicts);
      var prev := NotifyPhase(t, init, verdicts);
      NotifyStepFacts(prev, c[k], verdicts(k));
      assert NotifyPhase(t, c, verdicts) == NotifyStep(prev, c[k], verdicts(k));
    }
  }

  /** After the notify phase, the row of each candidate id is marked exactly
      when the notification about its first candidate succeeded. */
  lemma {:induction false} NotifyPhaseMarks(t: Table, c: seq<Article>, verdicts: nat -> bool)
    requires forall a :: a in c ==> a.id !in t.rows
    ensures var r := NotifyPhase(t, c, verdicts);
            forall k :: 0 <= k < |c| && FirstAt(c, k) ==>
              c[k].id in r.table.rows && (r.table.rows[c[k].id].notified <==> verdicts(k))
    decreases |c|
  {
    if c != [] {
      var k := |c| - 1;
      var init := c[..k];
      var a := c[k];
      assert c == init + [a];
      NotifyPhaseMarks(t, init, verdicts);
      NotifyPhaseStores(t, init, verdicts);
      var prev := NotifyPhase(t, init, verdicts);
      NotifyStepFacts(prev, a, verdicts(k));
      var r := NotifyPhase(t, c, verdicts);
      assert r == NotifyStep(prev, a, verdicts(k));
      assert a.id in prev.table.rows <==> a.id in IdsOf(init);
      forall j | 0 <= j < |c| && FirstAt(c, j)
        ensures c[j].id in r.table.rows && (r.table.rows[c[j].id].notified <==> verdicts(j))
      {
        if j < k {
          assert c[..j] == init[..j];
          assert FirstAt(init, j);
          assert c[j].id in prev.table.rows by { assert init[j] in init; }
        }
      }
    }
  }

  /** The notify phase keeps the table well formed. */
  lemma {:induction false} NotifyPhaseValid(t: Table, c: seq<Article>, verdicts: nat -> bool)
    requires TableValid(t)
    ensures TableValid(NotifyPhase(t, c, verdicts).table)
    decreases |c|
  {
    if c != [] {
      var k := |c| - 1;
      NotifyPhaseValid(t, c[..k], verdicts);
      var prev := NotifyPhase(t, c[..k], verdicts).table;
      InsertCrawledValid(prev, c[k]);
      MarkOnlyThat(InsertCrawled(prev, c[k]).table, c[k].id);
    }
  }

  /** What one cycle does to the store: every crawled id is stored
      afterwards, stored rows keep their contents, and the table stays well
      formed. */
  lemma CycleStores(t: Table, latest: seq<Article>, verdicts: nat -> bool)
    requires TableValid(t)
    ensures var r := RunCheckCycleSpec(t, latest, verdicts);
            && TableValid(r.table)
            && r.table.rows.Keys == t.rows.Keys + IdsOf(latest)
            && (forall id :: id in t.rows ==> r.table.rows[id] == t.rows[id])
  {
    if latest != [] {
      var c := Unstored(t, latest);
      UnstoredIds(t, latest);
      NotifyPhaseStores(t, c, verdicts);
      NotifyPhaseValid(t, c, verdicts);
      assert RunCheckCycleSpec(t, latest, verdicts) == NotifyPhase(t, c, verdicts);
    }
  }

  /** Whom one cycle notifies: the first article of each id that was not
      stored when the cycle began, in crawl order; a new row is marked
      exactly when its notification succeeded. */
  lemma CycleNotifies(t: Table, latest: seq<Article>, verdicts: nat -> bool)
    ensures var r := RunCheckCycleSpec(t, latest, verdicts);
            var c := Unstored(t, latest);
            && r.attempted == FirstNew(latest, t.rows.Keys)
            && (forall k :: 0 <= k < |c| && FirstAt(c, k) ==>
                  c[k].id in r.table.rows && (r.table.rows[c[k].id].notified <==> verdicts(k)))
  {
    UnstoredFirstNew(t, latest);
    if latest != [] {
      var c := Unstored(t, latest);
      UnstoredMembers(t, latest);
      NotifyPhaseAttempts(t, c, verdicts);
      NotifyPhaseMarks(t, c, verdicts);
      assert RunCheckCycleSpec(t, latest, verdicts) == NotifyPhase(t, c, verdicts);
    }
  }

  /** The Feishu notifier's answers to the notifications of a cycle whose
      candidates are `c`, when the webhook replies `replies(k)` to the `k`-th. */
  function FeishuVerdicts(c: seq<Article>, replies: nat -> N.Reply): nat -> bool
  {
    (k: nat) => k < |c| && N.Notify(ToDict(c[k]), replies(k))
  }

  /** With the Feishu notifier, a new row is marked exactly when the webhook
      accepted the message about its first candidate. */
  lemma FeishuCycleMarks(t: Table, latest: seq<Article>, replies: nat -> N.Reply)
    ensures var c := Unstored(t, latest);
            var r := RunCheckCycleSpec(t, latest, FeishuVerdicts(c, replies));
            forall k :: 0 <= k < |c| && FirstAt(c, k) ==>
              c[k].id in r.table.rows && (r.table.rows[c[k].id].notified <==> N.SendSucceeded(replies(k)))
  {
    var c := Unstored(t, latest);
    CycleNotifies(t, latest, FeishuVerdicts(c, replies));
    forall k | 0 <= k < |c| {
      N.NotifyCrawled(c[k], replies(k));
    }
  }

  /** A crawl that is empty, or whose ids are all stored, changes nothing and
      notifies nobody. */
  lemma NothingNewNothingSent(t: Table, latest: seq<Article>, verdicts: nat -> bool)
    requires forall a :: a in latest ==> a.id in t.rows
    ensures RunCheckCycleSpec(t, latest, verdicts) == Cycle(t, [])
  {
    UnstoredMembers(t, latest);
  }

  // ------------------------------------------------------------------
  // send_notifications   (toutiao/monitor.py:123-151)
  // ------------------------------------------------------------------

  datatype Sent = Sent(table: Table, count: nat)

  /** `mark_as_notified(article['article_id'])`: the id is compared as text,
      and a `None` id matches no row. */
  function MarkValue(t: Table, v: Value): Table
  {
    match KeyOf(v)
    case None => t
    case Some(id) => MarkSpec(t, id).table
  }

  /** One turn of the loop of `send_notifications`: after a successful
      notification the row is marked and the count goes up; an article
      without `article_id` raises `KeyError` between the two, so it is not
      counted. */
  function SendStep(prev: Sent, d: Dict, accepted: bool): Sent
  {
    if accepted && "article_id" in d then Sent(MarkValue(prev.table, d["article_id"]), prev.count + 1)
    else prev
  }

  /** The loop; the `k`-th article's notification gets `verdicts(k)`. */
  function SendAllSpec(t: Table, articles: seq<Dict>, verdicts: nat -> bool): Sent
    decreases |articles|
  {
    if articles == [] then Sent(t, 0)
    else
      var k := |articles| - 1;
      SendStep(SendAllSpec(t, articles[..k], verdicts), articles[k], verdicts(k))
  }

  lemma SendAllSnoc(t: Table, s: seq<Dict>, d: Dict, verdicts: nat -> bool)
    ensures SendAllSpec(t, s + [d], verdicts) == SendStep(SendAllSpec(t, s, verdicts), d, verdicts(|s|))
  {
    assert (s + [d])[..|s|] == s;
  }

  /** The `k`-th notification succeeded and its article has an id. */
  predicate Delivered(articles: seq<Dict>, verdicts: nat -> bool, k: nat)
    requires k < |articles|
  {
    verdicts(k) && "article_id" in articles[k]
  }

  /** Some delivered notification among the first `n` names the row `id`. */
  predicate MarksRow(articles: seq<Dict>, verdicts: nat -> bool, n: nat, id: string)
    requires n <= |articles|
  {
    exists k :: 0 <= k < n && Delivered(articles, verdicts, k) && KeyOf(articles[k]["article_id"]) == Some(id)
  }

  /** The delivered notifications among the first `n`. */
  function DeliveredUpTo(articles: seq<Dict>, verdicts: nat -> bool, n: nat): set<nat>
    requires n <= |articles|
  {
    set k | 0 <= k < n && Delivered(articles, verdicts, k)
  }

  lemma DeliveredUpToSnoc(articles: seq<Dict>, verdicts: nat -> bool, n: nat)
    requires 0 < n <= |articles|
    ensures |DeliveredUpTo(articles, verdicts, n)|
            == |DeliveredUpTo(articles, verdicts, n - 1)| + if Delivered(articles, verdicts, n - 1) then 1 else 0
  {
    var before := DeliveredUpTo(articles, verdicts, n - 1);
    if Delivered(articles, verdicts, n - 1) {
      assert DeliveredUpTo(articles, verdicts, n) == before + {n - 1};
    } else {
      assert DeliveredUpTo(articles, verdicts, n) == before;
    }
  }

  lemma SendStepCount(prev: Sent, d: Dict, accepted: bool)
    ensures SendStep(prev, d, accepted).count == prev.count + if accepted && "article_id" in d then 1 else 0
  {
  }

  /** The count returned is the number of successful notifications of
      articles that carry an id. */
  lemma {:induction false} SendAllCount(t: Table, articles: seq<Dict>, verdicts: nat -> bool, n: nat)
    requires n <= |articles|
    ensures SendAllSpec(t, articles[..n], verdicts).count == |DeliveredUpTo(articles, verdicts, n)|
  {
    if n > 0 {
      SendAllCount(t, articles, verdicts, n - 1);
      SendAllSnoc(t, articles[..n - 1], articles[n - 1], verdicts);
      assert articles[..n] == articles[..n - 1] + [articles[n - 1]];
      SendStepCount(SendAllSpec(t, articles[..n - 1], verdicts), articles[n - 1], verdicts(n - 1));
      DeliveredUpToSnoc(articles, verdicts, n);
    }
  }

  /** One turn keeps the stored ids and every column but `notified`, and sets
      the flag of the row the delivered notification names. */
  lemma SendStepFacts(prev: Sent, d: Dict, accepted: bool)
    ensures var r := SendStep(prev, d, accepted).table;
            && r.order == prev.table.order
            && r.rows.Keys == prev.table.rows.Keys
            && (forall id :: id in prev.table.rows ==>
                  r.rows[id] == prev.table.rows[id].(notified := r.rows[id].notified)
                  && (r.rows[id].notified <==>
                        prev.table.rows[id].notified
                        || (accepted && "article_id" in d && KeyOf(d["article_id"]) == Some(id))))
  {
  }

  lemma MarksRowSnoc(articles: seq<Dict>, verdicts: nat -> bool, n: nat, id: string)
    requires 0 < n <= |articles|
    ensures MarksRow(articles, verdicts, n, id)
            <==> MarksRow(articles, verdicts, n - 1, id)
                 || (Delivered(articles, verdicts, n - 1) && KeyOf(articles[n - 1]["article_id"]) == Some(id))
  {
  }

  /** Sending keeps the stored ids and every column but `notified`; a row ends
      up notified exactly when it was already, or a delivered notification
      names it. */
  lemma {:induction false} SendAllMarks(t: Table, articles: seq<Dict>, verdicts: nat -> bool, n: nat)
    requires n <= |articles|
    ensures var r := SendAllSpec(t, articles[..n], verdicts).table;
            && r.order == t.order
            && r.rows.Keys == t.rows.Keys
            && (forall id :: id in t.rows ==>
                  r.rows[id] == t.rows[id].(notified := r.rows[id].notified)
                  && (r.rows[id].notified <==> t.rows[id].notified || MarksRow(articles, verdicts, n, id)))
  {
    if n > 0 {
      SendAllMarks(t, articles, verdicts, n - 1);
      SendAllSnoc(t, articles[..n - 1], articles[n - 1], verdicts);
      assert articles[..n] == articles[..n - 1] + [articles[n - 1]];
      var prev := SendAllSpec(t, articles[..n - 1], verdicts);
      SendStepFacts(prev, articles[n - 1], verdicts(n - 1));
      assert SendAllSpec(t, articles[..n], verdicts) == SendStep(prev, articles[n - 1], verdicts(n - 1));
      forall id | id in t.rows {
        MarksRowSnoc(articles, verdicts, n, id);
      }
    }
  }

  /** Sending keeps the table well formed. */
  lemma {:induction false} SendAllValid(t: Table, articles: seq<Dict>, verdicts: nat -> bool)
    requires TableValid(t)
    ensures TableValid(SendAllSpec(t, articles, verdicts).table)
    decreases |articles|
  {
    if articles != [] {
      var k := |articles| - 1;
      SendAllValid(t, articles[..k], verdicts);
      var prev := SendAllSpec(t, articles[..k], verdicts).table;
      if verdicts(k) && "article_id" in articles[k] {
        match KeyOf(articles[k]["article_id"])
        case None =>
        case Some(id) => MarkOnlyThat(prev, id);
      }
    }
  }

  /** `send_notifications` returns the number of successful notifications
      of articles with an id, marks exactly the rows they name, and changes
      nothing else. */
  lemma SendAllOutcome(t: Table, articles: seq<Dict>, verdicts: nat -> bool)
    requires TableValid(t)
    ensures var r := SendAllSpec(t, articles, verdicts);
            && r.count == |DeliveredUpTo(articles, verdicts, |articles|)|
            && TableValid(r.table)
            && r.table.order == t.order
            && r.table.rows.Keys == t.rows.Keys
            && (forall id :: id in t.rows ==>
                  r.table.rows[id] == t.rows[id].(notified := r.table.rows[id].notified)
                  && (r.table.rows[id].notified <==> t.rows[id].notified || MarksRow(articles, verdicts, |articles|, id)))
  {
    assert articles[..|articles|] == articles;
    SendAllCount(t, articles, verdicts, |articles|);
    SendAllMarks(t, articles, verdicts, |articles|);
    SendAllValid(t, articles, verdicts);
  }

  // ------------------------------------------------------------------
  // get_status   (toutiao/monitor.py:299-319)
  // ------------------------------------------------------------------

  datatype Status = Status(
    bloggerUrl: string,
    latestArticlesCount: nat,
    unnotifiedCount: nat,
    latestArticles: seq<Dict>,
    lastCheckTime: string)

  /** At most five latest rows are reported, and the unnotified count is the
      number of stored rows whose flag is still false. */
  lemma StatusCounts(t: Table)
    requires TableValid(t)
    ensures |Latest(t, 5)| == (if |t.rows| < 5 then |t.rows| else 5)
    ensures |Unnotified(t)| == |set id | id in t.rows && !t.rows[id].notified|
  {
    LatestCount(t, 5);
    var ids := UnnotifiedIds(t.rows, t.order);
    UnnotifiedExactly(t);
    assert Distinct(ids);
    DistinctCardinality(ids);
    assert (set x | x in ids) == set id | id in t.rows && !t.rows[id].notified;
  }

  // ------------------------------------------------------------------
  // The monitor object
  // ------------------------------------------------------------------

  /** `ArticleMonitor`: the store and the blogger URL; the crawler and the
      notifier appear through what they return. */
  class ArticleMonitor {
    const database: ArticleDatabase
    const bloggerUrl: string

    ghost predicate Valid()
      reads this, database
    {
      database.Valid()
    }

    constructor(database: ArticleDatabase, bloggerUrl: string)
      requires database.Valid()
      ensures Valid() && this.database == database && this.bloggerUrl == bloggerUrl
    {
      this.database := database;
      this.bloggerUrl := bloggerUrl;
    }

    /** `check_new_articles`: crawl (limit 10), then store the new articles and
        return those the store accepted. */
    method CheckNewArticles(page: E.Page, pages: string -> Option<D.DetailPage>)
      returns (added: seq<Article>)
      requires Valid()
      modifies database
      ensures Valid()
      ensures Checked(database.Contents(), added)
              == CheckNewSpec(old(database.Contents()), L.LatestSpec(page, 10, pages))
    {
      var latest := L.GetLatestArticles(page, 10, pages);
      added := StoreNew(latest);
    }

    /** The loop of `check_new_articles` over the crawled list. */
    method StoreNew(latest: seq<Article>) returns (added: seq<Article>)
      requires Valid()
      modifies database
      ensures Valid()
      ensures Checked(database.Contents(), added) == CheckNewSpec(old(database.Contents()), latest)
    {
      added := [];
      if latest == [] {
        return;
      }
      ghost var start := database.Contents();
      var i := 0;
      while i < |latest|
        invariant i <= |latest|
        invariant database.Valid()
        invariant Checked(database.Contents(), added) == CheckNewSpec(start, latest[..i])
      {
        var a := latest[i];
        ghost var prev := Checked(database.Contents(), added);
        assert latest[..i + 1] == latest[..i] + [a];
        CheckNewSnoc(start, latest[..i], a);
        var present := database.ArticleExists(a.id);
        if !present {
          CrawledInsertion(prev.table, a);
          var ok := database.AddArticle(ToDict(a));
          if ok {
            added := added + [a];
          }
        }
        assert Checked(database.Contents(), added) == CheckStep(prev, a);
        i := i + 1;
      }
      assert latest[..i] == latest;
    }

    /** `send_notifications`: notify each article (the `k`-th gets
        `verdicts(k)`), mark and count the accepted ones. */
    method SendNotifications(articles: seq<Dict>, verdicts: nat -> bool) returns (successCount: nat)
      requires Valid()
      modifies database
      ensures Valid()
      ensures Sent(database.Contents(), successCount) == SendAllSpec(old(database.Contents()), articles, verdicts)
    {
      ghost var start := database.Contents();
      successCount := 0;
      var k := 0;
      while k < |articles|
        invariant k <= |articles|
        invariant database.Valid()
        invariant Sent(database.Contents(), successCount) == SendAllSpec(start, articles[..k], verdicts)
      {
        var d := articles[k];
        ghost var prev := Sent(database.Contents(), successCount);
        assert articles[..k + 1] == articles[..k] + [d];
        SendAllSnoc(start, articles[..k], d, verdicts);
        if verdicts(k) && "article_id" in d {
          var key := KeyOf(d["article_id"]);
          if key.Some? {
            var _ := database.MarkAsNotified(key.value);
          }
          successCount := successCount + 1;
        }
        assert Sent(database.Contents(), successCount) == SendStep(prev, d, verdicts(k));
        k := k + 1;
      }
      assert articles[..k] == articles;
    }

    /** `run_check_cycle`: crawl (limit 10); collect the articles whose ids are
        not stored; add each, notify about it when the add reports a new row,
        and mark it when the webhook accepted. */
    method RunCheckCycle(page: E.Page, pages: string -> Option<D.DetailPage>, verdicts: nat -> bool)
      returns (ghost attempted: seq<Article>)
      requires Valid()
      modifies database
      ensures Valid()
      ensures Cycle(database.Contents(), attempted)
              == RunCheckCycleSpec(old(database.Contents()), L.LatestSpec(page, 10, pages), verdicts)
    {
      var latest := L.GetLatestArticles(page, 10, pages);
      attempted := ProcessCrawl(latest, verdicts);
    }

    /** The body of `run_check_cycle` after the crawl. */
    method ProcessCrawl(latest: seq<Article>, verdicts: nat -> bool) returns (ghost attempted: seq<Article>)
      requires Valid()
      modifies database
      ensures Valid()
      ensures Cycle(database.Contents(), attempted) == RunCheckCycleSpec(old(database.Contents()), latest, verdicts)
    {
      attempted := [];
      if latest == [] {
        return;
      }
      var candidates := CollectUnstored(latest);
      attempted := StoreAndNotify(candidates, verdicts);
    }

    /** The first loop of `run_check_cycle`: the crawled articles whose ids
        are not stored. */
    method CollectUnstored(latest: seq<Article>) returns (candidates: seq<Article>)
      ensures candidates == Unstored(database.Contents(), latest)
    {
      candidates := [];
      var i := 0;
      while i < |latest|
        invariant i <= |latest|
        invariant candidates == Unstored(database.Contents(), latest[..i])
      {
        assert latest[..i + 1] == latest[..i] + [latest[i]];
        UnstoredSnoc(database.Contents(), latest[..i], latest[i]);
        var present := database.ArticleExists(latest[i].id);
        if !present {
          candidates := candidates + [latest[i]];
        }
        i := i + 1;
      }
      assert latest[..i] == latest;
    }

    /** The second loop of `run_check_cycle`: add each candidate, notify about
        it when the add reports a new row, and mark it when the notifier
        reports success. */
    method StoreAndNotify(candidates: seq<Article>, verdicts: nat -> bool) returns (ghost attempted: seq<Article>)
      requires Valid()
      modifies database
      ensures Valid()
      ensures Cycle(database.Contents(), attempted) == NotifyPhase(old(database.Contents()), candidates, verdicts)
    {
      ghost var start := database.Contents();
      attempted := [];
      var k := 0;
      while k < |candidates|
        invariant k <= |candidates|
        invariant database.Valid()
        invariant Cycle(database.Contents(), attempted) == NotifyPhase(start, candidates[..k], verdicts)
      {
        var a := candidates[k];
        ghost var prev := Cycle(database.Contents(), attempted);
        assert candidates[..k + 1] == candidates[..k] + [a];
        NotifyPhaseSnoc(start, candidates[..k], a, verdicts);
        CrawledInsertion(prev.table, a);
        var ok := database.AddArticle(ToDict(a));
        if ok {
          if verdicts(k) {
            var _ := database.MarkAsNotified(a.id);
          }
          attempted := attempted + [a];
        }
        assert Cycle(database.Contents(), attempted) == NotifyStep(prev, a, verdicts(k));
        k := k + 1;
      }
      assert candidates[..k] == candidates;
    }

    /** `get_status` at time `now`. */
    method GetStatus(now: string) returns (s: Status)
      requires Valid()
      ensures s == Status(bloggerUrl, |Latest(database.Contents(), 5)|, |Unnotified(database.Contents())|,
                          Latest(database.Contents(), 5), now)
    {
      var latest := database.GetLatestArticles(5);
      var unnotified := database.GetUnnotifiedArticles();
      s := Status(bloggerUrl, |latest|, |unnotified|, latest, now);
    }
  }
}

=== FILE: normalizer.dfy ===
/** The crawler's normalisers (toutiao/crawler_selenium.py): shorthand read
    counts, the comment count, the title fallback chain, the list-card time
    filter, the time-format validator `_is_valid_time_format` and
    `_format_publish_time`. All are pure functions of the text fragments that
    the HTML parser hands over. */
module Normalizer {
  import opened Strings

  // ------------------------------------------------------------------
  // Read counts: re.search(r'([\d.]+)([万千]?)阅读', text), then
  // int(float(number) * unit)   (crawler_selenium.py:226-239)
  // ------------------------------------------------------------------

  predicate IsDigitOrDot(c: char) { IsDigit(c) || c == '.' }

  /** The end of the maximal run of `[\d.]` characters that starts at `i`. */
  function DecimalRunEnd(s: string, i: nat): (j: nat)
    requires i <= |s|
    ensures i <= j <= |s|
    ensures forall k :: i <= k < j ==> IsDigitOrDot(s[k])
    ensures j == |s| || !IsDigitOrDot(s[j])
    decreases |s| - i
  {
    if i < |s| && IsDigitOrDot(s[i]) then DecimalRunEnd(s, i + 1) else i
  }

  /** The two groups of a read-count match. */
  datatype ReadMatch = ReadMatch(number: string, unit: string)

  /** The leftmost match of `([\d.]+)([万千]?)阅读` at or after `i`. The greedy
      `[\d.]+` can only succeed at the end of its maximal run, because neither
      a unit nor `阅` is a digit or a dot, so backtracking never finds another
      split. */
  function SearchRead(s: string, i: nat): (r: Option<ReadMatch>)
    requires i <= |s|
    ensures r.Some? ==> r.value.number != [] && forall k :: 0 <= k < |r.value.number| ==> IsDigitOrDot(r.value.number[k])
    ensures r.Some? ==> r.value.unit == "万" || r.value.unit == "千" || r.value.unit == ""
    decreases |s| - i
  {
    if i == |s| then None
    else if IsDigitOrDot(s[i]) then
      var j := DecimalRunEnd(s, i);
      if OccursAt(s, "万阅读", j) then Some(ReadMatch(s[i..j], "万"))
      else if OccursAt(s, "千阅读", j) then Some(ReadMatch(s[i..j], "千"))
      else if OccursAt(s, "阅读", j) then Some(ReadMatch(s[i..j], ""))
      else SearchRead(s, i + 1)
    else SearchRead(s, i + 1)
  }

  /** An exact decimal `mantissa / 10^scale`. */
  datatype Decimal = Decimal(mantissa: nat, scale: nat)

  function Pow10(n: nat): (r: nat)
    ensures r >= 1
  {
    if n == 0 then 1 else 10 * Pow10(n - 1)
  }

  /** Python's `float(t)` on a string of digits and dots: it succeeds exactly
      when there is at most one dot and at least one digit. */
  function ParseDecimal(t: string): (r: Option<Decimal>)
    requires forall k :: 0 <= k < |t| ==> IsDigitOrDot(t[k])
  {
    var p := BeforeFirst(t, '.');
    assert AllDigits(p) by {
      forall k | 0 <= k < |p| ensures IsDigit(p[k]) {
        assert p[k] in p;
        assert p[k] == t[k] && IsDigitOrDot(t[k]);
      }
    }
    if |p| == |t| then
      if t == [] then None else Some(Decimal(DigitsValue(t), 0))
    else
      var f := t[|p| + 1..];
      if '.' in f || (p == [] && f == []) then None
      else
        assert AllDigits(p + f) by {
          forall k | 0 <= k < |p + f| ensures IsDigit((p + f)[k]) {
            if k >= |p| {
              assert (p + f)[k] == f[k - |p|] && f[k - |p|] in f;
              assert f[k - |p|] == t[k + 1] && IsDigitOrDot(t[k + 1]);
            } else {
              assert (p + f)[k] == p[k];
            }
          }
        }
        Some(Decimal(DigitsValue(p + f), |f|))
  }

  function UnitMultiplier(unit: string): nat
  {
    if unit == "万" then 10000 else if unit == "千" then 1000 else 1
  }

  /** The read count of a card, given the text of its read-count element (if
      any). `None` stands for the `ValueError` that `float()` raises on a
      malformed number, which makes the crawler skip the whole card. The value
      is the exact product truncated toward zero. */
  function ReadCount(text: Option<string>): Option<nat>
  {
    if text.None? then Some(0)
    else
      var m := SearchRead(text.value, 0);
      if m.None? then Some(0)
      else
        var d := ParseDecimal(m.value.number);
        if d.None? then None
        else Some(Truncated(d.value, UnitMultiplier(m.value.unit)))
  }

  /** `int(x * unit)` for the exact decimal `x`: the product truncated toward zero. */
  function Truncated(x: Decimal, unit: nat): nat
  {
    var product: nat := x.mantissa * unit;
    var scale := Pow10(x.scale);
    QuotientIsNat(product, scale);
    product / scale
  }

  lemma QuotientIsNat(a: nat, b: nat)
    requires b >= 1
    ensures a / b >= 0
  {
  }

  /** A text with no `阅读` in it has read count 0. */
  lemma {:induction false} ReadCountWithoutMarker(t: string, i: nat)
    requires i <= |t| && !Contains(t, "阅读")
    ensures SearchRead(t, i).None?
    decreases |t| - i
  {
    if i < |t| {
      if IsDigitOrDot(t[i]) {
        var j := DecimalRunEnd(t, i);
        if OccursAt(t, "万阅读", j) || OccursAt(t, "千阅读", j) {
          assert t[j + 1..j + 3] == t[j..j + 3][1..];
          assert OccursAt(t, "阅读", j + 1);
        }
      }
      ReadCountWithoutMarker(t, i + 1);
    }
  }

  /** A text that starts with `<a>.<b><unit>阅读`, for digit strings `a` and `b`
      that are not both empty, reads as `int(a.b × unit)`: the exact decimal
      product truncated toward zero, not rounded. */
  lemma ReadCountOfDecimal(a: string, b: string, unit: string, rest: string)
    requires AllDigits(a) && AllDigits(b) && (a != [] || b != [])
    requires unit == "万" || unit == "千" || unit == ""
    ensures AllDigits(a + b)
    ensures ReadCount(Some(a + "." + b + unit + "阅读" + rest))
            == Some(DigitsValue(a + b) * UnitMultiplier(unit) / Pow10(|b|))
  {
    var n := a + "." + b;
    assert forall k :: 0 <= k < |n| ==> IsDigitOrDot(n[k]) by {
      forall k | 0 <= k < |n| ensures IsDigitOrDot(n[k]) {
        if k < |a| { assert n[k] == a[k]; } else if k > |a| { assert n[k] == b[k - |a| - 1]; }
      }
    }
    SearchReadAtStart(n, unit, rest);
    ParseDecimalFraction(a, b);
  }

  /** A text that starts with `<d><unit>阅读` for a digit string `d` reads as
      `d × unit`. */
  lemma ReadCountOfInteger(d: string, unit: string, rest: string)
    requires IsDigitString(d)
    requires unit == "万" || unit == "千" || unit == ""
    ensures ReadCount(Some(d + unit + "阅读" + rest)) == Some(DigitsValue(d) * UnitMultiplier(unit))
  {
    SearchReadAtStart(d, unit, rest);
    ParseDecimalInteger(d);
    TruncatedWhole(DigitsValue(d), UnitMultiplier(unit));
  }

  /** A whole number times the unit needs no truncation. */
  lemma TruncatedWhole(v: nat, unit: nat)
    ensures Truncated(Decimal(v, 0), unit) == v * unit
  {
    assert Pow10(0) == 1;
  }

  /** The search finds a number written at the very start of the text. */
  lemma SearchReadAtStart(n: string, unit: string, rest: string)
    requires n != [] && forall k :: 0 <= k < |n| ==> IsDigitOrDot(n[k])
    requires unit == "万" || unit == "千" || unit == ""
    ensures SearchRead(n + unit + "阅读" + rest, 0) == Some(ReadMatch(n, unit))
  {
    var u := unit + "阅读" + rest;
    var t := n + u;
    assert n + unit + "阅读" + rest == t;
    UnitThenMarker(unit, rest);
    assert t[|n|] == u[0];
    DecimalRunAt(t, 0, |n|);
    assert t[0..|n|] == n;
    OccursAfter(n, u, "万阅读");
    OccursAfter(n, u, "千阅读");
    OccursAfter(n, u, "阅读");
  }

  /** An occurrence right after `a` in `a + b` is one at the start of `b`. */
  lemma OccursAfter(a: string, b: string, p: string)
    ensures OccursAt(a + b, p, |a|) <==> OccursAt(b, p, 0)
  {
    if |p| <= |b| {
      assert (a + b)[|a|..|a| + |p|] == b[0..|p|];
    }
  }

  /** What follows the number: the unit and `阅读` select exactly one branch. */
  lemma UnitThenMarker(unit: string, rest: string)
    requires unit == "万" || unit == "千" || unit == ""
    ensures var u := unit + "阅读" + rest;
            && u != [] && !IsDigitOrDot(u[0])
            && (OccursAt(u, "万阅读", 0) <==> unit == "万")
            && (OccursAt(u, "千阅读", 0) <==> unit == "千")
            && (unit == "" ==> OccursAt(u, "阅读", 0))
  {
    var u := unit + "阅读" + rest;
    assert u[..|unit| + 2] == unit + "阅读";
    if unit != "" {
      assert u[0] == unit[0];
    } else {
      assert u[0] == '阅';
    }
  }

  lemma ParseDecimalInteger(d: string)
    requires IsDigitString(d)
    ensures forall k :: 0 <= k < |d| ==> IsDigitOrDot(d[k])
    ensures ParseDecimal(d) == Some(Decimal(DigitsValue(d), 0))
  {
    BeforeFirstDigits(d, []);
    assert d + [] == d;
  }

  lemma ParseDecimalFraction(a: string, b: string)
    requires AllDigits(a) && AllDigits(b) && (a != [] || b != [])
    ensures AllDigits(a + b)
    ensures forall k :: 0 <= k < |a + "." + b| ==> IsDigitOrDot((a + "." + b)[k])
    ensures ParseDecimal(a + "." + b) == Some(Decimal(DigitsValue(a + b), |b|))
  {
    var n := a + "." + b;
    assert forall k :: 0 <= k < |n| ==> IsDigitOrDot(n[k]) by {
      forall k | 0 <= k < |n| ensures IsDigitOrDot(n[k]) {
        if k < |a| { assert n[k] == a[k]; } else if k > |a| { assert n[k] == b[k - |a| - 1]; }
      }
    }
    assert n == a + ("." + b);
    BeforeFirstDigits(a, "." + b);
    assert n[|a| + 1..] == b;
    assert '.' !in b by { forall k | 0 <= k < |b| ensures b[k] != '.' { assert IsDigit(b[k]); } }
  }

  /** The run of digits and dots from `i` ends exactly at `j` when every
      character in between is a digit or a dot and the one at `j` is neither. */
  lemma {:induction false} DecimalRunAt(s: string, i: nat, j: nat)
    requires i <= j < |s|
    requires forall k :: i <= k < j ==> IsDigitOrDot(s[k])
    requires !IsDigitOrDot(s[j])
    ensures DecimalRunEnd(s, i) == j
    decreases j - i
  {
    if i < j { DecimalRunAt(s, i + 1, j); }
  }

  /** `(a + t).split('.')[0] == a` when `a` is all digits and `t` is empty or starts with a dot. */
  lemma {:induction false} BeforeFirstDigits(a: string, t: string)
    requires AllDigits(a) && (t == [] || t[0] == '.')
    ensures BeforeFirst(a + t, '.') == a
    decreases |a|
  {
    if a != [] {
      assert (a + t)[1..] == a[1..] + t;
      BeforeFirstDigits(a[1..], t);
    }
  }

  /** The example of the source's own comment: `5.9万阅读` is 59000. */
  lemma ReadCountOfTenThousands()
    ensures ReadCount(Some("5.9万阅读")) == Some(59000)
  {
    ReadCountOfDecimal("5", "9", "万", "");
    assert "5" + "." + "9" + "万" + "阅读" + "" == "5.9万阅读";
    assert "5" + "9" == "59";
    assert DigitsValue("59") == 59 by { assert "59"[..1] == "5"; }
    assert 59 * UnitMultiplier("万") / Pow10(|"9"|) == 59000;
  }

  /** `1.9阅读` is 1.9 and truncates to 1, where rounding would give 2. */
  lemma ReadCountTruncates()
    ensures ReadCount(Some("1.9阅读")) == Some(1)
  {
    ReadCountOfDecimal("1", "9", "", "");
    assert "1" + "." + "9" + "" + "阅读" + "" == "1.9阅读";
    assert "1" + "9" == "19";
    assert DigitsValue("19") == 19 by { assert "19"[..1] == "1"; }
    assert 19 * UnitMultiplier("") / Pow10(|"9"|) == 1;
  }

  /** `1.2.3阅读` makes `float()` raise, so the whole card is dropped. */
  lemma ReadCountMalformed()
    ensures ReadCount(Some("1.2.3阅读")) == None
  {
    SearchReadAtStart("1.2.3", "", "");
    assert "1.2.3" + "" + "阅读" + "" == "1.2.3阅读";
    assert BeforeFirst("1.2.3", '.') == "1";
    assert "1.2.3"[2..] == "2.3";
  }

  /** `([\d.]+)([万千]?)阅读` matches at `k` with the groups `n` and `unit`. */
  predicate ReadMatchAt(s: string, k: nat, n: string, unit: string)
  {
    && n != [] && (forall j :: 0 <= j < |n| ==> IsDigitOrDot(n[j]))
    && (unit == "万" || unit == "千" || unit == "")
    && OccursAt(s, n + unit + "阅读", k)
  }

  /** The search finds a read count whenever a match starts at or after `i`,
      and the groups it returns are those of a match no later than that one:
      it returns the leftmost match (`ReadMatchUniqueAt` pins its groups). */
  lemma {:induction false} ReadMatchFound(s: string, i: nat, k: nat, n: string, unit: string)
    requires i <= k && ReadMatchAt(s, k, n, unit)
    ensures i <= |s| && SearchRead(s, i).Some?
    ensures exists m :: i <= m <= k && ReadMatchAt(s, m, SearchRead(s, i).value.number, SearchRead(s, i).value.unit)
    decreases k - i
  {
    if i == k {
      ReadHere(s, k, n, unit);
    } else if IsDigitOrDot(s[i]) && ReadMarkerAt(s, DecimalRunEnd(s, i)) {
      ReadStartHere(s, i);
    } else {
      ReadMatchFound(s, i + 1, k, n, unit);
      assert SearchRead(s, i) == SearchRead(s, i + 1);
    }
  }

  /** Every result of the search is a real match at or after `i`. */
  lemma {:induction false} ReadSound(s: string, i: nat)
    requires i <= |s|
    ensures SearchRead(s, i).Some? ==>
              exists m :: i <= m && ReadMatchAt(s, m, SearchRead(s, i).value.number, SearchRead(s, i).value.unit)
    decreases |s| - i
  {
    if i < |s| {
      if IsDigitOrDot(s[i]) && ReadMarkerAt(s, DecimalRunEnd(s, i)) {
        ReadStartHere(s, i);
      } else {
        ReadSound(s, i + 1);
        assert SearchRead(s, i) == SearchRead(s, i + 1);
      }
    }
  }

  /** A text in which `([\d.]+)([万千]?)阅读` matches nowhere has read count 0,
      even when it contains `阅读`. */
  lemma NoReadMatchZero(s: string)
    requires forall m, n, u :: !ReadMatchAt(s, m, n, u)
    ensures ReadCount(Some(s)) == Some(0)
  {
    ReadSound(s, 0);
  }

  /** One of the three endings `SearchRead` tests for at the end of the run. */
  predicate ReadMarkerAt(s: string, j: nat)
  {
    OccursAt(s, "万阅读", j) || OccursAt(s, "千阅读", j) || OccursAt(s, "阅读", j)
  }

  lemma ReadStartHere(s: string, i: nat)
    requires i < |s| && IsDigitOrDot(s[i]) && ReadMarkerAt(s, DecimalRunEnd(s, i))
    ensures SearchRead(s, i).Some?
    ensures ReadMatchAt(s, i, SearchRead(s, i).value.number, SearchRead(s, i).value.unit)
  {
    var j := DecimalRunEnd(s, i);
    var n := s[i..j];
    if OccursAt(s, "万阅读", j) {
      assert SearchRead(s, i) == Some(ReadMatch(n, "万"));
      assert "万" + "阅读" == "万阅读";
      ReadMatchOfRun(s, i, j, "万");
    } else if OccursAt(s, "千阅读", j) {
      assert SearchRead(s, i) == Some(ReadMatch(n, "千"));
      assert "千" + "阅读" == "千阅读";
      ReadMatchOfRun(s, i, j, "千");
    } else {
      assert SearchRead(s, i) == Some(ReadMatch(n, ""));
      assert "" + "阅读" == "阅读";
      ReadMatchOfRun(s, i, j, "");
    }
  }

  /** A maximal run of digits and dots from `i` to `j`, followed by a unit and `阅读`, is a match. */
  lemma ReadMatchOfRun(s: string, i: nat, j: nat, unit: string)
    requires i < j <= |s| && forall k :: i <= k < j ==> IsDigitOrDot(s[k])
    requires unit == "万" || unit == "千" || unit == ""
    requires OccursAt(s, unit + "阅读", j)
    ensures ReadMatchAt(s, i, s[i..j], unit)
  {
    var n := s[i..j];
    var u := unit + "阅读";
    assert s[i..j + |u|] == n + u;
    assert n + unit + "阅读" == n + u;
  }

  /** A match at `k` is the one `SearchRead` returns from `k`. */
  lemma ReadHere(s: string, k: nat, n: string, unit: string)
    requires ReadMatchAt(s, k, n, unit)
    ensures k < |s| && SearchRead(s, k) == Some(ReadMatch(n, unit))
  {
    ReadRunOfMatch(s, k, n, unit);
    var j := k + |n|;
    if unit == "万" {
      assert "万" + "阅读" == "万阅读";
    } else if unit == "千" {
      assert "千" + "阅读" == "千阅读";
      assert s[j] == s[j..j + 3][0] == '千';
      assert !OccursAt(s, "万阅读", j) by { assert j + 3 <= |s| ==> s[j..j + 3][0] == s[j]; }
    } else {
      assert "" + "阅读" == "阅读";
      assert s[j] == s[j..j + 2][0] == '阅';
      assert !OccursAt(s, "万阅读", j) && !OccursAt(s, "千阅读", j) by {
        assert j + 3 <= |s| ==> s[j..j + 3][0] == s[j];
      }
    }
  }

  /** The number of a match at `k` is the maximal run of digits and dots there. */
  lemma ReadRunOfMatch(s: string, k: nat, n: string, unit: string)
    requires ReadMatchAt(s, k, n, unit)
    ensures k < |s| && IsDigitOrDot(s[k])
    ensures DecimalRunEnd(s, k) == k + |n| && s[k..k + |n|] == n
    ensures OccursAt(s, unit + "阅读", k + |n|)
  {
    var u := unit + "阅读";
    assert n + unit + "阅读" == n + u;
    OccursSplit(s, k, n, u);
    var j := k + |n|;
    forall m | k <= m < j ensures IsDigitOrDot(s[m]) {
      assert s[m] == s[k..j][m - k];
    }
    assert s[j] == s[j..j + |u|][0];
    assert u[0] == if unit == "" then '阅' else unit[0];
    DecimalRunAt(s, k, j);
  }

  /** An occurrence of `a + b` is one of `a` followed by one of `b`. */
  lemma OccursSplit(s: string, k: nat, a: string, b: string)
    requires OccursAt(s, a + b, k)
    ensures OccursAt(s, a, k) && OccursAt(s, b, k + |a|)
  {
    assert s[k..k + |a|] == s[k..k + |a + b|][..|a|];
    assert s[k + |a|..k + |a| + |b|] == s[k..k + |a + b|][|a|..];
  }

  /** At one position at most one pair of groups matches. */
  lemma ReadMatchUniqueAt(s: string, k: nat, n1: string, u1: string, n2: string, u2: string)
    requires ReadMatchAt(s, k, n1, u1) && ReadMatchAt(s, k, n2, u2)
    ensures n1 == n2 && u1 == u2
  {
    ReadHere(s, k, n1, u1);
    ReadHere(s, k, n2, u2);
  }

  /** The read count of any text is that of its leftmost match: the number
      parsed and multiplied by the unit, or `None` when `float()` fails. */
  lemma ReadCountOfLeftmost(s: string, k: nat, n: string, unit: string)
    requires ReadMatchAt(s, k, n, unit)
    requires forall m, n', u' :: 0 <= m < k ==> !ReadMatchAt(s, m, n', u')
    ensures ReadCount(Some(s)) == match ParseDecimal(n)
                                  case None => None
                                  case Some(d) => Some(Truncated(d, UnitMultiplier(unit)))
  {
    ReadMatchFound(s, 0, k, n, unit);
    var r := SearchRead(s, 0).value;
    var m :| 0 <= m <= k && ReadMatchAt(s, m, r.number, r.unit);
    ReadMatchUniqueAt(s, k, r.number, r.unit, n, unit);
  }

  // ------------------------------------------------------------------
  // Comment counts: re.search(r'(\d+)评论', text)   (crawler_selenium.py:242-248)
  // ------------------------------------------------------------------

  /** The end of the maximal run of digits that starts at `i`. */
  function DigitRunEnd(s: string, i: nat): (j: nat)
    requires i <= |s|
    ensures i <= j <= |s|
    ensures AllDigits(s[i..j])
    ensures j == |s| || !IsDigit(s[j])
    decreases |s| - i
  {
    if i < |s| && IsDigit(s[i]) then
      var j := DigitRunEnd(s, i + 1);
      assert s[i..j] == [s[i]] + s[i + 1..j];
      j
    else i
  }

  /** The group of the leftmost match of `(\d+)评论` at or after `i`. */
  function SearchComment(s: string, i: nat): (r: Option<string>)
    requires i <= |s|
    ensures r.Some? ==> IsDigitString(r.value)
    decreases |s| - i
  {
    if i == |s| then None
    else if IsDigit(s[i]) && OccursAt(s, "评论", DigitRunEnd(s, i)) then Some(s[i..DigitRunEnd(s, i)])
    else SearchComment(s, i + 1)
  }

  /** The comment count of a card, given the text of its `#comment` link (if any). */
  function CommentCount(text: Option<string>): nat
  {
    match text
    case None => 0
    case Some(t) =>
      match SearchComment(t, 0)
      case None => 0
      case Some(d) => DigitsValue(d)
  }

  /** `<d>评论…` gives `int(d)`; a text without `评论` gives 0. */
  lemma CommentCountSpec(d: string, rest: string, other: string)
    requires IsDigitString(d)
    requires !Contains(other, "评论")
    ensures CommentCount(Some(d + "评论" + rest)) == DigitsValue(d)
    ensures CommentCount(Some(other)) == 0
  {
    var t := d + "评论" + rest;
    assert t[|d|] == '评';
    assert DigitRunEnd(t, 0) == |d| by { DigitRunAt(t, 0, |d|); }
    assert t[|d|..|d| + 2] == "评论";
    assert t[0..|d|] == d;
    CommentWithoutMarker(other, 0);
  }

  lemma {:induction false} DigitRunAt(s: string, i: nat, j: nat)
    requires i <= j < |s|
    requires forall k :: i <= k < j ==> IsDigit(s[k])
    requires !IsDigit(s[j])
    ensures DigitRunEnd(s, i) == j
    decreases j - i
  {
    if i < j { DigitRunAt(s, i + 1, j); }
  }

  lemma {:induction false} CommentWithoutMarker(t: string, i: nat)
    requires i <= |t| && !Contains(t, "评论")
    ensures SearchComment(t, i).None?
    decreases |t| - i
  {
    if i < |t| { CommentWithoutMarker(t, i + 1); }
  }

  /** `(\d+)评论` matches at `k` with the group `d`. */
  predicate CommentMatchAt(s: string, k: nat, d: string)
  {
    IsDigitString(d) && OccursAt(s, d + "评论", k)
  }

  /** The search finds a comment count whenever a match starts at or after
      `i`, and the group it returns is that of a match no later than that one:
      it returns the leftmost match (`CommentMatchUniqueAt` pins the group). */
  lemma {:induction false} CommentMatchFound(s: string, i: nat, k: nat, d: string)
    requires i <= k && CommentMatchAt(s, k, d)
    ensures i <= |s| && SearchComment(s, i).Some?
    ensures exists m :: i <= m <= k && CommentMatchAt(s, m, SearchComment(s, i).value)
    decreases k - i
  {
    if i == k {
      CommentHere(s, k, d);
    } else if IsDigit(s[i]) && OccursAt(s, "评论", DigitRunEnd(s, i)) {
      var j := DigitRunEnd(s, i);
      assert s[i..j + 2] == s[i..j] + "评论";
      assert CommentMatchAt(s, i, s[i..j]);
    } else {
      CommentMatchFound(s, i + 1, k, d);
    }
  }

  /** Every result of the search is a real match at or after `i`. */
  lemma {:induction false} CommentSound(s: string, i: nat)
    requires i <= |s|
    ensures SearchComment(s, i).Some? ==> exists m :: i <= m && CommentMatchAt(s, m, SearchComment(s, i).value)
    decreases |s| - i
  {
    if i < |s| {
      if IsDigit(s[i]) && OccursAt(s, "评论", DigitRunEnd(s, i)) {
        var j := DigitRunEnd(s, i);
        assert s[i..j + 2] == s[i..j] + "评论";
        assert CommentMatchAt(s, i, s[i..j]);
      } else {
        CommentSound(s, i + 1);
      }
    }
  }

  /** A text in which `(\d+)评论` matches nowhere has comment count 0, even
      when it contains `评论`. */
  lemma NoCommentMatchZero(s: string)
    requires forall m, d :: !CommentMatchAt(s, m, d)
    ensures CommentCount(Some(s)) == 0
  {
    CommentSound(s, 0);
  }

  /** A match at `k` is the one `SearchComment` returns from `k`. */
  lemma CommentHere(s: string, k: nat, d: string)
    requires CommentMatchAt(s, k, d)
    ensures k < |s| && SearchComment(s, k) == Some(d)
  {
    var w := d + "评论";
    assert s[k..k + |w|] == w;
    var j := k + |d|;
    forall m | k <= m < j ensures IsDigit(s[m]) {
      assert s[m] == w[m - k] == d[m - k];
    }
    assert s[j] == w[|d|] == '评';
    DigitRunAt(s, k, j);
    assert s[k..j] == w[..|d|] == d;
    assert s[j..j + 2] == w[|d|..] == "评论";
  }

  /** At one position at most one group matches. */
  lemma CommentMatchUniqueAt(s: string, k: nat, d1: string, d2: string)
    requires CommentMatchAt(s, k, d1) && CommentMatchAt(s, k, d2)
    ensures d1 == d2
  {
    CommentHere(s, k, d1);
    CommentHere(s, k, d2);
  }

  /** The comment count of any text is the value of its leftmost match. */
  lemma CommentCountOfLeftmost(s: string, k: nat, d: string)
    requires CommentMatchAt(s, k, d)
    requires forall m, e :: 0 <= m < k ==> !CommentMatchAt(s, m, e)
    ensures CommentCount(Some(s)) == DigitsValue(d)
  {
    CommentMatchFound(s, 0, k, d);
    var r := SearchComment(s, 0).value;
    var m :| 0 <= m <= k && CommentMatchAt(s, m, r);
    CommentMatchUniqueAt(s, k, r, d);
  }

  // ------------------------------------------------------------------
  // Titles (crawler_selenium.py:205-216, 325-334)
  // ------------------------------------------------------------------

  /** The title chain: the stripped `title` attribute, else the stripped
      `aria-label`, else the link text (already stripped by `get_text(strip=True)`). */
  function ChooseTitle(titleAttr: string, ariaLabel: string, linkText: string): (r: string)
    ensures Strip(titleAttr) != [] ==> r == Strip(titleAttr)
    ensures Strip(titleAttr) == [] && Strip(ariaLabel) != [] ==> r == Strip(ariaLabel)
    ensures Strip(titleAttr) == [] && Strip(ariaLabel) == [] ==> r == linkText
  {
    var t := Strip(titleAttr);
    if t != [] then t
    else
      var a := Strip(ariaLabel);
      if a != [] then a else linkText
  }

  /** The card strategy keeps a title that is non-empty and at least 5 characters long. */
  predicate TitleAccepted(title: string) { title != [] && |title| >= 5 }

  /** The placeholder titles the link-scan strategy rejects. */
  const Placeholders: seq<string> := ["更多", "查看更多", "详情"]

  /** The link-scan strategy also rejects the placeholder titles. */
  predicate FallbackTitleAccepted(title: string)
  {
    TitleAccepted(title) && title !in Placeholders
  }

  /** Every placeholder is shorter than 5 characters, so the placeholder test
      never rejects a title the length test has not already rejected. */
  lemma PlaceholderFilterIsSubsumed(title: string)
    ensures FallbackTitleAccepted(title) <==> TitleAccepted(title)
  {
  }

  // ------------------------------------------------------------------
  // The list-card time filter (crawler_selenium.py:252-257)
  // ------------------------------------------------------------------

  /** The card strategy keeps the footer time text when it contains one of
      `前`, `年`, `小时`, `分钟` or `天前`. This is a substring test, not the
      validator of `_is_valid_time_format`. */
  predicate ListTimeAccepted(t: string)
  {
    t != [] && ('前' in t || '年' in t || Contains(t, "小时") || Contains(t, "分钟") || Contains(t, "天前"))
  }

  // ------------------------------------------------------------------
  // _is_valid_time_format   (crawler_selenium.py:591-620)
  // ------------------------------------------------------------------

  /** One element of the validator's regular expressions: `\d{min,max}` or a literal. */
  datatype Piece = Digits(min: nat, max: nat) | Lit(text: string)

  /** The pieces `p[k..]` match `s` starting at `i` (along some path, which is
      what a backtracking `re.search` finds whenever one exists). */
  predicate MatchesAt(s: string, i: nat, p: seq<Piece>, k: nat)
    requires k <= |p|
    decreases |p| - k
  {
    if k == |p| then i <= |s|
    else match p[k]
      case Lit(t) => OccursAt(s, t, i) && MatchesAt(s, i + |t|, p, k + 1)
      case Digits(lo, hi) =>
        exists e: nat :: i + lo <= e <= i + hi && e <= |s| && AllDigits(s[i..e]) && MatchesAt(s, e, p, k + 1)
  }

  /** Unanchored `re.search(pattern, s)`: the pattern matches somewhere in `s`. */
  predicate Search(s: string, p: seq<Piece>)
  {
    exists i: nat :: i <= |s| && MatchesAt(s, i, p, 0)
  }

  /** A one-character separator followed by exactly two digits, then the rest of the pattern. */
  lemma SeparatorThenTwoDigits(s: string, i: nat, p: seq<Piece>, k: nat)
    requires i + 3 <= |s| && k + 2 <= |p| && p[k] == Lit([s[i]]) && p[k + 1] == Digits(2, 2)
    requires AllDigits(s[i + 1..i + 3]) && MatchesAt(s, i + 3, p, k + 2)
    ensures MatchesAt(s, i, p, k)
  {
    assert MatchesAt(s, i + 1, p, k + 1);
    assert s[i..i + 1] == [s[i]];
  }

  const IsoPattern: seq<Piece> :=
    [Digits(4, 4), Lit("-"), Digits(2, 2), Lit("-"), Digits(2, 2), Lit("T"),
     Digits(2, 2), Lit(":"), Digits(2, 2), Lit(":"), Digits(2, 2)]
  const StandardPattern: seq<Piece> :=
    [Digits(4, 4), Lit("-"), Digits(2, 2), Lit("-"), Digits(2, 2), Lit(" "),
     Digits(2, 2), Lit(":"), Digits(2, 2), Lit(":"), Digits(2, 2)]
  const ChineseDatePattern: seq<Piece> :=
    [Digits(4, 4), Lit("年"), Digits(1, 2), Lit("月"), Digits(1, 2), Lit("日")]
  const HoursAgoPattern: seq<Piece> := [Digits(1, 2), Lit("小时前")]
  const MinutesAgoPattern: seq<Piece> := [Digits(1, 2), Lit("分钟前")]
  const DaysAgoPattern: seq<Piece> := [Digits(1, 2), Lit("天前")]
  const DayBeforeYesterdayPattern: seq<Piece> := [Lit("前天"), Digits(2, 2), Lit(":"), Digits(2, 2)]
  const YesterdayPattern: seq<Piece> := [Lit("昨天"), Digits(2, 2), Lit(":"), Digits(2, 2)]

  /** The eight patterns, in the source's order. */
  const TimePatterns: seq<seq<Piece>> :=
    [IsoPattern, StandardPattern, ChineseDatePattern, HoursAgoPattern,
     MinutesAgoPattern, DaysAgoPattern, DayBeforeYesterdayPattern, YesterdayPattern]

  /** `_is_valid_time_format`: false for anything shorter than 8 characters,
      otherwise true exactly when one of the eight patterns occurs anywhere. */
  predicate IsValidTimeFormat(s: string)
  {
    |s| >= 8 && exists k :: 0 <= k < |TimePatterns| && Search(s, TimePatterns[k])
  }

  /** `\d{1,2}X` occurs in `s` exactly when some digit is immediately followed by `X`:
      the optional second digit never changes what `re.search` accepts. */
  lemma OneOrTwoDigitsThen(s: string, x: string)
    ensures Search(s, [Digits(1, 2), Lit(x)]) <==> exists i :: 0 <= i < |s| && IsDigit(s[i]) && OccursAt(s, x, i + 1)
  {
    var p := [Digits(1, 2), Lit(x)];
    if Search(s, p) {
      var i: nat :| i <= |s| && MatchesAt(s, i, p, 0);
      DigitThenFound(s, x, i);
    }
    if exists i :: 0 <= i < |s| && IsDigit(s[i]) && OccursAt(s, x, i + 1) {
      var i :| 0 <= i < |s| && IsDigit(s[i]) && OccursAt(s, x, i + 1);
      DigitThenMatches(s, x, i);
    }
  }

  lemma DigitThenFound(s: string, x: string, i: nat)
    requires MatchesAt(s, i, [Digits(1, 2), Lit(x)], 0)
    ensures exists j :: 0 <= j < |s| && IsDigit(s[j]) && OccursAt(s, x, j + 1)
  {
    var p := [Digits(1, 2), Lit(x)];
    var e: nat :| i + 1 <= e <= i + 2 && e <= |s| && AllDigits(s[i..e]) && MatchesAt(s, e, p, 1);
    assert IsDigit(s[i..e][e - 1 - i]);
    assert OccursAt(s, x, e);
  }

  lemma DigitThenMatches(s: string, x: string, i: nat)
    requires i < |s| && IsDigit(s[i]) && OccursAt(s, x, i + 1)
    ensures MatchesAt(s, i, [Digits(1, 2), Lit(x)], 0)
  {
    var p := [Digits(1, 2), Lit(x)];
    assert MatchesAt(s, i + 1 + |x|, p, 2);
    LitStep(s, i + 1, p, 1);
    assert AllDigits(s[i..i + 1]);
    DigitsStep(s, i, i + 1, p, 0);
  }

  /** The length guard comes first: `9小时前` (4 characters) and `昨天16:35`
      (7 characters) are rejected although a pattern occurs in each, and the
      card filter keeps `9小时前`. */
  lemma ValidatorQuirks()
    ensures !IsValidTimeFormat("9小时前") && ListTimeAccepted("9小时前")
    ensures Search("9小时前", HoursAgoPattern)
    ensures !IsValidTimeFormat("昨天16:35")
    ensures Search("昨天16:35", YesterdayPattern)
  {
    assert '前' in "9小时前";
    HoursAgoOccurs();
    YesterdayOccurs();
  }

  lemma HoursAgoOccurs()
    ensures Search("9小时前", HoursAgoPattern)
  {
    var h := "9小时前";
    assert OccursAt(h, "小时前", 1) by { assert h[1..4] == "小时前"; }
    DigitThenMatches(h, "小时前", 0);
    assert MatchesAt(h, 0, HoursAgoPattern, 0);
  }

  lemma YesterdayOccurs()
    ensures Search("昨天16:35", YesterdayPattern)
  {
    var y := "昨天16:35";
    var p := YesterdayPattern;
    assert MatchesAt(y, 7, p, 4);
    assert AllDigits(y[5..7]) by { assert y[5..7] == "35"; }
    DigitsStep(y, 5, 7, p, 3);
    assert OccursAt(y, ":", 4) by { assert y[4..5] == ":"; }
    LitStep(y, 4, p, 2);
    assert AllDigits(y[2..4]) by { assert y[2..4] == "16"; }
    DigitsStep(y, 2, 4, p, 1);
    assert OccursAt(y, "昨天", 0) by { assert y[0..2] == "昨天"; }
    LitStep(y, 0, p, 0);
  }

  /** A piece-by-piece step of `MatchesAt` for a literal. */
  lemma LitStep(s: string, i: nat, p: seq<Piece>, k: nat)
    requires k < |p| && p[k].Lit? && OccursAt(s, p[k].text, i) && MatchesAt(s, i + |p[k].text|, p, k + 1)
    ensures MatchesAt(s, i, p, k)
  {
  }

  /** A piece-by-piece step of `MatchesAt` for a run of digits ending at `e`. */
  lemma DigitsStep(s: string, i: nat, e: nat, p: seq<Piece>, k: nat)
    requires k < |p| && p[k].Digits? && i + p[k].min <= e <= i + p[k].max && e <= |s|
    requires AllDigits(s[i..e]) && MatchesAt(s, e, p, k + 1)
    ensures MatchesAt(s, i, p, k)
  {
  }

  /** `\d{4}年\d{1,2}月\d{1,2}日` matches at `i` when the year's four digits
      are followed by `年`, one or two digits and `月` at `j`, one or two
      digits and `日` at `k`. */
  lemma ChineseDateAt(s: string, i: nat, j: nat, k: nat)
    requires i + 4 < |s| && AllDigits(s[i..i + 4]) && s[i + 4] == '年'
    requires i + 6 <= j <= i + 7 && j < |s| && AllDigits(s[i + 5..j]) && s[j] == '月'
    requires j + 2 <= k <= j + 3 && k < |s| && AllDigits(s[j + 1..k]) && s[k] == '日'
    ensures MatchesAt(s, i, ChineseDatePattern, 0)
  {
    MonthDayAt(s, j, k);
    YearMonthAt(s, i, j);
  }

  /** The `\d{4}年\d{1,2}` start of the date pattern, up to the `月` at `j`. */
  lemma YearMonthAt(s: string, i: nat, j: nat)
    requires i + 4 < |s| && AllDigits(s[i..i + 4]) && s[i + 4] == '年'
    requires i + 6 <= j <= i + 7 && j <= |s| && AllDigits(s[i + 5..j])
    requires MatchesAt(s, j, ChineseDatePattern, 3)
    ensures MatchesAt(s, i, ChineseDatePattern, 0)
  {
    var p := ChineseDatePattern;
    assert p[2] == Digits(1, 2);
    DigitsStep(s, i + 5, j, p, 2);
    YearAt(s, i);
  }

  /** The `\d{4}年` start of the date pattern. */
  lemma YearAt(s: string, i: nat)
    requires i + 4 < |s| && AllDigits(s[i..i + 4]) && s[i + 4] == '年'
    requires MatchesAt(s, i + 5, ChineseDatePattern, 2)
    ensures MatchesAt(s, i, ChineseDatePattern, 0)
  {
    var p := ChineseDatePattern;
    assert p[1] == Lit("年") && p[0] == Digits(4, 4);
    assert s[i + 4..i + 5] == "年";
    LitStep(s, i + 4, p, 1);
    DigitsStep(s, i, i + 4, p, 0);
  }

  /** The `月\d{1,2}日` end of the date pattern, and the day digits before it. */
  lemma MonthDayAt(s: string, j: nat, k: nat)
    requires j + 2 <= k <= j + 3 && k < |s| && AllDigits(s[j + 1..k]) && s[k] == '日' && s[j] == '月'
    ensures MatchesAt(s, j, ChineseDatePattern, 3)
  {
    var p := ChineseDatePattern;
    assert s[k..k + 1] == "日" && s[j..j + 1] == "月";
    assert MatchesAt(s, k + 1, p, 6);
    LitStep(s, k, p, 5);
    DigitsStep(s, j + 1, k, p, 4);
    LitStep(s, j, p, 3);
  }

  /** Because the search is unanchored, a date inside other text is accepted. */
  lemma EmbeddedDateAccepted()
    ensures IsValidTimeFormat("于2025年7月9日发布")
  {
    var s := "于2025年7月9日发布";
    assert AllDigits(s[1..5]) && AllDigits(s[6..7]) && AllDigits(s[8..9]);
    ChineseDateAt(s, 1, 7, 9);
    assert Search(s, TimePatterns[2]);
  }

  // ------------------------------------------------------------------
  // _format_publish_time   (crawler_selenium.py:557-589)
  // ------------------------------------------------------------------

  datatype DateTime = DateTime(year: nat, month: nat, day: nat, hour: nat, minute: nat, second: nat)

  predicate IsLeapYear(y: nat) { y % 4 == 0 && (y % 100 != 0 || y % 400 == 0) }

  function DaysInMonth(y: nat, m: nat): nat
    requires 1 <= m <= 12
  {
    if m == 2 then (if IsLeapYear(y) then 29 else 28)
    else if m == 4 || m == 6 || m == 9 || m == 11 then 30
    else 31
  }

  predicate ValidDate(y: nat, m: nat, d: nat)
  {
    1 <= y <= 9999 && 1 <= m <= 12 && 1 <= d <= DaysInMonth(y, m)
  }

  /** The range checks of Python's `datetime` constructor. */
  predicate ValidDateTime(dt: DateTime)
  {
    ValidDate(dt.year, dt.month, dt.day) && dt.hour < 24 && dt.minute < 60 && dt.second < 60
  }

  /** The value of the `w` digits at `i`, if they are all digits. */
  function FieldAt(s: string, i: nat, w: nat): (r: Option<nat>)
  {
    if i + w <= |s| && AllDigits(s[i..i + w]) then Some(DigitsValue(s[i..i + w])) else None
  }

  /** The time part of `datetime.fromisoformat` (Python 3.7-3.10 grammar):
      `HH`, `HH:MM`, `HH:MM:SS`, `HH:MM:SS.fff` or `HH:MM:SS.ffffff`. The
      fraction is parsed and then dropped, as `strftime` drops it. */
  function ParseIsoClock(t: string): Option<(nat, nat, nat)>
  {
    var h := FieldAt(t, 0, 2);
    if h.None? then None
    else if |t| == 2 then Some((h.value, 0, 0))
    else if t[2] != ':' then None
    else
      var mi := FieldAt(t, 3, 2);
      if mi.None? then None
      else if |t| == 5 then Some((h.value, mi.value, 0))
      else if t[5] != ':' then None
      else
        var se := FieldAt(t, 6, 2);
        if se.None? then None
        else if |t| == 8 then Some((h.value, mi.value, se.value))
        else if t[8] == '.' && (|t| == 12 || |t| == 15) && AllDigits(t[9..]) then Some((h.value, mi.value, se.value))
        else None
  }

  /** `datetime.fromisoformat(c)` on a string without a UTC offset: `YYYY-MM-DD`,
      optionally followed by any one separator character and a time. `None`
      is the `ValueError` it raises on anything else or on an out-of-range field. */
  function FromIsoFormat(c: string): (r: Option<DateTime>)
    ensures r.Some? ==> ValidDateTime(r.value)
  {
    if |c| < 10 || c[4] != '-' || c[7] != '-' then None
    else
      var y := FieldAt(c, 0, 4);
      var mo := FieldAt(c, 5, 2);
      var d := FieldAt(c, 8, 2);
      var clock := if |c| == 10 then Some((0, 0, 0)) else ParseIsoClock(c[11..]);
      if y.None? || mo.None? || d.None? || clock.None? then None
      else
        var dt := DateTime(y.value, mo.value, d.value, clock.value.0, clock.value.1, clock.value.2);
        if ValidDateTime(dt) then Some(dt) else None
  }

  /** Two digits with a leading zero, as `%m`, `%d`, `%H`, `%M` and `%S` write them. */
  function Pad2(n: nat): (r: string)
    requires n < 100
    ensures |r| == 2 && IsDigitString(r)
  {
    [DigitChar(n / 10), DigitChar(n % 10)]
  }

  /** The characters `strftime('%Y-%m-%d %H:%M:%S')` can write. */
  predicate IsCanonicalChar(c: char) { IsDigit(c) || c == '-' || c == ' ' || c == ':' }

  /** `dt.strftime('%Y-%m-%d %H:%M:%S')`; with glibc, `%Y` writes the year without padding. */
  function RenderDateTime(dt: DateTime): (r: string)
    requires ValidDateTime(dt)
    ensures forall k :: 0 <= k < |r| ==> IsCanonicalChar(r[k])
  {
    var y := NatToString(dt.year);
    var tail := "-" + Pad2(dt.month) + "-" + Pad2(dt.day) + " " + Pad2(dt.hour) + ":" + Pad2(dt.minute) + ":" + Pad2(dt.second);
    assert forall k :: 0 <= k < |tail| ==> IsCanonicalChar(tail[k]);
    y + tail
  }

  /** `_format_publish_time`: a string containing `T` and either `+` or `Z` is
      cut at its first `+`, then at its first `Z`, parsed by `fromisoformat`
      and written back as `YYYY-MM-DD HH:MM:SS`; every other string, and every
      string whose parse fails, comes back unchanged (the Chinese-date and
      relative-time branches of the source also return their input). */
  function FormatPublishTime(s: string): (r: string)
    ensures r == s || forall k :: 0 <= k < |r| ==> IsCanonicalChar(r[k])
    ensures !('T' in s && ('+' in s || 'Z' in s)) ==> r == s
    ensures FromIsoFormat(BeforeFirst(BeforeFirst(s, '+'), 'Z')).None? ==> r == s
  {
    if 'T' in s && ('+' in s || 'Z' in s) then
      var clean := BeforeFirst(BeforeFirst(s, '+'), 'Z');
      var dt := FromIsoFormat(clean);
      if dt.Some? then RenderDateTime(dt.value) else s
    else s
  }

  /** Formatting twice is formatting once: a rewritten time has no `T` left. */
  lemma FormatPublishTimeIdempotent(s: string)
    ensures FormatPublishTime(FormatPublishTime(s)) == FormatPublishTime(s)
  {
    var r := FormatPublishTime(s);
    if r != s {
      assert 'T' !in r by {
        forall k | 0 <= k < |r| ensures r[k] != 'T' { assert IsCanonicalChar(r[k]); }
      }
    }
  }

  /** `YYYY-MM-DD` text of a valid date whose year has four significant digits. */
  predicate IsDateText(d: string)
  {
    && |d| == 10 && d[4] == '-' && d[7] == '-'
    && IsDigitString(d[0..4]) && IsDigitString(d[5..7]) && IsDigitString(d[8..10]) && d[0] != '0'
    && ValidDate(DigitsValue(d[0..4]), DigitsValue(d[5..7]), DigitsValue(d[8..10]))
  }

  /** `HH:MM:SS` text of a valid time of day. */
  predicate IsClockText(t: string)
  {
    && |t| == 8 && t[2] == ':' && t[5] == ':'
    && IsDigitString(t[0..2]) && IsDigitString(t[3..5]) && IsDigitString(t[6..8])
    && DigitsValue(t[0..2]) < 24 && DigitsValue(t[3..5]) < 60 && DigitsValue(t[6..8]) < 60
  }

  /** `BeforeFirst` skips over a prefix that does not contain the separator. */
  lemma {:induction false} BeforeFirstAppend(x: string, y: string, c: char)
    requires c !in x
    ensures BeforeFirst(x + y, c) == x + BeforeFirst(y, c)
    decreases |x|
  {
    if x != [] {
      assert x[0] in x;
      assert c !in x[1..] by { forall k | 0 <= k < |x| - 1 ensures x[1..][k] != c { assert x[1..][k] in x; } }
      assert (x + y)[0] == x[0] && (x + y)[1..] == x[1..] + y;
      BeforeFirstAppend(x[1..], y, c);
      assert x == [x[0]] + x[1..];
    } else {
      assert x + y == y;
    }
  }

  /** Writing two digits back gives the text they came from. */
  lemma Pad2RoundTrip(t: string)
    requires |t| == 2 && IsDigitString(t)
    ensures DigitsValue(t) < 100 && Pad2(DigitsValue(t)) == t
  {
    assert t[..1] == [t[0]] && t[..1][..0] == [];
    assert DigitsValue(t[..1]) == DigitValue(t[0]);
    var v := DigitsValue(t);
    assert v == DigitValue(t[0]) * 10 + DigitValue(t[1]);
    assert v / 10 == DigitValue(t[0]) && v % 10 == DigitValue(t[1]);
    assert DigitChar(DigitValue(t[0])) == t[0] && DigitChar(DigitValue(t[1])) == t[1];
  }

  /** The date and clock text parse to a valid `DateTime` that renders back to
      the same text with the `T` replaced by a space. */
  lemma IsoRoundTrip(d: string, t: string)
    requires IsDateText(d) && IsClockText(t)
    ensures var dt := FromIsoFormat(d + "T" + t);
            dt.Some? && RenderDateTime(dt.value) == d + " " + t
  {
    IsoParses(d, t);
    RenderFields(d, t);
  }

  /** The fields of `d` and `t` as numbers. */
  function FieldsOf(d: string, t: string): DateTime
    requires IsDateText(d) && IsClockText(t)
  {
    DateTime(DigitsValue(d[0..4]), DigitsValue(d[5..7]), DigitsValue(d[8..10]),
             DigitsValue(t[0..2]), DigitsValue(t[3..5]), DigitsValue(t[6..8]))
  }

  lemma IsoParses(d: string, t: string)
    requires IsDateText(d) && IsClockText(t)
    ensures FromIsoFormat(d + "T" + t) == Some(FieldsOf(d, t))
  {
    var c := d + "T" + t;
    assert c[0..4] == d[0..4] && c[5..7] == d[5..7] && c[8..10] == d[8..10];
    assert c[4] == '-' && c[7] == '-';
    assert c[11..] == t;
    ClockParses(t);
  }

  lemma ClockParses(t: string)
    requires IsClockText(t)
    ensures ParseIsoClock(t) == Some((DigitsValue(t[0..2]), DigitsValue(t[3..5]), DigitsValue(t[6..8])))
  {
    assert t[0..2] == t[0..0 + 2] && t[3..5] == t[3..3 + 2] && t[6..8] == t[6..6 + 2];
  }

  lemma RenderFields(d: string, t: string)
    requires IsDateText(d) && IsClockText(t)
    ensures ValidDateTime(FieldsOf(d, t)) && RenderDateTime(FieldsOf(d, t)) == d + " " + t
  {
    DigitsRoundTrip(d[0..4]);
    Pad2RoundTrip(d[5..7]);
    Pad2RoundTrip(d[8..10]);
    Pad2RoundTrip(t[0..2]);
    Pad2RoundTrip(t[3..5]);
    Pad2RoundTrip(t[6..8]);
    assert d == d[0..4] + "-" + d[5..7] + "-" + d[8..10];
    assert t == t[0..2] + ":" + t[3..5] + ":" + t[6..8];
  }

  /** An ISO 8601 extended date-time with an offset (`+hh:mm`) or a `Z`, such as
      `2025-07-09T11:39:17+08:00`, is rewritten as `2025-07-09 11:39:17`: the
      offset is dropped, not applied. */
  lemma FormatIsoWithOffset(d: string, t: string, zone: char, rest: string)
    requires IsDateText(d) && IsClockText(t)
    requires zone == '+' || zone == 'Z'
    ensures FormatPublishTime(d + "T" + t + [zone] + rest) == d + " " + t
  {
    var head := d + "T" + t;
    var s := head + [zone] + rest;
    assert forall k :: 0 <= k < |head| ==> head[k] != '+' && head[k] != 'Z' by {
      forall k | 0 <= k < |head| ensures head[k] != '+' && head[k] != 'Z' {
        if k < 10 {
          assert head[k] == d[k];
          if k < 4 { assert d[k] == d[0..4][k]; assert IsDigit(d[0..4][k]); }
          else if 4 < k < 7 { assert d[k] == d[5..7][k - 5]; assert IsDigit(d[5..7][k - 5]); }
          else if 7 < k { assert d[k] == d[8..10][k - 8]; assert IsDigit(d[8..10][k - 8]); }
        } else if k > 10 {
          assert head[k] == t[k - 11];
          var j := k - 11;
          if j < 2 { assert t[j] == t[0..2][j]; assert IsDigit(t[0..2][j]); }
          else if 2 < j < 5 { assert t[j] == t[3..5][j - 3]; assert IsDigit(t[3..5][j - 3]); }
          else if 5 < j { assert t[j] == t[6..8][j - 6]; assert IsDigit(t[6..8][j - 6]); }
        }
      }
    }
    assert '+' !in head && 'Z' !in head;
    assert s[10] == 'T';
    assert s[|head|] == zone;
    assert s == head + ([zone] + rest);
    BeforeFirstAppend(head, [zone] + rest, '+');
    var cut1 := BeforeFirst(s, '+');
    if zone == '+' {
      assert cut1 == head;
      BeforeFirstAppend(head, [], 'Z');
      assert head + [] == head;
    } else {
      BeforeFirstAppend(head, [zone] + rest, 'Z');
      assert ([zone] + rest)[0] == 'Z';
      assert BeforeFirst([zone] + BeforeFirst(rest, '+'), 'Z') == [];
      assert cut1 == head + ([zone] + BeforeFirst(rest, '+'));
      BeforeFirstAppend(head, [zone] + BeforeFirst(rest, '+'), 'Z');
    }
    assert BeforeFirst(cut1, 'Z') == head;
    IsoRoundTrip(d, t);
  }

  /** The source's own example, `2025-07-09T11:39:17+08:00`, is made of a date
      text and a clock text, so `FormatIsoWithOffset` rewrites it to
      `2025-07-09 11:39:17`. */
  lemma SourceExampleIsCovered()
    ensures IsDateText("2025-07-09") && IsClockText("11:39:17")
  {
    ExampleDate();
    ExampleClock();
  }

  lemma ExampleDate()
    ensures IsDateText("2025-07-09")
  {
    var d := "2025-07-09";
    assert d[0..4] == "2025" && d[5..7] == "07" && d[8..10] == "09";
    assert DigitsValue("2025") == 2025 by {
      assert "2025"[..3] == "202" && "202"[..2] == "20" && "20"[..1] == "2" && "2"[..0] == [];
    }
    assert DigitsValue("07") == 7 by { assert "07"[..1] == "0" && "0"[..0] == []; }
    assert DigitsValue("09") == 9 by { assert "09"[..1] == "0" && "0"[..0] == []; }
  }

  lemma ExampleClock()
    ensures IsClockText("11:39:17")
  {
    var t := "11:39:17";
    assert t[0..2] == "11" && t[3..5] == "39" && t[6..8] == "17";
    assert DigitsValue("11") == 11 by { assert "11"[..1] == "1" && "1"[..0] == []; }
    assert DigitsValue("39") == 39 by { assert "39"[..1] == "3" && "3"[..0] == []; }
    assert DigitsValue("17") == 17 by { assert "17"[..1] == "1" && "1"[..0] == []; }
  }

  /** Text shaped as `dddd-dd-dd dd:dd:dd` matches the validator's second pattern at its start. */
  lemma StandardPatternAt(s: string)
    requires |s| == 19 && s[4] == '-' && s[7] == '-' && s[10] == ' ' && s[13] == ':' && s[16] == ':'
    requires AllDigits(s[0..4]) && AllDigits(s[5..7]) && AllDigits(s[8..10])
    requires AllDigits(s[11..13]) && AllDigits(s[14..16]) && AllDigits(s[17..19])
    ensures MatchesAt(s, 0, StandardPattern, 0)
  {
    var p := StandardPattern;
    assert MatchesAt(s, 19, p, 11);
    SeparatorThenTwoDigits(s, 16, p, 9);
    SeparatorThenTwoDigits(s, 13, p, 7);
    SeparatorThenTwoDigits(s, 10, p, 5);
    SeparatorThenTwoDigits(s, 7, p, 3);
    SeparatorThenTwoDigits(s, 4, p, 1);
    assert MatchesAt(s, 0, p, 0);
  }

  /** What `_format_publish_time` produces from a date and a clock is accepted
      by `_is_valid_time_format` (its second pattern matches at the start). */
  lemma CanonicalTimeIsValid(d: string, t: string)
    requires IsDateText(d) && IsClockText(t)
    ensures IsValidTimeFormat(d + " " + t)
  {
    var s := d + " " + t;
    assert s[0..4] == d[0..4] && s[5..7] == d[5..7] && s[8..10] == d[8..10];
    assert s[11..13] == t[0..2] && s[14..16] == t[3..5] && s[17..19] == t[6..8];
    StandardPatternAt(s);
    assert Search(s, TimePatterns[1]);
  }
}

=== FILE: notifier.dfy ===
/** The Feishu notifier (toutiao/feishu_notifier.py): the text of an article
    notification, the rich-text variant, the JSON payloads with their optional
    signature, and the test that decides whether the webhook accepted a
    message. The HTTP request itself is represented by the reply it gets. */
module Notifier {
  import opened Strings
  import opened Records

  // ------------------------------------------------------------------
  // JSON values
  // ------------------------------------------------------------------

  /** The JSON values the payloads and the webhook's reply are made of
      (numbers other than integers are not represented). */
  datatype Json =
    | JNull
    | JBool(b: bool)
    | JInt(i: int)
    | JStr(s: string)
    | JArr(items: seq<Json>)
    | JObj(fields: map<string, Json>)

  // ------------------------------------------------------------------
  // The statistics line   (toutiao/feishu_notifier.py:146-163)
  // ------------------------------------------------------------------

  /** The number of tenths `f"{n/10000:.1f}"` shows: `n / 1000` rounded to the
      nearest integer, halves rounded up. */
  function Tenths(n: nat): nat
  {
    (n + 500) / 1000
  }

  /** `f"{n/10000:.1f}万"`. */
  function WanText(n: nat): string
  {
    var t := Tenths(n);
    NatToString(t / 10) + "." + [DigitChar(t % 10)] + "万"
  }

  /** The shown number is `n / 10000` to the nearest tenth: reading the digits
      back gives a value within 0.05 of it. */
  lemma WanTextAccuracy(n: nat)
    ensures exists a: string, d: char ::
              && WanText(n) == a + "." + [d] + "万"
              && IsDigitString(a) && IsDigit(d)
              && -1000 < 2 * (1000 * (DigitsValue(a) * 10 + DigitValue(d)) - n) <= 1000
  {
    var t := Tenths(n);
    var a := NatToString(t / 10);
    var d := DigitChar(t % 10);
    NatToStringRoundTrip(t / 10);
    assert DigitsValue(a) * 10 + DigitValue(d) == t;
    assert WanText(n) == a + "." + [d] + "万";
  }

  /** How the read count is shown: `str(n)` below 10000, in 万 from there on. */
  function ReadText(n: int): string
    requires n > 0
  {
    if n >= 10000 then WanText(n) else IntToString(n)
  }

  /** `' | '.join(parts)`. */
  function Join(parts: seq<string>, sep: string): string
  {
    if parts == [] then ""
    else if |parts| == 1 then parts[0]
    else parts[0] + sep + Join(parts[1..], sep)
  }

  /** The parts of the statistics: the read count when positive, then the
      comment count when positive. */
  function StatsParts(readCount: int, commentCount: int): seq<string>
  {
    (if readCount > 0 then ["👀 " + ReadText(readCount) + "阅读"] else [])
    + (if commentCount > 0 then ["💬 " + IntToString(commentCount) + "评论"] else [])
  }

  /** The statistics line, or nothing when there are no parts. */
  function StatsLine(readCount: int, commentCount: int): string
  {
    var parts := StatsParts(readCount, commentCount);
    if parts == [] then "" else StatsLabel + Join(parts, Separator)
  }

  const StatsLabel: string := "\n📊 数据："
  const Separator: string := " | "

  /** The line is left out exactly when both counts are at most 0. */
  lemma StatsLineOmitted(readCount: int, commentCount: int)
    ensures StatsLine(readCount, commentCount) == "" <==> readCount <= 0 && commentCount <= 0
  {
    if readCount > 0 || commentCount > 0 {
      assert |StatsLine(readCount, commentCount)| >= |StatsLabel|;
    }
  }

  /** A read count alone below 10000 appears as its decimal digits. */
  lemma StatsLineReadsOnly(readCount: int, commentCount: int)
    requires 0 < readCount < 10000 && commentCount <= 0
    ensures StatsLine(readCount, commentCount) == StatsLabel + "👀 " + NatToString(readCount) + "阅读"
  {
  }

  /** A comment count alone appears as its decimal digits. */
  lemma StatsLineCommentsOnly(readCount: int, commentCount: int)
    requires readCount <= 0 && commentCount > 0
    ensures StatsLine(readCount, commentCount) == StatsLabel + "💬 " + NatToString(commentCount) + "评论"
  {
  }

  /** Two parts are joined by `" | "`, reads first. */
  lemma StatsLineBoth(readCount: int, commentCount: int)
    requires readCount > 0 && commentCount > 0
    ensures StatsLine(readCount, commentCount)
              == StatsLabel + ("👀 " + ReadText(readCount) + "阅读") + Separator + ("💬 " + NatToString(commentCount) + "评论")
  {
    var parts := StatsParts(readCount, commentCount);
    assert |parts| == 2;
    assert Join(parts, Separator) == parts[0] + Separator + parts[1];
  }

  // ------------------------------------------------------------------
  // The summary line   (toutiao/feishu_notifier.py:165-171)
  // ------------------------------------------------------------------

  const SummaryLimit: nat := 150

  /** The summary as shown: cut to its first 150 characters plus `...` when longer. */
  function ShownSummary(s: string): (r: string)
    ensures |s| <= SummaryLimit ==> r == s
    ensures |s| > SummaryLimit ==> |r| == SummaryLimit + 3 && r[..SummaryLimit] == s[..SummaryLimit]
                                   && r[SummaryLimit..] == "..."
  {
    if |s| > SummaryLimit then s[..SummaryLimit] + "..." else s
  }

  // ------------------------------------------------------------------
  // The text message   (toutiao/feishu_notifier.py:129-186)
  // ------------------------------------------------------------------

  const Banner: string := "📰 发现新文章！"
  const DefaultTitle: string := "未知标题"
  const DefaultAuthor: string := "未知作者"
  const DefaultTime: string := "未知时间"

  /** `article.get(key, default)` as an f-string shows it. */
  function Field(article: Dict, key: string, default: string): string
  {
    Render(Get(article, key, Str(default)))
  }

  const TitleLabel: string := "\n\n📄 标题："
  const AuthorLabel: string := "\n👤 作者："
  const TimeLabel: string := "\n⏰ 时间："
  const SummaryLabel: string := "\n📝 摘要："
  const LinkLabel: string := "\n\n🔗 链接："

  /** The text before the statistics: banner, title, author and time lines. */
  function Heading(title: string, author: string, time: string): string
  {
    Banner + TitleLabel + title + AuthorLabel + author + TimeLabel + time
  }

  /** The message of `_send_simple_article_notification`, or `None` when
      building it raises: a read or comment count that is not an integer cannot
      be compared with 0, and a truthy summary that is not a string has no `len`. */
  function BuildMessage(article: Dict): Option<string>
  {
    var readCount := Get(article, "read_count", Int(0));
    var commentCount := Get(article, "comment_count", Int(0));
    var summary := Get(article, "summary", Null);
    if !readCount.Int? || !commentCount.Int? then None
    else if Truthy(summary) && !summary.Str? then None
    else Some(Compose(HeadingOf(article),
                      StatsLine(readCount.i, commentCount.i) + SummaryLine(summary),
                      Field(article, "url", "")))
  }

  /** The heading with the title, author and time the article supplies or the defaults. */
  function HeadingOf(article: Dict): string
  {
    Heading(Field(article, "title", DefaultTitle), Field(article, "author", DefaultAuthor),
            Field(article, "publish_time", DefaultTime))
  }

  /** The summary line, present only for a truthy summary. */
  function SummaryLine(summary: Value): string
    requires Truthy(summary) ==> summary.Str?
  {
    if Truthy(summary) then SummaryLabel + ShownSummary(summary.s) else ""
  }

  /** The whole message: heading, the optional lines, then the link line. */
  function Compose(heading: string, optional: string, url: string): string
  {
    heading + optional + LinkLabel + url
  }

  /** The heading and the link line can be cut back out of the message. */
  lemma ComposeParts(heading: string, optional: string, url: string)
    ensures var m := Compose(heading, optional, url);
            && StartsWith(m, heading)
            && |LinkLabel + url| <= |m| && m[|m| - |LinkLabel + url|..] == LinkLabel + url
  {
    var m := Compose(heading, optional, url);
    assert m == heading + (optional + (LinkLabel + url));
  }

  /** The defaults stand in only for absent keys; a present value, `None` and
      `''` included, is shown as Python's `str` shows it. The message opens with
      the heading and closes with the link line. */
  lemma MessageFields(article: Dict)
    requires BuildMessage(article).Some?
    ensures var m := BuildMessage(article).value;
            var title := if "title" in article then Render(article["title"]) else DefaultTitle;
            var author := if "author" in article then Render(article["author"]) else DefaultAuthor;
            var time := if "publish_time" in article then Render(article["publish_time"]) else DefaultTime;
            var link := LinkLabel + (if "url" in article then Render(article["url"]) else "");
            && StartsWith(m, Heading(title, author, time))
            && |link| <= |m| && m[|m| - |link|..] == link
  {
    var readCount := Get(article, "read_count", Int(0));
    var commentCount := Get(article, "comment_count", Int(0));
    var summary := Get(article, "summary", Null);
    ComposeParts(HeadingOf(article), StatsLine(readCount.i, commentCount.i) + SummaryLine(summary),
                 Field(article, "url", ""));
  }

  /** A `None` author is shown as the text `None`, not as the default. */
  lemma NoneAuthorShownLiterally(article: Dict)
    requires BuildMessage(article).Some? && "author" in article && article["author"] == Null
    ensures Contains(BuildMessage(article).value, AuthorLabel + "None" + TimeLabel)
  {
    var m := BuildMessage(article).value;
    var title := Field(article, "title", DefaultTitle);
    var time := Field(article, "publish_time", DefaultTime);
    var h := Heading(title, "None", time);
    var p := AuthorLabel + "None" + TimeLabel;
    var i := |Banner + TitleLabel + title|;
    MessageFields(article);
    HeadingHoldsAuthor(title, "None", time);
    assert m[i..i + |p|] == h[i..i + |p|] by {
      assert m[..|h|] == h;
    }
    assert OccursAt(m, p, i);
  }

  /** The author sits between its label and the time label. */
  lemma HeadingHoldsAuthor(title: string, author: string, time: string)
    ensures OccursAt(Heading(title, author, time), AuthorLabel + author + TimeLabel, |Banner + TitleLabel + title|)
  {
    assert Heading(title, author, time) == (Banner + TitleLabel + title) + (AuthorLabel + author + TimeLabel) + time;
  }

  /** An article from the crawler always yields a message. */
  lemma CrawledArticleMessage(a: Article)
    ensures BuildMessage(ToDict(a)).Some?
  {
  }

  /** Building fails exactly for a count that is not an integer or a truthy
      summary that is not a string. */
  lemma MessageFailure(article: Dict)
    ensures BuildMessage(article).None? <==>
              || ("read_count" in article && !article["read_count"].Int?)
              || ("comment_count" in article && !article["comment_count"].Int?)
              || ("summary" in article && Truthy(article["summary"]) && !article["summary"].Str?)
  {
  }

  // ------------------------------------------------------------------
  // The rich-text content   (toutiao/feishu_notifier.py:188-255)
  // ------------------------------------------------------------------

  /** One element of a rich-text row: plain text or a link. */
  datatype Element = Text(text: string) | Anchor(text: string, href: string)

  const RichTitle: string := "头条博主新文章通知"

  /** `str(article.get(key, default)).strip()`, with a blank result replaced by `fallback`. */
  function RichField(article: Dict, key: string, default: string, fallback: string): (r: string)
    ensures r == fallback || (r != "" && !IsSpace(r[0]) && !IsSpace(r[|r| - 1]))
  {
    var v := Strip(Field(article, key, default));
    if v == "" then fallback else v
  }

  /** A string field padded with white space shows its stripped text, or the
      fallback when nothing is left; a missing field behaves as its default. */
  lemma RichFieldValue(article: Dict, key: string, default: string, fallback: string,
                       lead: string, text: string, trail: string)
    requires AllSpace(lead) && AllSpace(trail)
    requires text == [] || (!IsSpace(text[0]) && !IsSpace(text[|text| - 1]))
    requires key in article ==> article[key] == Str(lead + text + trail)
    requires key !in article ==> default == lead + text + trail
    ensures RichField(article, key, default, fallback) == if text == "" then fallback else text
  {
    assert Field(article, key, default) == lead + text + trail;
    StripPadded(lead, text, trail);
  }

  const TitleMark: string := "📄 "
  const AuthorMark: string := "👤 "
  const TimeMark: string := "⏰ "
  const LinkText: string := "🔗 点击查看原文"

  /** The rows for a title, author, time and URL already cleaned up. */
  function RichRows(title: string, author: string, time: string, url: string): seq<seq<Element>>
  {
    [[Text(Banner)], [Text(TitleMark + title)], [Text(AuthorMark + author)]]
    + (if time != "" then [[Text(TimeMark + time)]] else [])
    + (if url != "" then [[Anchor(LinkText, url)]] else [])
  }

  /** The rows of `send_rich_article_notification`. */
  function RichContent(article: Dict): seq<seq<Element>>
  {
    RichRows(RichField(article, "title", DefaultTitle, DefaultTitle),
             RichField(article, "author", DefaultAuthor, DefaultAuthor),
             RichField(article, "publish_time", "", ""),
             RichField(article, "url", "", ""))
  }

  /** The banner, title and author rows always come first, in that order; the
      time row and the link row follow only when their values are non-empty,
      the link last. */
  lemma RichRowsLayout(title: string, author: string, time: string, url: string)
    ensures var c := RichRows(title, author, time, url);
            && |c| == 3 + (if time != "" then 1 else 0) + (if url != "" then 1 else 0)
            && c[0] == [Text(Banner)] && c[1] == [Text(TitleMark + title)] && c[2] == [Text(AuthorMark + author)]
            && (time != "" ==> c[3] == [Text(TimeMark + time)])
            && (url != "" ==> c[|c| - 1] == [Anchor(LinkText, url)])
            && (forall k :: 0 <= k < |c| - 1 ==> c[k][0].Text?)
  {
  }

  /** A blank title or author is replaced by its default, so neither is ever empty. */
  lemma RichTitleAndAuthorNeverBlank(article: Dict)
    ensures RichField(article, "title", DefaultTitle, DefaultTitle) != ""
    ensures RichField(article, "author", DefaultAuthor, DefaultAuthor) != ""
  {
  }

  /** One element as the JSON object Feishu expects. */
  function ElementJson(e: Element): Json
  {
    match e
    case Text(t) => JObj(map["tag" := JStr("text"), "text" := JStr(t)])
    case Anchor(t, h) => JObj(map["tag" := JStr("a"), "text" := JStr(t), "href" := JStr(h)])
  }

  function ContentJson(rows: seq<seq<Element>>): Json
  {
    JArr(seq(|rows|, i requires 0 <= i < |rows| =>
      JArr(seq(|rows[i]|, j requires 0 <= j < |rows[i]| => ElementJson(rows[i][j])))))
  }

  // ------------------------------------------------------------------
  // Signing and the payloads   (toutiao/feishu_notifier.py:30-109)
  // ------------------------------------------------------------------

  /** The string the signature is computed from. */
  function StringToSign(timestamp: string, secret: string): string
  {
    timestamp + "\n" + secret
  }

  /** Timestamp and secret can be read back from the string to sign, since the
      timestamp has no newline. */
  lemma StringToSignInjective(t1: string, s1: string, t2: string, s2: string)
    requires '\n' !in t1 && '\n' !in t2
    requires StringToSign(t1, s1) == StringToSign(t2, s2)
    ensures t1 == t2 && s1 == s2
  {
    BeforeFirstOfSigned(t1, s1);
    BeforeFirstOfSigned(t2, s2);
    assert s1 == StringToSign(t1, s1)[|t1| + 1..];
    assert s2 == StringToSign(t2, s2)[|t2| + 1..];
  }

  lemma BeforeFirstOfSigned(t: string, s: string)
    requires '\n' !in t
    ensures BeforeFirst(StringToSign(t, s), '\n') == t
  {
    var x := StringToSign(t, s);
    assert x[|t|] == '\n' && x[..|t|] == t;
    assert forall k :: 0 <= k < |t| ==> x[k] == t[k] && t[k] in t;
  }

  /** `_generate_sign`: empty without a secret, otherwise the keyed digest
      `mac` (HMAC-SHA256 then Base64) of the string to sign. */
  function GenerateSign(timestamp: string, secret: Option<string>, mac: string -> string): string
  {
    if secret.None? || secret.value == "" then "" else mac(StringToSign(timestamp, secret.value))
  }

  predicate HasSecret(secret: Option<string>) { secret.Some? && secret.value != "" }

  /** `send_text_message`: build the payload, then add `timestamp` and `sign`
      when there is a secret. */
  method TextPayload(content: string, secret: Option<string>, now: nat, mac: string -> string)
    returns (data: map<string, Json>)
    ensures data.Keys == {"msg_type", "content"} + (if HasSecret(secret) then {"timestamp", "sign"} else {})
    ensures data["msg_type"] == JStr("text")
    ensures data["content"] == JObj(map["text" := JStr(content)])
    ensures HasSecret(secret) ==>
              && data["timestamp"] == JStr(NatToString(now))
              && data["sign"] == JStr(mac(StringToSign(NatToString(now), secret.value)))
  {
    var timestamp := NatToString(now);
    data := map["msg_type" := JStr("text"), "content" := JObj(map["text" := JStr(content)])];
    if secret.Some? && secret.value != "" {
      var sign := GenerateSign(timestamp, secret, mac);
      data := data["timestamp" := JStr(timestamp)];
      data := data["sign" := JStr(sign)];
    }
  }

  /** `send_rich_text_message`: the same signing around a `post` payload. */
  method RichPayload(title: string, content: seq<seq<Element>>, secret: Option<string>, now: nat,
                     mac: string -> string)
    returns (data: map<string, Json>)
    ensures data.Keys == {"msg_type", "content"} + (if HasSecret(secret) then {"timestamp", "sign"} else {})
    ensures data["msg_type"] == JStr("post")
    ensures data["content"] == JObj(map["post" := JObj(map["zh_cn" :=
              JObj(map["title" := JStr(title), "content" := ContentJson(content)])])])
    ensures HasSecret(secret) ==>
              && data["timestamp"] == JStr(NatToString(now))
              && data["sign"] == JStr(mac(StringToSign(NatToString(now), secret.value)))
  {
    var timestamp := NatToString(now);
    data := map["msg_type" := JStr("post"),
                "content" := JObj(map["post" := JObj(map["zh_cn" :=
                  JObj(map["title" := JStr(title), "content" := ContentJson(content)])])])];
    if secret.Some? && secret.value != "" {
      var sign := GenerateSign(timestamp, secret, mac);
      data := data["timestamp" := JStr(timestamp)];
      data := data["sign" := JStr(sign)];
    }
  }

  // ------------------------------------------------------------------
  // The webhook's verdict   (toutiao/feishu_notifier.py:257-293)
  // ------------------------------------------------------------------

  /** What came back from the POST: nothing (the request raised), or a status
      code and the body if it parsed as JSON. */
  datatype Reply = NoReply | Reply(status: int, body: Option<Json>)

  /** Python's `x == 0` for a JSON value: true for the integer 0 and for `false`. */
  predicate EqualsZero(v: Json)
  {
    v == JInt(0) || v == JBool(false)
  }

  /** `_send_message`: status 200 and a JSON object whose `StatusCode` equals 0.
      A body that is not an object has no `.get` (the error is caught), and a
      missing `StatusCode` reads as `None`. */
  predicate SendSucceeded(reply: Reply)
  {
    && reply.Reply?
    && reply.status == 200
    && reply.body.Some?
    && reply.body.value.JObj?
    && "StatusCode" in reply.body.value.fields
    && EqualsZero(reply.body.value.fields["StatusCode"])
  }

  /** Every outcome but a 200 with a zero `StatusCode` counts as a failure. */
  lemma OnlyZeroStatusSucceeds(reply: Reply)
    ensures reply.NoReply? ==> !SendSucceeded(reply)
    ensures reply.Reply? && reply.status != 200 ==> !SendSucceeded(reply)
    ensures (reply.Reply? && reply.body.Some? && reply.body.value.JObj?
             && "StatusCode" in reply.body.value.fields
             && reply.body.value.fields["StatusCode"] == JInt(1)) ==> !SendSucceeded(reply)
    ensures SendSucceeded(Reply(200, Some(JObj(map["StatusCode" := JInt(0)]))))
    ensures (reply.Reply? && reply.status == 200 && reply.body.Some? && reply.body.value.JObj?
             && "StatusCode" in reply.body.value.fields) ==>
              (SendSucceeded(reply) <==> EqualsZero(reply.body.value.fields["StatusCode"]))
    ensures (reply.Reply? && reply.body.Some? && reply.body.value.JObj?
             && "StatusCode" in reply.body.value.fields
             && reply.body.value.fields["StatusCode"].JInt?
             && reply.body.value.fields["StatusCode"].i != 0) ==> !SendSucceeded(reply)
    ensures (reply.Reply? && (reply.body.None? || !reply.body.value.JObj?
             || "StatusCode" !in reply.body.value.fields)) ==> !SendSucceeded(reply)
  {
  }

  /** `send_article_notification`: a message that cannot be built is a failure
      without a request; otherwise the webhook's reply decides. */
  function Notify(article: Dict, reply: Reply): bool
  {
    BuildMessage(article).Some? && SendSucceeded(reply)
  }

  /** For a crawled article the reply alone decides. */
  lemma NotifyCrawled(a: Article, reply: Reply)
    ensures Notify(ToDict(a), reply) <==> SendSucceeded(reply)
  {
    CrawledArticleMessage(a);
  }
}

=== FILE: records.dfy ===
/** The article record the crawler produces, and the Python dictionaries that the
    store and the notifier consume (toutiao/crawler_selenium.py:259-268,
    toutiao/database.py:150-159). */
module Records {
  import opened Strings

  /** One article as the crawler builds it: all eight keys are always present. */
  datatype Article = Article(
    id: string,
    title: string,
    url: string,
    author: string,
    summary: string,
    publishTime: string,
    readCount: nat,
    commentCount: nat)

  /** A dictionary value as the store and the notifier see it: Python's `None`,
      a `str` or an `int` (SQLite returns exactly these three for this table). */
  datatype Value = Null | Str(s: string) | Int(i: int)

  /** A Python `dict` with string keys. A missing key and a key bound to `None`
      are different things here, as they are for `dict.get`. */
  type Dict = map<string, Value>

  /** The dictionary the crawler hands to the store and to the notifier. */
  function ToDict(a: Article): Dict
  {
    map["article_id" := Str(a.id), "title" := Str(a.title), "url" := Str(a.url),
        "author" := Str(a.author), "summary" := Str(a.summary),
        "publish_time" := Str(a.publishTime),
        "read_count" := Int(a.readCount), "comment_count" := Int(a.commentCount)]
  }

  /** `d.get(key, default)`. */
  function Get(d: Dict, key: string, default: Value): Value
  {
    if key in d then d[key] else default
  }

  /** How an f-string renders a value: `str(v)`. */
  function Render(v: Value): string
  {
    match v
    case Null => "None"
    case Str(s) => s
    case Int(i) => IntToString(i)
  }

  /** Python truthiness of a value. */
  predicate Truthy(v: Value)
  {
    match v
    case Null => false
    case Str(s) => s != []
    case Int(i) => i != 0
  }
}

=== FILE: setup_config.dfy ===
/** The rules of the configuration wizard (setup_config.py): how a user id is
    read off a profile URL, and which typed answers the wizard accepts for the
    blogger URL, the check interval and the Feishu webhook, with the value it
    stores for each.  The prompts and the loops that re-ask until an answer is
    accepted are not modelled; each rule is a function of one typed line. */
module SetupConfig {
  import opened Strings
  import Extraction

  // ------------------------------------------------------------------
  // extract_user_id_from_url   (setup_config.py:22-44)
  // ------------------------------------------------------------------

  const TokenPath: string := "/c/user/token/"
  const UserPath: string := "/c/user/"

  /** The two path patterns, tried in this order:
      `/c/user/token/([^/'"]+)` and `/c/user/(\w+)/`. */
  datatype Rule = TokenRule | UserRule

  /** ASCII `\w`: letters, digits and the underscore. */
  predicate IsWordChar(c: char)
  {
    ('a' <= c <= 'z') || ('A' <= c <= 'Z') || IsDigit(c) || c == '_'
  }

  /** The character class of a rule's captured group. */
  predicate InGroup(c: char, rule: Rule)
  {
    match rule
    case TokenRule => c != '/' && c != '\'' && c != '"'
    case UserRule => IsWordChar(c)
  }

  function PathOf(rule: Rule): string
  {
    match rule
    case TokenRule => TokenPath
    case UserRule => UserPath
  }

  /** The longest run of group characters starting at `i`: what a greedy
      `[...]+` consumes there. */
  function RunFrom(s: string, i: nat, rule: Rule): (r: string)
    requires i <= |s|
    ensures i + |r| <= |s| && r == s[i..i + |r|]
    ensures forall j :: 0 <= j < |r| ==> InGroup(r[j], rule)
    ensures i + |r| == |s| || !InGroup(s[i + |r|], rule)
    decreases |s| - i
  {
    if i < |s| && InGroup(s[i], rule) then [s[i]] + RunFrom(s, i + 1, rule) else []
  }

  /** The rule's pattern matches at index `i`.  For the token rule the group
      needs one character; for the user rule the longest run of word
      characters must be followed by `/` (a shorter run is followed by a word
      character, so backtracking cannot find another match). */
  predicate MatchAt(url: string, i: nat, rule: Rule)
  {
    var g := i + |PathOf(rule)|;
    OccursAt(url, PathOf(rule), i) && g < |url| && InGroup(url[g], rule)
    && (rule == UserRule ==> g + |RunFrom(url, g, rule)| < |url| && url[g + |RunFrom(url, g, rule)|] == '/')
  }

  /** `re.search`: the leftmost index at or after `from` where the rule matches. */
  function FirstMatch(url: string, from: nat, rule: Rule): (r: Option<nat>)
    ensures r.Some? ==> from <= r.value && MatchAt(url, r.value, rule)
    ensures r.Some? ==> forall j: nat :: from <= j < r.value ==> !MatchAt(url, j, rule)
    ensures r.None? ==> forall j: nat :: from <= j ==> !MatchAt(url, j, rule)
    decreases |url| - from
  {
    if from >= |url| then None
    else if MatchAt(url, from, rule) then Some(from)
    else FirstMatch(url, from + 1, rule)
  }

  /** `match.group(1)` of a match at `i`. */
  function Group(url: string, i: nat, rule: Rule): (r: string)
    requires MatchAt(url, i, rule)
    ensures |r| > 0
  {
    RunFrom(url, i + |PathOf(rule)|, rule)
  }

  /** The id the wizard reads off a URL.  `query` is what `parse_qs` returns
      for the URL's query: each parameter with its values.  A `share_uid`
      parameter wins; its list is never empty in practice, and indexing an
      empty one would raise, which the function turns into `None`. */
  function ExtractUserId(query: map<string, seq<string>>, url: string): (r: Option<string>)
    ensures "share_uid" !in query && r.Some? ==> |r.value| > 0
  {
    if "share_uid" in query then
      if |query["share_uid"]| > 0 then Some(query["share_uid"][0]) else None
    else match FirstMatch(url, 0, TokenRule)
      case Some(i) => Some(Group(url, i, TokenRule))
      case None =>
        match FirstMatch(url, 0, UserRule)
        case Some(i) => Some(Group(url, i, UserRule))
        case None => None
  }

  /** A `share_uid` parameter decides the id, whatever the path says. */
  lemma ShareUidFirst(query: map<string, seq<string>>, url: string, url2: string)
    requires "share_uid" in query && |query["share_uid"]| > 0
    ensures ExtractUserId(query, url) == ExtractUserId(query, url2) == Some(query["share_uid"][0])
  {
  }

  /** Without a `share_uid` parameter, a URL that has no `/c/user/` anywhere
      has no id. */
  lemma NoUserPathNoId(query: map<string, seq<string>>, url: string)
    requires "share_uid" !in query && !Contains(url, UserPath)
    ensures ExtractUserId(query, url) == None
  {
    forall j: nat | OccursAt(url, TokenPath, j) ensures OccursAt(url, UserPath, j) {
      assert url[j..j + |UserPath|] == url[j..j + |TokenPath|][..|UserPath|];
    }
  }

  /** The `/` characters of `https://www.toutiao.com`. */
  lemma OriginSlashes(url: string, j: nat)
    requires StartsWith(url, Extraction.Origin) && j < |Extraction.Origin|
    ensures url[j] == '/' <==> j == 6 || j == 7
  {
    assert url[j] == Extraction.Origin[j];
  }

  /** Neither path starts inside the site's origin: both begin with `/c`, and
      the origin's only slashes are followed by `/` and `w`. */
  lemma NoPathInOrigin(url: string, j: nat, rule: Rule)
    requires StartsWith(url, Extraction.Origin) && j < |Extraction.Origin|
    ensures !OccursAt(url, PathOf(rule), j)
  {
    var p := PathOf(rule);
    if OccursAt(url, p, j) {
      assert url[j] == p[0] == '/';
      assert url[j + 1] == p[1] == 'c';
      OriginSlashes(url, j);
      OriginSlashes(url, j + 1);
    }
  }

  /** The canonical profile URL `https://www.toutiao.com/c/user/token/<id>`
      followed by `/`, a quote or nothing gives back `<id>`. */
  lemma ProfileUrlGivesToken(query: map<string, seq<string>>, id: string, rest: string)
    requires "share_uid" !in query
    requires |id| > 0 && forall j :: 0 <= j < |id| ==> InGroup(id[j], TokenRule)
    requires rest == [] || !InGroup(rest[0], TokenRule)
    ensures ExtractUserId(query, Extraction.Origin + TokenPath + id + rest) == Some(id)
  {
    var url := Extraction.Origin + TokenPath + id + rest;
    var o := |Extraction.Origin|;
    TokenUrlMatch(url, id, rest);
    NoMatchInOrigin(url, TokenRule);
    LeftmostMatch(url, o, TokenRule);
  }

  lemma NoMatchInOrigin(url: string, rule: Rule)
    requires StartsWith(url, Extraction.Origin)
    ensures forall j: nat :: j < |Extraction.Origin| ==> !MatchAt(url, j, rule)
  {
    forall j: nat | j < |Extraction.Origin| ensures !MatchAt(url, j, rule) {
      NoPathInOrigin(url, j, rule);
    }
  }

  /** A match with no match before it is the one `re.search` finds. */
  lemma LeftmostMatch(url: string, i: nat, rule: Rule)
    requires MatchAt(url, i, rule) && forall j: nat :: j < i ==> !MatchAt(url, j, rule)
    ensures FirstMatch(url, 0, rule) == Some(i)
  {
  }

  /** The token pattern matches right after the origin and captures `<id>`. */
  lemma TokenUrlMatch(url: string, id: string, rest: string)
    requires url == Extraction.Origin + TokenPath + id + rest
    requires |id| > 0 && forall j :: 0 <= j < |id| ==> InGroup(id[j], TokenRule)
    requires rest == [] || !InGroup(rest[0], TokenRule)
    ensures StartsWith(url, Extraction.Origin)
    ensures MatchAt(url, |Extraction.Origin|, TokenRule)
    ensures Group(url, |Extraction.Origin|, TokenRule) == id
  {
    var o := |Extraction.Origin|;
    var g := o + |TokenPath|;
    assert url == Extraction.Origin + TokenPath + (id + rest);
    ThreeParts(Extraction.Origin, TokenPath, id + rest);
    ThreeParts([], id, rest);
    assert url[g..g + |id|] == (id + rest)[..|id|];
    assert url[g] == id[0];
    RunPrefix(url, g, id, TokenRule);
  }

  /** The parts of a concatenation, as slices of it. */
  lemma ThreeParts(a: string, b: string, c: string)
    ensures var s := a + b + c;
            s[..|a|] == a && s[|a|..|a| + |b|] == b && s[|a| + |b|..] == c
  {
  }

  /** A run over a known stretch of group characters followed by a
      non-group character (or the end) is exactly that stretch. */
  lemma {:induction false} RunPrefix(s: string, i: nat, w: string, rule: Rule)
    requires i + |w| <= |s| && s[i..i + |w|] == w
    requires forall j :: 0 <= j < |w| ==> InGroup(w[j], rule)
    requires i + |w| == |s| || !InGroup(s[i + |w|], rule)
    ensures RunFrom(s, i, rule) == w
    decreases |w|
  {
    if w != [] {
      assert s[i] == w[0];
      assert s[i + 1..i + |w|] == w[1..];
      RunPrefix(s, i + 1, w[1..], rule);
      assert w == [w[0]] + w[1..];
    }
  }

  /** Where `/c/user/token/` has its slashes. */
  lemma TokenPathSlashes(url: string, j: nat)
    ensures OccursAt(url, TokenPath, j) ==>
              url[j] == '/' && url[j + 2] == '/' && url[j + 7] == '/' && url[j + 13] == '/'
  {
    if OccursAt(url, TokenPath, j) {
      var p := url[j..j + |TokenPath|];
      assert p[0] == url[j] && p[2] == url[j + 2] && p[7] == url[j + 7] && p[13] == url[j + 13];
    }
  }

  /** The slashes of `https://www.toutiao.com/c/user/<w>/`. */
  lemma UserUrlSlashes(url: string, w: string, j: nat)
    requires url == Extraction.Origin + UserPath + w + "/"
    requires forall k :: 0 <= k < |w| ==> IsWordChar(w[k])
    requires j < |url|
    ensures url[j] == '/' ==> j in {6, 7, 23, 25, 30, |url| - 1}
  {
    var o := |Extraction.Origin|;
    if j < o {
      OriginSlashes(url, j);
    } else if j < o + |UserPath| {
      assert url[j] == UserPath[j - o];
    } else if j < |url| - 1 {
      assert url[j] == w[j - o - |UserPath|];
    }
  }

  /** `https://www.toutiao.com/c/user/<w>/` has no match of the token
      pattern: its slashes never line up with those of `/c/user/token/`
      followed by a character. */
  lemma NoTokenInUserUrl(url: string, w: string, j: nat)
    requires url == Extraction.Origin + UserPath + w + "/"
    requires forall k :: 0 <= k < |w| ==> IsWordChar(w[k])
    ensures !MatchAt(url, j, TokenRule)
  {
    if j + |TokenPath| < |url| {
      TokenPathSlashes(url, j);
      UserUrlSlashes(url, w, j);
      UserUrlSlashes(url, w, j + 2);
      UserUrlSlashes(url, w, j + 7);
      UserUrlSlashes(url, w, j + 13);
    }
  }

  /** The old-style profile URL `https://www.toutiao.com/c/user/<w>/` gives
      back `<w>` by the second pattern: the token pattern cannot match, even
      when `<w>` is `token`, since nothing follows its `/`. */
  lemma OldProfileUrlGivesWord(query: map<string, seq<string>>, w: string)
    requires "share_uid" !in query
    requires |w| > 0 && forall j :: 0 <= j < |w| ==> IsWordChar(w[j])
    ensures ExtractUserId(query, Extraction.Origin + UserPath + w + "/") == Some(w)
  {
    var url := Extraction.Origin + UserPath + w + "/";
    var o := |Extraction.Origin|;
    forall j: nat ensures !MatchAt(url, j, TokenRule) {
      NoTokenInUserUrl(url, w, j);
    }
    UserUrlMatch(url, w);
    assert StartsWith(url, Extraction.Origin);
    NoMatchInOrigin(url, UserRule);
    LeftmostMatch(url, o, UserRule);
  }

  /** The user pattern matches right after the origin and captures `<w>`. */
  lemma UserUrlMatch(url: string, w: string)
    requires url == Extraction.Origin + UserPath + w + "/"
    requires |w| > 0 && forall j :: 0 <= j < |w| ==> IsWordChar(w[j])
    ensures MatchAt(url, |Extraction.Origin|, UserRule)
    ensures Group(url, |Extraction.Origin|, UserRule) == w
  {
    var o := |Extraction.Origin|;
    var g := o + |UserPath|;
    var c := w + "/";
    assert url == Extraction.Origin + UserPath + c;
    ThreeParts(Extraction.Origin, UserPath, c);
    WordThenSlash(url, g, w);
  }

  /** A run of word characters followed by `/` is what the user pattern's
      group captures. */
  lemma WordThenSlash(url: string, g: nat, w: string)
    requires g <= |url| && url[g..] == w + "/"
    requires |w| > 0 && forall j :: 0 <= j < |w| ==> IsWordChar(w[j])
    ensures g + |w| < |url| && url[g] == w[0] && url[g + |w|] == '/'
    ensures RunFrom(url, g, UserRule) == w
  {
    var c := w + "/";
    assert url[g..g + |w|] == c[..|w|] == w;
    assert url[g + |w|] == c[|w|] == '/';
    RunPrefix(url, g, w, UserRule);
    assert url[g] == w[0];
  }

  /** Hence the bare token path yields the literal word `token` as the id. */
  lemma BareTokenPathGivesToken(query: map<string, seq<string>>)
    requires "share_uid" !in query
    ensures ExtractUserId(query, Extraction.Origin + TokenPath) == Some("token")
  {
    assert Extraction.Origin + TokenPath == Extraction.Origin + UserPath + "token" + "/";
    OldProfileUrlGivesWord(query, "token");
  }

  // ------------------------------------------------------------------
  // The blogger URL answer   (setup_config.py:55-77)
  // ------------------------------------------------------------------

  datatype UrlAnswer = UrlAccepted(url: string) | UrlEmpty | UrlNotHttp | UrlNotProfile

  /** The stripped answer must be non-empty, start with `http` and contain
      `/c/user/token/`; it is stored with the article tab added by the same
      rule the crawler applies to the URL it opens. */
  function CheckBloggerUrl(answer: string): (r: UrlAnswer)
    ensures r.UrlAccepted? ==> StartsWith(r.url, Strip(answer)) && StartsWith(r.url, "http")
    ensures r.UrlAccepted? ==> Contains(r.url, TokenPath) && Contains(r.url, Extraction.ArticleTab)
    ensures r.UrlAccepted? <==> StartsWith(Strip(answer), "http") && Contains(Strip(answer), TokenPath)
    ensures r.UrlAccepted? ==> r.url == Extraction.WithArticleTab(Strip(answer))
    ensures r == UrlEmpty <==> Strip(answer) == []
  {
    var u := Strip(answer);
    if u == [] then UrlEmpty
    else if !StartsWith(u, "http") then UrlNotHttp
    else if !Contains(u, TokenPath) then UrlNotProfile
    else
      var r := Extraction.WithArticleTab(u);
      TabbedUrlFacts(u);
      UrlAccepted(r)
  }

  lemma TabbedUrlFacts(u: string)
    requires StartsWith(u, "http") && Contains(u, TokenPath)
    ensures var r := Extraction.WithArticleTab(u);
            StartsWith(r, "http") && Contains(r, TokenPath) && Contains(r, Extraction.ArticleTab)
  {
    var r := Extraction.WithArticleTab(u);
    var t := Extraction.ArticleTab;
    var i: nat :| i <= |u| && OccursAt(u, TokenPath, i);
    assert r[i..i + |TokenPath|] == u[i..i + |TokenPath|];
    assert OccursAt(r, TokenPath, i);
    assert r[..4] == u[..4];
    if Contains(u, "?" + t) {
      var k: nat :| k <= |u| && OccursAt(u, "?" + t, k);
      assert r[k + 1..k + 1 + |t|] == u[k..k + 1 + |t|][1..];
      assert OccursAt(r, t, k + 1);
    } else {
      Extraction.WithArticleTabEndsWithTab(u);
      assert OccursAt(r, t, |u| + 1);
    }
  }

  /** An answer with whitespace around a profile URL is accepted as the URL
      with the tab query added. */
  lemma ProfileUrlAccepted(lead: string, url: string, trail: string)
    requires AllSpace(lead) && AllSpace(trail)
    requires StartsWith(url, "http") && Contains(url, TokenPath) && !IsSpace(url[|url| - 1])
    ensures CheckBloggerUrl(lead + url + trail) == UrlAccepted(Extraction.WithArticleTab(url))
  {
    StripPadded(lead, url, trail);
  }

  /** What the crawler opens for the stored URL: the stored URL itself when
      the answer had no query, and the stored URL with the tab appended a
      second time when the answer had another query. */
  lemma CrawlerOpensStoredUrl(answer: string)
    requires CheckBloggerUrl(answer).UrlAccepted?
    ensures var stored := CheckBloggerUrl(answer).url;
            var u := Strip(answer);
            ('?' !in u ==> Extraction.WithArticleTab(stored) == stored)
            && ('?' in u && !Contains(u, "?" + Extraction.ArticleTab)
                ==> Extraction.WithArticleTab(stored) == stored + ['&'] + Extraction.ArticleTab)
  {
    var u := Strip(answer);
    if '?' !in u {
      Extraction.WithArticleTabStable(u);
    } else if !Contains(u, "?" + Extraction.ArticleTab) {
      Extraction.WithArticleTabRepeats(u);
    }
  }

  // ------------------------------------------------------------------
  // The interval answer   (setup_config.py:79-98)
  // ------------------------------------------------------------------

  const DefaultInterval: int := 30
  const MinInterval: int := 10

  /** Python's `int()` digit part: ASCII digits, single underscores allowed
      between two digits. */
  predicate IsDigitPart(s: string)
  {
    |s| > 0 && IsDigit(s[0]) && IsDigit(s[|s| - 1])
    && (forall i :: 0 <= i < |s| ==> IsDigit(s[i]) || s[i] == '_')
    && (forall i :: 0 < i < |s| && s[i] == '_' ==> s[i - 1] != '_')
  }

  function DropUnderscores(s: string): (r: string)
    ensures (forall i :: 0 <= i < |s| ==> IsDigit(s[i]) || s[i] == '_') ==> AllDigits(r)
    ensures AllDigits(s) ==> r == s
  {
    if s == [] then []
    else (if s[0] == '_' then [] else [s[0]]) + DropUnderscores(s[1..])
  }

  /** `int(s)` on a stripped string: an optional sign and a digit part;
      anything else raises `ValueError`, here `None`. */
  function ParseInt(s: string): (r: Option<int>)
    ensures r.Some? ==> |s| > 0 && forall i :: 0 <= i < |s| ==>
              IsDigit(s[i]) || s[i] == '_' || (i == 0 && (s[i] == '+' || s[i] == '-'))
  {
    if |s| > 0 && (s[0] == '+' || s[0] == '-') then
      if IsDigitPart(s[1..]) then
        assert forall i :: 1 <= i < |s| ==> s[i] == s[1..][i - 1];
        var v: int := DigitsValue(DropUnderscores(s[1..]));
        Some(if s[0] == '-' then -v else v)
      else None
    else if IsDigitPart(s) then
      Some(DigitsValue(DropUnderscores(s)))
    else None
  }

  /** `int(str(i)) == i`. */
  lemma ParseIntRendering(i: int)
    ensures ParseInt(IntToString(i)) == Some(i)
  {
    if i < 0 {
      ParseIntNegative(-i);
    } else {
      ParseIntNat(i);
    }
  }

  lemma ParseIntNegative(n: nat)
    ensures ParseInt("-" + NatToString(n)) == Some(-(n as int))
  {
    var d := NatToString(n);
    RenderingIsDigitPart(n);
    var s := "-" + d;
    assert s[0] == '-' && s[1..] == d;
  }

  lemma ParseIntNat(n: nat)
    ensures ParseInt(NatToString(n)) == Some(n)
  {
    RenderingIsDigitPart(n);
  }

  /** `str(n)` is a digit part whose value is `n`. */
  lemma RenderingIsDigitPart(n: nat)
    ensures var d := NatToString(n);
            IsDigitPart(d) && d[0] != '+' && d[0] != '-' && DigitsValue(DropUnderscores(d)) == n
  {
    NatToStringRoundTrip(n);
  }

  datatype IntervalAnswer = IntervalAccepted(minutes: int) | IntervalNotNumber | IntervalTooShort

  /** An empty answer means 30 minutes; otherwise the stripped answer must
      parse as an integer of at least 10. */
  function CheckInterval(answer: string): (r: IntervalAnswer)
    ensures r.IntervalAccepted? ==> r.minutes >= MinInterval
  {
    var s := Strip(answer);
    if s == [] then IntervalAccepted(DefaultInterval)
    else match ParseInt(s)
      case None => IntervalNotNumber
      case Some(n) => if n < MinInterval then IntervalTooShort else IntervalAccepted(n)
  }

  /** A number typed with any whitespace around it is accepted exactly when it
      is at least 10, and then as itself. */
  lemma IntervalOfNumber(lead: string, i: int, trail: string)
    requires AllSpace(lead) && AllSpace(trail)
    ensures CheckInterval(lead + IntToString(i) + trail)
            == if i < MinInterval then IntervalTooShort else IntervalAccepted(i)
  {
    var s := IntToString(i);
    var n: nat := if i < 0 then -i else i;
    assert s[|s| - 1] == NatToString(n)[|NatToString(n)| - 1];
    StripPadded(lead, s, trail);
    ParseIntRendering(i);
  }

  /** An answer with a character other than a digit, `_` or a leading sign is
      refused as not a number. */
  lemma IntervalRefusesText(answer: string, k: nat)
    requires var s := Strip(answer);
             k < |s| && !IsDigit(s[k]) && s[k] != '_' && !(k == 0 && (s[k] == '+' || s[k] == '-'))
    ensures CheckInterval(answer) == IntervalNotNumber
  {
  }

  // ------------------------------------------------------------------
  // The Feishu answers   (setup_config.py:109-127)
  // ------------------------------------------------------------------

  const WebhookPrefix: string := "https://" + "open.feishu.cn/open-apis/bot/v2/hook/"

  datatype WebhookAnswer = WebhookAccepted(url: string) | WebhookEmpty | WebhookWrongFormat

  /** The stripped answer must be non-empty and start with the custom-bot
      hook prefix; it is stored stripped. */
  function CheckWebhook(answer: string): (r: WebhookAnswer)
    ensures r.WebhookAccepted? ==> StartsWith(r.url, WebhookPrefix)
    ensures r.WebhookAccepted? ==> |r.url| > 0 && !IsSpace(r.url[0]) && !IsSpace(r.url[|r.url| - 1])
    ensures r.WebhookAccepted? <==> StartsWith(Strip(answer), WebhookPrefix)
    ensures r.WebhookAccepted? ==> r.url == Strip(answer)
    ensures r == WebhookEmpty <==> Strip(answer) == []
  {
    var u := Strip(answer);
    if |u| == 0 then WebhookEmpty
    else if !StartsWith(u, WebhookPrefix) then WebhookWrongFormat
    else WebhookAccepted(u)
  }


  /** A hook URL typed with whitespace around it is accepted as itself. */
  lemma HookUrlAccepted(lead: string, hook: string, trail: string)
    requires AllSpace(lead) && AllSpace(trail)
    requires hook == [] || !IsSpace(hook[|hook| - 1])
    ensures CheckWebhook(lead + WebhookPrefix + hook + trail) == WebhookAccepted(WebhookPrefix + hook)
  {
    var u := WebhookPrefix + hook;
    assert u[0] == WebhookPrefix[0] == "https://"[0];
    assert hook == [] ==> u[|u| - 1] == '/';
    assert hook != [] ==> u[|u| - 1] == hook[|hook| - 1];
    assert lead + WebhookPrefix + hook + trail == lead + u + trail;
    StripPadded(lead, u, trail);
    assert u[..|WebhookPrefix|] == WebhookPrefix;
  }

  /** The optional secret: the stripped answer, `""` when it is blank. */
  function SecretOf(answer: string): (r: string)
    ensures r == [] || (!IsSpace(r[0]) && !IsSpace(r[|r| - 1]))
  {
    var s := Strip(answer);
    if s != [] then s else ""
  }

  /** A secret typed with whitespace around it is stored as itself. */
  lemma SecretKept(lead: string, secret: string, trail: string)
    requires AllSpace(lead) && AllSpace(trail)
    requires secret == [] || (!IsSpace(secret[0]) && !IsSpace(secret[|secret| - 1]))
    ensures SecretOf(lead + secret + trail) == secret
  {
    StripPadded(lead, secret, trail);
  }

  // ------------------------------------------------------------------
  // Blank answers
  // ------------------------------------------------------------------

  /** A blank answer (empty or whitespace only) is refused as empty for the
      blogger URL and the webhook, and only a blank one is; it means the
      default of 30 minutes for the interval and the empty secret, and only a
      blank answer gives the empty secret. */
  lemma BlankAnswers(answer: string)
    ensures CheckBloggerUrl(answer) == UrlEmpty <==> AllSpace(answer)
    ensures CheckWebhook(answer) == WebhookEmpty <==> AllSpace(answer)
    ensures AllSpace(answer) ==> CheckInterval(answer) == IntervalAccepted(DefaultInterval)
    ensures SecretOf(answer) == [] <==> AllSpace(answer)
  {
    StripEmptyIffSpace(answer);
  }
}

=== FILE: store.dfy ===
/** The article store (toutiao/database.py): the SQLite table `articles`,
    modelled in memory as a map from article id to row plus the ids in
    insertion order. `created_at` is an insertion clock that never repeats,
    so `ORDER BY created_at DESC` is reverse insertion order. */
module Store {
  import opened Strings
  import opened Records

  // ------------------------------------------------------------------
  // Rows and the table
  // ------------------------------------------------------------------

  /** One row of `articles` without its key (toutiao/database.py:33-45). */
  datatype Row = Row(
    title: Value,
    url: Value,
    publishTime: Value,
    author: Value,
    summary: Value,
    readCount: Value,
    commentCount: Value,
    createdAt: nat,
    notified: bool)

  /** The rows by article id, and the ids in the order they were inserted. */
  datatype Table = Table(rows: map<string, Row>, order: seq<string>)

  predicate Distinct(s: seq<string>) { forall i, j :: 0 <= i < j < |s| ==> s[i] != s[j] }

  /** The order lists every stored id once, and each row's `created_at` is its
      position in that order. */
  ghost predicate TableValid(t: Table)
  {
    && Distinct(t.order)
    && (forall id :: id in t.rows <==> id in t.order)
    && (forall i :: 0 <= i < |t.order| ==> t.order[i] in t.rows && t.rows[t.order[i]].createdAt == i)
  }

  /** A distinct list has as many elements as its set. */
  lemma {:induction false} DistinctCardinality(s: seq<string>)
    requires Distinct(s)
    ensures |set x | x in s| == |s|
    decreases |s|
  {
    if s != [] {
      var tail := s[1..];
      DistinctCardinality(tail);
      assert (set x | x in s) == (set x | x in tail) + {s[0]};
      assert s[0] !in tail by {
        forall k | 0 <= k < |tail| ensures tail[k] != s[0] {
          assert tail[k] == s[k + 1];
        }
      }
    }
  }

  /** A valid table has exactly as many ids in its order as it has rows. */
  lemma RowCount(t: Table)
    requires TableValid(t)
    ensures |t.rows| == |t.order|
  {
    DistinctCardinality(t.order);
    assert t.rows.Keys == set x | x in t.order;
  }

  // ------------------------------------------------------------------
  // add_article   (toutiao/database.py:75-114)
  // ------------------------------------------------------------------

  /** What a TEXT column stores: SQLite keeps an integer as its decimal text. */
  function TextColumn(v: Value): Value
  {
    match v
    case Int(i) => Str(IntToString(i))
    case _ => v
  }

  /** The `article_id` a value is stored under; `None` is rejected by NOT NULL. */
  function KeyOf(v: Value): Option<string>
  {
    match v
    case Null => None
    case Str(s) => Some(s)
    case Int(i) => Some(IntToString(i))
  }

  /** The id `add_article` inserts under, or nothing when the statement cannot
      insert: a missing `article_id`, `title` or `url` raises `KeyError` (caught),
      and a `None` in one of these NOT NULL columns is ignored by `INSERT OR IGNORE`. */
  function InsertKey(data: Dict): Option<string>
  {
    if "article_id" !in data || "title" !in data || "url" !in data then None
    else if data["title"] == Null || data["url"] == Null then None
    else KeyOf(data["article_id"])
  }

  /** The row `add_article` writes: missing optional keys default to `''` and 0,
      and `notified` starts false. */
  function NewRow(data: Dict, createdAt: nat): Row
    requires "title" in data && "url" in data
  {
    Row(TextColumn(data["title"]), TextColumn(data["url"]),
        TextColumn(Get(data, "publish_time", Str(""))),
        TextColumn(Get(data, "author", Str(""))),
        TextColumn(Get(data, "summary", Str(""))),
        Get(data, "read_count", Int(0)), Get(data, "comment_count", Int(0)),
        createdAt, false)
  }

  datatype Insertion = Insertion(table: Table, added: bool)

  /** `add_article`: `INSERT OR IGNORE`, reporting whether a row was written. */
  function AddArticleSpec(t: Table, data: Dict): Insertion
  {
    match InsertKey(data)
    case None => Insertion(t, false)
    case Some(id) =>
      if id in t.rows then Insertion(t, false)
      else Insertion(Table(t.rows[id := NewRow(data, |t.order|)], t.order + [id]), true)
  }

  /** Inserting keeps the table well formed. */
  lemma AddArticleValid(t: Table, data: Dict)
    requires TableValid(t)
    ensures TableValid(AddArticleSpec(t, data).table)
  {
  }

  /** A new id is inserted: the call returns true, the id then exists, and the
      row is the newest one, unnotified, with the defaults filled in. */
  lemma AddNewArticle(t: Table, data: Dict, id: string)
    requires TableValid(t)
    requires InsertKey(data) == Some(id) && id !in t.rows
    ensures var r := AddArticleSpec(t, data);
            && r.added
            && r.table.rows.Keys == t.rows.Keys + {id}
            && (forall other :: other in t.rows ==> r.table.rows[other] == t.rows[other])
            && var row := r.table.rows[id];
            && !row.notified
            && (forall other :: other in t.rows ==> t.rows[other].createdAt < row.createdAt)
            && ("publish_time" !in data ==> row.publishTime == Str(""))
            && ("author" !in data ==> row.author == Str(""))
            && ("summary" !in data ==> row.summary == Str(""))
            && ("read_count" !in data ==> row.readCount == Int(0))
            && ("comment_count" !in data ==> row.commentCount == Int(0))
  {
    forall other | other in t.rows ensures t.rows[other].createdAt < |t.order| {
      var k :| 0 <= k < |t.order| && t.order[k] == other;
    }
  }

  /** The first write wins: an id already stored is not written again. */
  lemma FirstWriteWins(t: Table, data: Dict)
    requires InsertKey(data).Some? && InsertKey(data).value in t.rows
    ensures AddArticleSpec(t, data) == Insertion(t, false)
  {
  }

  /** A dictionary without `article_id`, `title` or `url`, or with `None` in one
      of them, is never stored. */
  lemma IncompleteArticleRejected(t: Table, data: Dict)
    requires "article_id" !in data || "title" !in data || "url" !in data
             || data["article_id"] == Null || data["title"] == Null || data["url"] == Null
    ensures AddArticleSpec(t, data) == Insertion(t, false)
  {
  }

  /** A crawled article always has a key; it is stored exactly when its id is new. */
  lemma CrawledArticleKey(a: Article)
    ensures InsertKey(ToDict(a)) == Some(a.id)
  {
  }

  /** The row `add_article` writes for a crawled article: every column comes
      from the article, so no default is used. */
  function CrawledRow(a: Article, createdAt: nat): Row
  {
    Row(Str(a.title), Str(a.url), Str(a.publishTime), Str(a.author), Str(a.summary),
        Int(a.readCount), Int(a.commentCount), createdAt, false)
  }

  /** `add_article` on a crawled article, stated on the article itself. */
  function InsertCrawled(t: Table, a: Article): Insertion
  {
    if a.id in t.rows then Insertion(t, false)
    else Insertion(Table(t.rows[a.id := CrawledRow(a, |t.order|)], t.order + [a.id]), true)
  }

  /** Storing a crawled article's dictionary is `InsertCrawled`. */
  lemma CrawledInsertion(t: Table, a: Article)
    ensures AddArticleSpec(t, ToDict(a)) == InsertCrawled(t, a)
  {
    CrawledArticleKey(a);
  }

  /** A crawled article is stored exactly when its id is new; the new row is
      unnotified and the other rows are unchanged. */
  lemma InsertCrawledFacts(t: Table, a: Article)
    ensures var r := InsertCrawled(t, a);
            && (r.added <==> a.id !in t.rows)
            && r.table.rows.Keys == t.rows.Keys + {a.id}
            && (forall id :: id in t.rows ==> r.table.rows[id] == t.rows[id])
            && (r.added ==> !r.table.rows[a.id].notified)
  {
  }

  /** Storing a crawled article keeps the table well formed. */
  lemma InsertCrawledValid(t: Table, a: Article)
    requires TableValid(t)
    ensures TableValid(InsertCrawled(t, a).table)
  {
    CrawledInsertion(t, a);
    AddArticleValid(t, ToDict(a));
  }

  // ------------------------------------------------------------------
  // mark_as_notified and article_exists   (toutiao/database.py:116-137, 196-216)
  // ------------------------------------------------------------------

  datatype Marking = Marking(table: Table, found: bool)

  /** `UPDATE ... SET notified = TRUE WHERE article_id = ?`; the row count is
      the number of rows the `WHERE` matched. */
  function MarkSpec(t: Table, id: string): Marking
  {
    if id in t.rows then Marking(Table(t.rows[id := t.rows[id].(notified := true)], t.order), true)
    else Marking(t, false)
  }

  /** Marking reports whether the id exists, sets the flag on that row only and
      changes nothing else; marking again still reports true. */
  lemma MarkOnlyThat(t: Table, id: string)
    requires TableValid(t)
    ensures var m := MarkSpec(t, id);
            && TableValid(m.table)
            && (m.found <==> id in t.rows)
            && m.table.order == t.order
            && m.table.rows.Keys == t.rows.Keys
            && (forall other :: other in t.rows && other != id ==> m.table.rows[other] == t.rows[other])
            && (id in t.rows ==> m.table.rows[id] == t.rows[id].(notified := true))
            && MarkSpec(m.table, id).found == m.found
  {
  }

  // ------------------------------------------------------------------
  // The queries   (toutiao/database.py:139-194)
  // ------------------------------------------------------------------

  /** A result row of `get_unnotified_articles`: eight columns. */
  function RowDict(id: string, row: Row): Dict
  {
    map["article_id" := Str(id), "title" := row.title, "url" := row.url,
        "publish_time" := row.publishTime, "author" := row.author,
        "summary" := row.summary, "read_count" := row.readCount,
        "comment_count" := row.commentCount]
  }

  /** A result row of `get_latest_articles`: the same plus `notified` as 0 or 1. */
  function LatestDict(id: string, row: Row): Dict
  {
    RowDict(id, row)["notified" := Int(if row.notified then 1 else 0)]
  }

  /** The ids of unnotified rows among `order`, latest inserted first. */
  function UnnotifiedIds(rows: map<string, Row>, order: seq<string>): (r: seq<string>)
    requires forall k :: 0 <= k < |order| ==> order[k] in rows
    ensures forall k :: 0 <= k < |r| ==> r[k] in rows
  {
    if order == [] then []
    else UnnotifiedIds(rows, order[1..]) + (if rows[order[0]].notified then [] else [order[0]])
  }

  /** The result rows for a list of ids. */
  function RowDicts(rows: map<string, Row>, ids: seq<string>): (r: seq<Dict>)
    requires forall k :: 0 <= k < |ids| ==> ids[k] in rows
  {
    seq(|ids|, i requires 0 <= i < |ids| => RowDict(ids[i], rows[ids[i]]))
  }

  /** `get_unnotified_articles`. */
  function Unnotified(t: Table): seq<Dict>
    requires TableValid(t)
  {
    RowDicts(t.rows, UnnotifiedIds(t.rows, t.order))
  }

  lemma {:induction false} UnnotifiedIdsSpec(rows: map<string, Row>, order: seq<string>)
    requires forall k :: 0 <= k < |order| ==> order[k] in rows
    requires forall i, j :: 0 <= i < j < |order| ==> rows[order[i]].createdAt < rows[order[j]].createdAt
    ensures var ids := UnnotifiedIds(rows, order);
            && (forall id :: id in ids <==> id in order && !rows[id].notified)
            && (forall i, j :: 0 <= i < j < |ids| ==> rows[ids[i]].createdAt > rows[ids[j]].createdAt)
    decreases |order|
  {
    if order != [] {
      var x := order[0];
      var tail := order[1..];
      UnnotifiedIdsSpec(rows, tail);
      assert order == [x] + tail;
      var rest := UnnotifiedIds(rows, tail);
      var add := if rows[x].notified then [] else [x];
      assert UnnotifiedIds(rows, order) == rest + add;
      forall id | id in rest ensures rows[id].createdAt > rows[x].createdAt {
        var k :| 0 <= k < |tail| && tail[k] == id;
        assert order[k + 1] == id;
      }
      AppendOlder(rows, rest, add, rows[x].createdAt);
    }
  }

  /** Ids newest first, followed by ids older than all of them, stay newest first. */
  lemma AppendOlder(rows: map<string, Row>, rest: seq<string>, add: seq<string>, at: int)
    requires forall id :: id in rest ==> id in rows
    requires forall i, j :: 0 <= i < j < |rest| ==> rows[rest[i]].createdAt > rows[rest[j]].createdAt
    requires |add| <= 1 && forall id :: id in add ==> id in rows && rows[id].createdAt == at
    requires forall id :: id in rest ==> rows[id].createdAt > at
    ensures var ids := rest + add;
            forall i, j :: 0 <= i < j < |ids| ==> rows[ids[i]].createdAt > rows[ids[j]].createdAt
  {
    var ids := rest + add;
    forall i, j | 0 <= i < j < |ids| ensures rows[ids[i]].createdAt > rows[ids[j]].createdAt {
      assert ids[i] == rest[i] && ids[i] in rest;
      if j >= |rest| {
        assert ids[j] == add[j - |rest|] && ids[j] in add;
      } else {
        assert ids[j] == rest[j];
      }
    }
  }

  /** `get_unnotified_articles` returns exactly the unnotified rows, each once,
      newest `created_at` first. */
  lemma UnnotifiedExactly(t: Table)
    requires TableValid(t)
    ensures var ids := UnnotifiedIds(t.rows, t.order);
            var r := Unnotified(t);
            && |r| == |ids|
            && (forall i :: 0 <= i < |r| ==> r[i] == RowDict(ids[i], t.rows[ids[i]]))
            && (forall id :: id in ids <==> id in t.rows && !t.rows[id].notified)
            && (forall i, j :: 0 <= i < j < |ids| ==> t.rows[ids[i]].createdAt > t.rows[ids[j]].createdAt)
  {
    UnnotifiedIdsSpec(t.rows, t.order);
  }

  /** How many rows `LIMIT limit` lets through: SQLite reads a negative limit
      as no limit at all. */
  function LimitCount(limit: int, n: nat): nat
  {
    if limit < 0 || limit > n then n else limit
  }

  /** The id of the `k`-th newest row. */
  function NthNewest(t: Table, k: nat): string
    requires k < |t.order|
  {
    t.order[|t.order| - 1 - k]
  }

  /** The ids `get_latest_articles(limit)` returns, in its order. */
  function LatestIds(t: Table, limit: int): (r: seq<string>)
    requires TableValid(t)
    ensures forall k :: 0 <= k < |r| ==> r[k] in t.rows
  {
    var n := LimitCount(limit, |t.order|);
    seq(n, k requires 0 <= k < n => NthNewest(t, k))
  }

  /** `get_latest_articles(limit)`. */
  function Latest(t: Table, limit: int): seq<Dict>
    requires TableValid(t)
  {
    var ids := LatestIds(t, limit);
    seq(|ids|, i requires 0 <= i < |ids| => LatestDict(ids[i], t.rows[ids[i]]))
  }

  /** `get_latest_articles(limit)` returns `min(limit, rowcount)` rows, all of
      them for a negative limit. */
  lemma LatestCount(t: Table, limit: int)
    requires TableValid(t)
    ensures var n := |t.rows|;
            && |Latest(t, limit)| == |LatestIds(t, limit)| == (if limit < 0 || limit > n then n else limit)
            && (forall k :: 0 <= k < |LatestIds(t, limit)| ==>
                  Latest(t, limit)[k] == LatestDict(LatestIds(t, limit)[k], t.rows[LatestIds(t, limit)[k]]))
  {
    RowCount(t);
  }

  /** The `k`-th returned row was the `k`-th newest insertion. */
  lemma LatestCreatedAt(t: Table, limit: int)
    requires TableValid(t)
    ensures var ids := LatestIds(t, limit);
            forall k :: 0 <= k < |ids| ==> t.rows[ids[k]].createdAt == |t.order| - 1 - k
  {
  }

  /** The rows come newest first, and every row left out is older than every
      row returned. */
  lemma LatestNewestFirst(t: Table, limit: int)
    requires TableValid(t)
    ensures var ids := LatestIds(t, limit);
            && (forall i, j :: 0 <= i < j < |ids| ==> t.rows[ids[i]].createdAt > t.rows[ids[j]].createdAt)
            && (forall k, id :: 0 <= k < |ids| && id in t.rows && id !in ids ==>
                  t.rows[id].createdAt < t.rows[ids[k]].createdAt)
  {
    var ids := LatestIds(t, limit);
    LatestCreatedAt(t, limit);
    forall id | id in t.rows && id !in ids
      ensures t.rows[id].createdAt < |t.order| - |ids|
    {
      var p :| 0 <= p < |t.order| && t.order[p] == id;
      assert t.rows[id].createdAt == p;
      forall j | 0 <= j < |ids| ensures NthNewest(t, j) != id {
        assert ids[j] in ids && ids[j] == NthNewest(t, j);
      }
      assert NthNewest(t, |t.order| - 1 - p) == id;
      assert |t.order| - 1 - p >= |ids|;
    }
  }

  // ------------------------------------------------------------------
  // _upgrade_database_schema   (toutiao/database.py:57-73)
  // ------------------------------------------------------------------

  /** A table as an older version of the program left it: its column names and
      its rows as column-to-value maps. */
  datatype LegacyTable = LegacyTable(columns: seq<string>, rows: seq<Dict>)

  /** The columns after the upgrade: `read_count`, then `comment_count`, each
      appended only when missing. */
  function UpgradeColumns(columns: seq<string>): seq<string>
  {
    columns + (if "read_count" in columns then [] else ["read_count"])
            + (if "comment_count" in columns then [] else ["comment_count"])
  }

  /** `ALTER TABLE ... ADD COLUMN ... DEFAULT 0` gives every existing row a 0. */
  function UpgradeRow(columns: seq<string>, row: Dict): Dict
  {
    var withRead := if "read_count" in columns then row else row["read_count" := Int(0)];
    if "comment_count" in columns then withRead else withRead["comment_count" := Int(0)]
  }

  function Upgrade(t: LegacyTable): (r: LegacyTable)
  {
    LegacyTable(UpgradeColumns(t.columns),
                seq(|t.rows|, i requires 0 <= i < |t.rows| => UpgradeRow(t.columns, t.rows[i])))
  }

  /** The upgrade only adds the two count columns, each only when missing, keeps
      every existing value, gives the new columns 0, and is a no-op the second time. */
  lemma UpgradeAddsOnlyMissing(t: LegacyTable)
    ensures var u := Upgrade(t);
            && "read_count" in u.columns && "comment_count" in u.columns
            && u.columns[..|t.columns|] == t.columns
            && (forall c :: c in u.columns && c !in t.columns ==> c == "read_count" || c == "comment_count")
            && |u.rows| == |t.rows|
            && (forall i, c :: 0 <= i < |t.rows| && c in t.columns && c in t.rows[i] ==>
                  c in u.rows[i] && u.rows[i][c] == t.rows[i][c])
            && (forall i, c :: 0 <= i < |t.rows| && c in u.columns && c !in t.columns ==>
                  c in u.rows[i] && u.rows[i][c] == Int(0))
            && Upgrade(u) == u
  {
    var u := Upgrade(t);
    assert u.columns[..|t.columns|] == t.columns;
    assert UpgradeColumns(u.columns) == u.columns;
    forall i | 0 <= i < |u.rows| ensures UpgradeRow(u.columns, u.rows[i]) == u.rows[i] {
    }
  }

  // ------------------------------------------------------------------
  // The store object
  // ------------------------------------------------------------------

  /** `ArticleDatabase`: each method opens the table, runs one statement and
      reports the outcome. */
  class ArticleDatabase {
    var rows: map<string, Row>
    var order: seq<string>

    function Contents(): Table
      reads this
    {
      Table(rows, order)
    }

    ghost predicate Valid()
      reads this
    {
      TableValid(Contents())
    }

    /** A new database file: the table is created empty with both count columns. */
    constructor()
      ensures Valid() && rows == map[] && order == []
    {
      rows := map[];
      order := [];
    }

    method AddArticle(data: Dict) returns (added: bool)
      requires Valid()
      modifies this
      ensures Valid()
      ensures Insertion(Contents(), added) == AddArticleSpec(old(Contents()), data)
    {
      AddArticleValid(Contents(), data);
      if "article_id" !in data || "title" !in data || "url" !in data {
        return false;
      }
      var key := KeyOf(data["article_id"]);
      if key.None? || data["title"] == Null || data["url"] == Null {
        return false;
      }
      var id := key.value;
      if id in rows {
        return false;
      }
      rows := rows[id := NewRow(data, |order|)];
      order := order + [id];
      added := true;
    }

    method MarkAsNotified(id: string) returns (found: bool)
      requires Valid()
      modifies this
      ensures Valid()
      ensures Marking(Contents(), found) == MarkSpec(old(Contents()), id)
    {
      MarkOnlyThat(Contents(), id);
      found := id in rows;
      if found {
        rows := rows[id := rows[id].(notified := true)];
      }
    }

    method ArticleExists(id: string) returns (present: bool)
      ensures present <==> id in rows
    {
      present := id in rows;
    }

    /** The `SELECT` picks the rows; the loop turns each into a dictionary. */
    method GetUnnotifiedArticles() returns (r: seq<Dict>)
      requires Valid()
      ensures r == Unnotified(Contents())
    {
      var ids := UnnotifiedIds(rows, order);
      r := [];
      var i := 0;
      while i < |ids|
        invariant i <= |ids| && |r| == i
        invariant forall j :: 0 <= j < i ==> r[j] == RowDict(ids[j], rows[ids[j]])
      {
        r := r + [RowDict(ids[i], rows[ids[i]])];
        i := i + 1;
      }
    }

    method GetLatestArticles(limit: int) returns (r: seq<Dict>)
      requires Valid()
      ensures r == Latest(Contents(), limit)
    {
      var ids := LatestIds(Contents(), limit);
      r := [];
      var i := 0;
      while i < |ids|
        invariant i <= |ids| && |r| == i
        invariant forall j :: 0 <= j < i ==> r[j] == LatestDict(ids[j], rows[ids[j]])
      {
        r := r + [LatestDict(ids[i], rows[ids[i]])];
        i := i + 1;
      }
    }
  }
}

=== FILE: strings.dfy ===
/** Text utilities shared by every component: the few pieces of Python's `str`
    behaviour that the monitor relies on (substring search, `strip`, `isdigit`,
    `str(int)`), stated over Dafny strings (sequences of Unicode scalar values,
    so `|s|` is Python's `len(s)`). */
module Strings {

  datatype Option<+T> = None | Some(value: T)

  predicate IsDigit(c: char) { '0' <= c <= '9' }

  /** Every character is an ASCII digit (true of the empty string). */
  predicate AllDigits(s: string) { forall i :: 0 <= i < |s| ==> IsDigit(s[i]) }

  /** Python's `str.isdigit()` on ASCII text: non-empty and all digits. */
  predicate IsDigitString(s: string) { |s| > 0 && AllDigits(s) }

  function DigitValue(c: char): nat
    requires IsDigit(c)
  {
    (c as int - '0' as int) as nat
  }

  /** The decimal value of a digit string (`int(s)` for a non-empty one). */
  function DigitsValue(s: string): nat
    requires AllDigits(s)
  {
    if s == [] then 0 else DigitsValue(s[..|s| - 1]) * 10 + DigitValue(s[|s| - 1])
  }

  /** The character of a decimal digit. */
  function DigitChar(k: nat): (c: char)
    requires k < 10
    ensures IsDigit(c) && DigitValue(c) == k
  {
    ('0' as int + k) as char
  }

  /** `str(n)` for a natural number. */
  function NatToString(n: nat): (r: string)
    ensures IsDigitString(r)
    ensures |r| > 1 ==> r[0] != '0'
    decreases n
  {
    if n < 10 then [DigitChar(n)]
    else NatToString(n / 10) + [DigitChar(n % 10)]
  }

  /** A digit string without a leading zero starts with a non-zero digit, so its value is positive. */
  lemma {:induction false} DigitsValuePositive(x: string)
    requires IsDigitString(x) && x[0] != '0'
    ensures DigitsValue(x) >= 1
    decreases |x|
  {
    if |x| > 1 {
      DigitsValuePositive(x[..|x| - 1]);
    }
  }

  /** Rendering the value of a digit string without a leading zero gives the string back:
      `str(int(x)) == x`. */
  lemma {:induction false} DigitsRoundTrip(x: string)
    requires IsDigitString(x) && (|x| > 1 ==> x[0] != '0')
    ensures NatToString(DigitsValue(x)) == x
    decreases |x|
  {
    var n := |x|;
    if n > 1 {
      var p := x[..n - 1];
      DigitsValuePositive(p);
      DigitsRoundTrip(p);
      assert DigitsValue(x) / 10 == DigitsValue(p);
      assert DigitsValue(x) % 10 == DigitValue(x[n - 1]);
      assert DigitChar(DigitValue(x[n - 1])) == x[n - 1];
      assert x == p + [x[n - 1]];
    } else {
      assert DigitChar(DigitValue(x[0])) == x[0];
    }
  }

  /** `str(i)` for any Python int. */
  function IntToString(i: int): string
  {
    if i < 0 then "-" + NatToString(-i) else NatToString(i)
  }

  /** Parsing the rendering back gives the number: `int(str(n)) == n`. */
  lemma {:induction false} NatToStringRoundTrip(n: nat)
    ensures DigitsValue(NatToString(n)) == n
    decreases n
  {
    if n >= 10 {
      var r := NatToString(n);
      var p := NatToString(n / 10);
      assert r[..|r| - 1] == p;
      NatToStringRoundTrip(n / 10);
    }
  }

  /** `str(n)` is injective: two numbers with the same rendering are equal. */
  lemma NatToStringInjective(m: nat, n: nat)
    requires NatToString(m) == NatToString(n)
    ensures m == n
  {
    NatToStringRoundTrip(m);
    NatToStringRoundTrip(n);
  }

  /** `s.startswith(p)`. */
  predicate StartsWith(s: string, p: string) { |p| <= |s| && s[..|p|] == p }

  /** `p` occurs in `s` at index `i`. */
  predicate OccursAt(s: string, p: string, i: nat) { i + |p| <= |s| && s[i..i + |p|] == p }

  /** `p in s` for strings. */
  predicate Contains(s: string, p: string) { exists i: nat :: i <= |s| && OccursAt(s, p, i) }

  /** The index of the first occurrence of `p` in `s` at or after `from`, as `s.find(p, from)`. */
  function FindFrom(s: string, p: string, from: nat): (r: Option<nat>)
    ensures r.Some? ==> from <= r.value && OccursAt(s, p, r.value)
    ensures r.Some? ==> forall j: nat :: from <= j < r.value ==> !OccursAt(s, p, j)
    ensures r.None? ==> forall j: nat :: from <= j ==> !OccursAt(s, p, j)
    decreases |s| - from
  {
    if from + |p| > |s| then None
    else if OccursAt(s, p, from) then Some(from)
    else FindFrom(s, p, from + 1)
  }

  lemma ContainsIffFound(s: string, p: string)
    ensures Contains(s, p) <==> FindFrom(s, p, 0).Some?
  {
    var r := FindFrom(s, p, 0);
    if r.Some? { assert OccursAt(s, p, r.value); }
  }

  /** Text before the first `c`: Python's `s.split(c)[0]`. */
  function BeforeFirst(s: string, c: char): (r: string)
    ensures |r| <= |s| && r == s[..|r|]
    ensures c !in r
    ensures |r| < |s| ==> s[|r|] == c
  {
    if s == [] then []
    else if s[0] == c then []
    else [s[0]] + BeforeFirst(s[1..], c)
  }

  /** Python's `str.isspace()` on one character: ASCII whitespace, the
      separators 0x1C-0x1F, and the Unicode space characters. */
  predicate IsSpace(c: char)
  {
    c == ' ' || ('\t' <= c <= '\r') || ('\U{1C}' <= c <= '\U{1F}')
    || c == '\U{85}' || c == '\U{A0}' || c == '\U{1680}'
    || ('\U{2000}' <= c <= '\U{200A}') || c == '\U{2028}' || c == '\U{2029}'
    || c == '\U{202F}' || c == '\U{205F}' || c == '\U{3000}'
  }

  function StripLeft(s: string): (r: string)
    ensures |r| <= |s| && r == s[|s| - |r|..]
    ensures r == [] || !IsSpace(r[0])
    ensures forall i :: 0 <= i < |s| - |r| ==> IsSpace(s[i])
  {
    if s != [] && IsSpace(s[0]) then StripLeft(s[1..]) else s
  }

  function StripRight(s: string): (r: string)
    ensures |r| <= |s| && r == s[..|r|]
    ensures r == [] || !IsSpace(r[|r| - 1])
    ensures forall i :: |r| <= i < |s| ==> IsSpace(s[i])
  {
    if s != [] && IsSpace(s[|s| - 1]) then StripRight(s[..|s| - 1]) else s
  }

  /** Python's `s.strip()`: drop the whitespace at both ends and nothing else. */
  function Strip(s: string): (r: string)
    ensures r == [] || (!IsSpace(r[0]) && !IsSpace(r[|r| - 1]))
  {
    var l := StripLeft(s);
    var r := StripRight(l);
    assert r != [] ==> r[0] == l[0];
    r
  }

  /** `strip` keeps a contiguous slice and removes only whitespace around it. */
  lemma StripRemovesOnlySpace(s: string)
    ensures exists a, b :: 0 <= a <= b <= |s| && Strip(s) == s[a..b]
                           && (forall i :: 0 <= i < a ==> IsSpace(s[i]))
                           && (forall i :: b <= i < |s| ==> IsSpace(s[i]))
  {
    var a, b := StripSlice(s);
  }

  /** The bounds of the slice `strip` keeps. */
  lemma StripSlice(s: string) returns (a: nat, b: nat)
    ensures a <= b <= |s| && Strip(s) == s[a..b]
    ensures forall i :: 0 <= i < a ==> IsSpace(s[i])
    ensures forall i :: b <= i < |s| ==> IsSpace(s[i])
  {
    var l := StripLeft(s);
    var r := StripRight(l);
    a := |s| - |l|;
    b := a + |r|;
    TrimmedSlice(s, l, r);
  }

  lemma TrimmedSlice(s: string, l: string, r: string)
    requires |l| <= |s| && l == s[|s| - |l|..]
    requires |r| <= |l| && r == l[..|r|]
    requires forall i :: |r| <= i < |l| ==> IsSpace(l[i])
    ensures var a := |s| - |l|; r == s[a..a + |r|]
    ensures forall i :: |s| - |l| + |r| <= i < |s| ==> IsSpace(s[i])
  {
    var a := |s| - |l|;
    assert s[a..a + |r|] == s[a..][..|r|];
    forall i | a + |r| <= i < |s| ensures IsSpace(s[i]) {
      assert s[i] == l[i - a];
    }
  }

  /** Stripping twice changes nothing more. */
  lemma StripIdempotent(s: string)
    ensures Strip(Strip(s)) == Strip(s)
  {
    var r := Strip(s);
    assert StripLeft(r) == r;
    assert StripRight(r) == r;
  }

  predicate AllSpace(s: string) { forall i :: 0 <= i < |s| ==> IsSpace(s[i]) }

  lemma {:induction false} StripLeftPadded(lead: string, s: string)
    requires AllSpace(lead) && (s == [] || !IsSpace(s[0]))
    ensures StripLeft(lead + s) == s
    decreases |lead|
  {
    if lead != [] {
      assert (lead + s)[1..] == lead[1..] + s;
      StripLeftPadded(lead[1..], s);
    } else {
      assert lead + s == s;
    }
  }

  lemma {:induction false} StripRightPadded(s: string, trail: string)
    requires AllSpace(trail) && (s == [] || !IsSpace(s[|s| - 1]))
    ensures StripRight(s + trail) == s
    decreases |trail|
  {
    var t := s + trail;
    if trail != [] {
      assert t[..|t| - 1] == s + trail[..|trail| - 1];
      StripRightPadded(s, trail[..|trail| - 1]);
    } else {
      assert t == s;
    }
  }

  /** `strip` removes exactly the whitespace padding around a text that neither
      starts nor ends with whitespace. */
  lemma StripPadded(lead: string, s: string, trail: string)
    requires AllSpace(lead) && AllSpace(trail)
    requires s == [] || (!IsSpace(s[0]) && !IsSpace(s[|s| - 1]))
    ensures Strip(lead + s + trail) == s
  {
    if s == [] {
      assert lead + s + trail == lead + trail;
      StripLeftPadded(lead + trail, []);
      assert lead + trail + [] == lead + trail;
      StripRightPadded([], []);
    } else {
      assert lead + s + trail == lead + (s + trail);
      StripLeftPadded(lead, s + trail);
      StripRightPadded(s, trail);
    }
  }

  /** `strip` gives the empty string exactly on all-whitespace text. */
  lemma StripEmptyIffSpace(s: string)
    ensures Strip(s) == [] <==> AllSpace(s)
  {
    if AllSpace(s) {
      StripPadded(s, [], []);
      assert s + [] + [] == s;
    } else {
      StripRemovesOnlySpace(s);
    }
  }
}
